=== FILE: README.md ===
# DALI operator graph construction, modelled in Dafny

This project models how DALI's Python operator layer
(`dali/python/nvidia/dali/ops/__init__.py`) turns operator objects and their
calls into graph nodes. The model covers these steps:

- **Construction.** `Operator(device=..., **kwargs)` splits its keyword
  arguments into construction-time configuration and call-time argument
  inputs, and checks each call-time argument against the schema. It takes
  `preserve` out of the configuration, then renames or removes deprecated
  arguments.
- **The call.** `op(*inputs, **kwargs)` checks the number of positional
  inputs and turns non-input values into constant nodes. It expands list
  inputs into several input sets and builds one `_OperatorInstance` per set.
  It then ties the instances into one relation and repacks their outputs.
- **Instances.** Each `_OperatorInstance` does the following:
  - it takes an id from the process-wide `_OpCounter`;
  - it promotes scalar-constant inputs to constant nodes;
  - it merges the call-time arguments with those bound at construction;
  - it names itself and attaches its argument inputs in sorted order;
  - its `generate_outputs` mints the output handles and registers sinks
    for operators with side effects.
- **Arithmetic expressions.** `_arithm_op` sorts the operands of an
  expression into edges, integer constants and real constants, and writes
  the `ArithmeticGenericOp` expression description. The expression runs on
  the GPU when some edge does.

The Python values that reach these functions are a `Value` datatype:
- data handles;
- scalar constants;
- literals, strings, lists and tuples;
- an `Opaque` case for every other object.

Keyword arguments are an ordered list of distinct `(name, value)` pairs. The
schema is a record holding the answers to the questions the layer asks it.
The state is passed in and returned explicitly: the id counter, and the
current pipeline with its sinks (`Pipeline.current()`, which may be absent).
A Python exception is an `Err` of a `Result`.

Modules, one per file:
- `Strings`: decimal digits, string order, sorting, join and split.
- `Values`: the `Value` datatype.
- `Outcomes`: errors, warnings, `Result` and `Option`.
- `Kwargs`: dicts and `_separate_kwargs`.
- `Backend`: the schema and its checks.
- `Graph`: the counter, the pipeline, names and constant nodes.
- `InputSets`: the input-set helpers of `Operator`.
- `OperatorInstance`: `_OperatorInstance`.
- `Operators`: `Operator.__init__`, `_preprocess_inputs` and `Operator.__call__`.
- `Arithmetic`: `_arithm_op` and its helpers.

## Model

| member | source | states |
|---|---|---|
| `Graph.Allocate` | dali/python/nvidia/dali/ops/__init__.py:50-61 | each new id is at least the counter's current value, and the counter afterwards is strictly past it, so later instances get larger ids |
| `Graph.InstantiateConstant` | dali/python/nvidia/dali/ops/__init__.py:64-66 | a constant node exists exactly when the value can be turned into a constant; its handle is produced by the fresh id and lives on the output device of the requested device |
| `Graph.DefaultNameInjective` | dali/python/nvidia/dali/ops/__init__.py:166 | two instances of one operator type with different ids never get the same default name |
| `Kwargs.SeparateKwargs` | dali/python/nvidia/dali/ops/__init__.py:69-107 | the two dicts have distinct and disjoint keys that together are the supplied (non-`None`) keys; construction-time entries fail `is_call_arg` and hold the unwrapped scalar, call-time entries pass it and hold the original value |
| `Kwargs.SeparateKwargsKeys` | dali/python/nvidia/dali/ops/__init__.py:99-107 | the call-time part has exactly the supplied keys that `is_call_arg` accepts, none of them `None`; the construction-time part has every other supplied key |
| `Kwargs.SeparateKwargsReservedNames` | dali/python/nvidia/dali/ops/__init__.py:83-101 | a supplied `device` or `ndim` always configures the operator, a supplied `name` is always call-time, and a `None` argument lands in neither part |
| `Backend.CheckNumInputs` | dali/python/nvidia/dali/ops/__init__.py:460-465 | succeeds exactly when the input count is within the schema's bounds, and otherwise reports the bounds and the count; `Operators.Call` lifts this to the whole call |
| `Backend.CheckArgInput` | dali/python/nvidia/dali/ops/__init__.py:286-293 | succeeds exactly for `name` and the schema's tensor arguments, and otherwise reports the argument; `Operators.MakeOperator` lifts this to construction |
| `Operators.CheckArgInputs` | dali/python/nvidia/dali/ops/__init__.py:312-313 | succeeds exactly when every call-time key is accepted; an error names the first key that is not |
| `Operators.RemapDeprecatedArgs` | dali/python/nvidia/dali/ops/__init__.py:324-345 | a conflict error names a renamed argument whose new name is already among the arguments or is also the new name of another renamed argument; without rename clashes the loop succeeds, and a rename onto a surviving argument always fails; on success dropped arguments are gone, others keep their values, renamed values sit under their new names, and one warning is emitted per deprecated argument in order |
| `Operators.RenameDeprecatedArgs` | dali/python/nvidia/dali/ops/__init__.py:325-345 | the same loop stated over the set of argument names: the resulting names are exactly the supplied names that are neither renamed nor removed, plus the new names of the renamed ones; fresh renames succeed, a clash fails, and a conflict error names a renamed argument whose new name is supplied or shared with another rename; kept and renamed values are preserved, and warnings concern deprecated arguments only |
| `Operators.MakeOperator` | dali/python/nvidia/dali/ops/__init__.py:300-348 | fails with an argument-input error exactly when some call-time argument other than `name` is not a tensor argument; the bound call arguments are exactly the call-time ones with their values; `preserve` is the truth of the supplied flag or the schema's no-prune flag; the configuration arguments are exactly the supplied non-call-time ones other than `preserve` that are neither renamed nor removed, plus the new names of the renamed ones, each kept or renamed one with its unwrapped value; a rename clash fails with a conflict naming a renamed argument whose new name is supplied or shared with another rename |
| `OperatorInstance.PromoteScalarInputs` | dali/python/nvidia/dali/ops/__init__.py:136-143 | same length; non-scalar inputs are unchanged; each scalar constant becomes a node on the output device with a fresh id, in increasing order of position |
| `OperatorInstance.MergeCallArgs` | dali/python/nvidia/dali/ops/__init__.py:153-160 | succeeds exactly when no supplied call argument was bound at construction; an error names such an argument; on success the keys are the bound keys plus the supplied ones, bound values are kept and supplied values added |
| `OperatorInstance.AttachArgumentInputs` | dali/python/nvidia/dali/ops/__init__.py:175-194 | succeeds exactly when every argument input is a handle or convertible constant and a tensor argument, and an error gives the exception of the first refused key in the sorted key order; on success exactly the argument-input keys are attached, in sorted order, each as its own handle or as a CPU constant node with a fresh id |
| `OperatorInstance.CheckPositional` | dali/python/nvidia/dali/ops/__init__.py:168-173 | succeeds exactly when every positional input is a handle, returning those handles; an error names the first input that is not |
| `OperatorInstance.NewInstance` | dali/python/nvidia/dali/ops/__init__.py:128-207 | an instance is built exactly when no call-time argument was bound at construction, every input is a handle or a scalar constant, and every argument input is a handle or convertible constant given for a tensor argument; a duplicate-argument error happens exactly when a call-time argument was bound at construction; an input-type error happens exactly when there is no duplicate and some input is neither a handle nor a scalar constant; an argument-input error happens exactly when neither of those does and some argument input is refused, and it names the first refused one in sorted key order; on success the instance takes the counter's id as id and relation id, is named by the call's or operator's `name` or else by its default name, keeps handle inputs, promotes scalar inputs to fresh nodes, attaches the call-time arguments other than `name` in sorted order, records the construction-time arguments and emits the deprecation warning of a deprecated operator |
| `OperatorInstance.OutputNamesDistinct` | dali/python/nvidia/dali/ops/__init__.py:230-233 | different outputs of one instance have different names |
| `OperatorInstance.GenerateOutputs` | dali/python/nvidia/dali/ops/__init__.py:212-238 | fails exactly when a side-effect operator has no current pipeline; otherwise only the outputs change; the new outputs, counted as the schema says, are produced by this instance on the output device, named after the instance, alone for one output and as `name[i]` for output `i` of several; side-effect operators register exactly those outputs, or one sink when there are none, and other operators leave the pipeline alone |
| `OperatorInstance.UnwrappedOutputs` | dali/python/nvidia/dali/ops/__init__.py:253-257 | a single output comes back on its own, any other number as the list of outputs |
| `Operators.PreprocessInputs` | dali/python/nvidia/dali/ops/__init__.py:872-903 | succeeds exactly when every non-input is convertible, and an error names the first non-convertible position; inputs stay as they are, every other value becomes a constant node on its position's input device with a fresh id; when all values are inputs nothing changes |
| `InputSets.MaxSafeLen` | dali/python/nvidia/dali/ops/__init__.py:405 | the result bounds every input's length and is attained by one of them |
| `InputSets.CheckCommonLength` | dali/python/nvidia/dali/ops/__init__.py:404-418 | succeeds exactly when some common length fits every list and bounds every input; the result is that length and is attained; a mismatch is reported for the operator |
| `InputSets.UnifyLists` | dali/python/nvidia/dali/ops/__init__.py:422-429 | every position becomes a list of the common length: lists are kept and other inputs are repeated |
| `InputSets.RepackList` | dali/python/nvidia/dali/ops/__init__.py:449-458 | element `k` of every row is gathered, in row order, into result row `k` |
| `InputSets.RepackListTwice` | dali/python/nvidia/dali/ops/__init__.py:433-458 | repacking the repacked rows gives back the original rows |
| `InputSets.BuildInputSets` | dali/python/nvidia/dali/ops/__init__.py:467-477 | without list inputs the inputs are the only set; with them the expansion succeeds exactly when the lists share a length, and input set `j` takes element `j` of each list and every non-list input |
| `InputSets.RepackOutputSets` | dali/python/nvidia/dali/ops/__init__.py:441-447 | several single-output sets give the flat list of those outputs; otherwise output `k` of every set is gathered, in set order, into group `k` |
| `Operators.BuildInstances` | dali/python/nvidia/dali/ops/__init__.py:373-377 | one instance per input set, with ids strictly increasing from the counter, each keeping its set's handles; each is named by the call's or operator's `name` or else by its default name, carries the operator's outputs produced by it and named after it, and has its argument inputs in sorted order, one per call-time argument other than `name`, each the given handle or a CPU constant node made after it; only the listed error kinds occur; handle-only sets never give an input-type error; without `preserve` the pipeline is unchanged, and with it the pipeline afterwards holds its earlier sinks followed by each instance's outputs, in instance order, or its one named sink when the operator has no outputs |
| `Operators.ExpandInputs` | dali/python/nvidia/dali/ops/__init__.py:366-371 | succeeds exactly when the input count is in range, every value `is_input` refuses can be made a constant, and the input lists all have one length; a count error happens exactly when the count is out of range, a conversion error exactly when the count fits and some value cannot be converted, naming the first such position, and a length mismatch exactly when only the list lengths differ; on success there is at least one input set of inputs only, one set without list inputs and one per list element with them; handles and scalar constants are repeated unchanged in every set, list elements go to their set, and a literal becomes one constant node, the same in every set, on its position's input device |
| `Operators.BuildInstancesOutcome` | dali/python/nvidia/dali/ops/__init__.py:373-377 | building the instances succeeds exactly when every input set is buildable as `OperatorInstance.NewInstance` states and, when there is a set, a side-effect operator has a current pipeline; an argument-input error names the first refused argument input in sorted key order |
| `Operators.TiedFacts` | dali/python/nvidia/dali/ops/__init__.py:379-382 | after tying, every instance's relation id is the first instance's id while everything else about it stays; since each instance's argument-input names are the same call-time keys in sorted order, all instances have the same argument-input names, and a handle given as an argument input is the same handle in each |
| `Operators.PackOutputs` | dali/python/nvidia/dali/ops/__init__.py:384-391 | one instance gives its unwrapped outputs, several single-output instances the flat list of their outputs, and otherwise one group per output index across instances |
| `Operators.Call` | dali/python/nvidia/dali/ops/__init__.py:366-397 | succeeds exactly when the inputs expand into input sets, no call-time argument was bound at construction, every argument input is accepted, and a side-effect operator has a current pipeline; on success there is at least one instance, with strictly increasing fresh ids, all sharing the first one's id as relation id; broadcast handles and list elements are in place; a literal positional input is one constant node shared by all instances on its position's input device, while a scalar constant becomes a node of each instance's own, made after it, on the operator's default input device; every instance is named by the call's or operator's `name` or its default name, its outputs are produced by it and named after it, its argument inputs are the call-time arguments other than `name` in sorted order, the same names in every instance, and a handle argument input is shared by all instances; the result is the packed outputs; without `preserve` the pipeline is unchanged, and with it the pipeline afterwards holds its earlier sinks followed by each instance's outputs, in instance order, or its one named sink when the operator has no outputs |
| `Operators.CallErrors` | dali/python/nvidia/dali/ops/__init__.py:366-377 | a count error happens exactly when the input count is out of range, a conversion error exactly when the count fits and some value cannot be converted, naming the first such position, and a length mismatch exactly when only the list lengths differ; an argument-input error names the first refused argument input in sorted key order; no call fails for want of input sets or with an input-type error |
| `Arithmetic.CategoriesPartition` | dali/python/nvidia/dali/ops/__init__.py:906-935 | boolean-like values are integer-like, no value is both integer-like and real-like, and every literal or scalar constant is one of the two |
| `Arithmetic.DTypeDescRoundTrip` | dali/python/nvidia/dali/ops/__init__.py:947-961 | the type descriptions name the element types one to one: reading a description back gives exactly its type |
| `Arithmetic.ToTypeDesc` | dali/python/nvidia/dali/ops/__init__.py:938-966 | succeeds exactly for number literals and scalar constants; the description reads back as the constant's type, or as `bool`, `int32` and `float32` for Python literals; anything else is rejected |
| `Arithmetic.TypeDescCategory` | dali/python/nvidia/dali/ops/__init__.py:918-966 | an integer-like constant is described by an integer or boolean type, a real-like one by a floating-point type |
| `Arithmetic.Classify` | dali/python/nvidia/dali/ops/__init__.py:981-995 | handles are edges; other integer-like values are integer constants; remaining real-like values are real constants; everything else is rejected |
| `Arithmetic.CountBeforeCovers` | dali/python/nvidia/dali/ops/__init__.py:981-989 | every slot of a category's list is taken by some operand of that category |
| `Arithmetic.GroupInputs` | dali/python/nvidia/dali/ops/__init__.py:973-1001 | succeeds exactly when every normalised operand has a category, and an error names the first that does not; each operand sits at its category's running index in its list, each list is as long as its category has operands, and an empty constant list is `None` |
| `Arithmetic.InputDescRoundTrip` | dali/python/nvidia/dali/ops/__init__.py:1004-1019 | splitting the description at spaces and reading each token gives back every operand's category index and type, in order |
| `Arithmetic.TokenRoundTrip` | dali/python/nvidia/dali/ops/__init__.py:1011-1016 | each operand token reads back as the operand it was written for |
| `Arithmetic.ChooseDevice` | dali/python/nvidia/dali/ops/__init__.py:862-869 | the GPU is chosen exactly when some operand is a GPU handle or a list or tuple holding one; otherwise the CPU |
| `Arithmetic.ArithmOp` | dali/python/nvidia/dali/ops/__init__.py:1022-1036 | succeeds exactly when every operand has a category; the edges are the handle operands in order; the device is the GPU exactly when some edge is on the GPU; the expression is `name(...)` whose inside reads back as the operands |

## Left out

- Conditional execution (`_conditionals`), the `warnings` module's filters, and the lock around the id counter are not modelled. The model is sequential and returns warnings as data.
- `_add_spec_args`, `OpSpec` and the schema's own logic are left out. The schema is a record of answers to the questions the layer asks it, and the argument values recorded in a spec are kept as a dict.
- The constant factories `_Constant` and `types.Constant` are not modelled inside. Whether a value converts is the `ConstantConvertible` predicate; `Opaque` values carry a flag for it. `types.Constant` in `_group_inputs` is a function parameter.
- `_int_like_types`, `_bool_types` and `_float_types` are imported from `types.py`, which is not part of this model. They are taken to be the boolean and integer types, the boolean type, and the three floating-point types.
- A `name` argument that is not a string is excluded by the `NameIsString` precondition. Python would store any object as the name.
- An exception in the middle of a call also advances the Python counter and may already have emitted warnings. The model returns only the error.
- `inputs is None` in `_OperatorInstance.__init__` is not modelled; every call passes a sequence.
- The `_op_name` formatting of the deprecation message is left out. The warning records the operator, the replacement and the explanation.
- The `.gpu()` transfer of edges and the call of `ArithmeticGenericOp` at the end of `_arithm_op` are left out. The model stops at the arguments that call receives.
- `_load_ops`, `Reload`, `_wrap_op`, the metaclass, `PythonFunction`, `DLTensorPythonFunction`, `_TFRecordReaderImpl`, `_CompoundOp` and `dltensor_function.cc` are not part of this model.
- Operators.Call: states nothing about the warnings a call emits. Its error conditions are in `Operators.CallErrors`, except which of a duplicate argument, a refused argument input and a missing pipeline is reported when several hold; `OperatorInstance.NewInstance` and `OperatorInstance.GenerateOutputs` order those for one instance.
- Operators.BuildInstances: states nothing about the warnings of the instances it builds; `OperatorInstance.NewInstance` states them for each instance. Its exact success condition is the separate lemma `Operators.BuildInstancesOutcome`.
- Backend.NumOutputs: the output count is taken as a per-operator constant of the schema. The code asks the schema for `CalculateOutputs` and `CalculateAdditionalOutputs` of each instance's own spec (`__init__.py:222-223`), which depends on the spec arguments; that computation belongs to the schema, which is not part of this model.
- Arithmetic.ArithmOp: does not restate the integer and real constant lists. `Arithmetic.GroupInputs` states them.
- Arithmetic.InputDescRoundTrip: requires at least one operand. An empty description splits into one empty token, and arithmetic operators always have operands.

## Notes on the code

- An argument input is converted to a constant node first (`__init__.py:180-189`) and checked against the schema afterwards (`__init__.py:191`). A value that cannot be converted, given for a non-tensor argument, therefore fails with the conversion error. `OperatorInstance.AttachArgumentInputs` states this order.
- A literal argument input is converted once per instance, so each instance of a call with several input sets gets its own constant node for it. Only handle argument inputs are shared, as `Operators.Call` states.
- The same holds for positional inputs. A literal is turned into a constant node once, in `_preprocess_inputs`, before the input sets are built, and `_unify_lists` (`__init__.py:422-429`) repeats that one node in every set. A scalar constant (`types.ScalarConstant`) is left alone there and promoted in each instance (`__init__.py:141-142`), so every instance gets a node of its own, on the default input device of the operator rather than the input device of its position.
- When a call fails part-way, the id counter has already advanced and constant nodes already exist. Sinks of earlier input sets of the same call have also been registered. The model returns only the error (see "Left out").
- Positional scalar constants are promoted in `_OperatorInstance.__init__` (`__init__.py:141-142`). Other literals are turned into constant nodes earlier, in `_preprocess_inputs` (`__init__.py:885-902`). A value that cannot be converted raises `TypeError` there.
- The duplicate-argument check (`__init__.py:153-160`) concerns only call-time arguments that were also bound as call-time arguments at construction. Construction-style arguments given at call time go to `_add_spec_args` on the instance's copy of the spec (`__init__.py:151`). Whether that refuses a repeated argument is up to `OpSpec`, which is not part of this model.

=== FILE: arithmetic.dfy ===
/** The setup of an arithmetic expression node: the operands of `a + b` and
    friends are sorted into graph edges, integer constants and real
    constants; each operand becomes a token of the `ArithmeticGenericOp`
    expression (`&k` for edge `k`, `$k:<type>` for constant `k`); and the
    node runs on the GPU when some edge does. */
module Arithmetic {
  import opened Strings
  import opened Values
  import opened Outcomes

  // ---------------------------------------------------------------------------
  // Type categories

  /** `_bool_types`, `_int_like_types` and `_float_types`. */
  const BoolTypes: set<DType> := {BOOL}
  const IntLikeTypes: set<DType> := {BOOL, INT8, INT16, INT32, INT64, UINT8, UINT16, UINT32, UINT64}
  const FloatTypes: set<DType> := {FLOAT16, FLOAT, FLOAT64}

  /** `_is_boolean_like`: a Python `bool` or a boolean scalar constant. */
  predicate IsBooleanLike(v: Value) {
    v.BoolLit? || (v.Scalar? && v.c.dtype in BoolTypes)
  }

  /** `_is_integer_like`: boolean-like, a Python `int`, or an integer scalar
      constant. */
  predicate IsIntegerLike(v: Value) {
    IsBooleanLike(v) || v.IntLit? || (v.Scalar? && v.c.dtype in IntLikeTypes)
  }

  /** `_is_real_like`: a Python `float` or a floating-point scalar constant. */
  predicate IsRealLike(v: Value) {
    v.FloatLit? || (v.Scalar? && v.c.dtype in FloatTypes)
  }

  /** The categories split the constants: every literal and every scalar
      constant is integer-like or real-like and never both, and whatever is
      boolean-like is integer-like. */
  lemma CategoriesPartition(v: Value)
    ensures IsBooleanLike(v) ==> IsIntegerLike(v)
    ensures !(IsIntegerLike(v) && IsRealLike(v))
    ensures v.Scalar? || IsNumberLiteral(v) <==> IsIntegerLike(v) || IsRealLike(v)
  {
    if v.Scalar? {
      match v.c.dtype
      case BOOL =>
      case INT8 =>
      case INT16 =>
      case INT32 =>
      case INT64 =>
      case UINT8 =>
      case UINT16 =>
      case UINT32 =>
      case UINT64 =>
      case FLOAT16 =>
      case FLOAT =>
      case FLOAT64 =>
    }
  }

  // ---------------------------------------------------------------------------
  // Type descriptions

  /** `dtype_to_desc` in `_to_type_desc`. */
  function DTypeDesc(t: DType): string {
    match t
    case BOOL => "bool"
    case INT8 => "int8"
    case INT16 => "int16"
    case INT32 => "int32"
    case INT64 => "int64"
    case UINT8 => "uint8"
    case UINT16 => "uint16"
    case UINT32 => "uint32"
    case UINT64 => "uint64"
    case FLOAT16 => "float16"
    case FLOAT => "float32"
    case FLOAT64 => "float64"
  }

  /** Reading a type description back, as the expression parser of the
      backend does. */
  function DescDType(s: string): Option<DType> {
    if s == "bool" then Some(BOOL)
    else if s == "int8" then Some(INT8)
    else if s == "int16" then Some(INT16)
    else if s == "int32" then Some(INT32)
    else if s == "int64" then Some(INT64)
    else if s == "uint8" then Some(UINT8)
    else if s == "uint16" then Some(UINT16)
    else if s == "uint32" then Some(UINT32)
    else if s == "uint64" then Some(UINT64)
    else if s == "float16" then Some(FLOAT16)
    else if s == "float32" then Some(FLOAT)
    else if s == "float64" then Some(FLOAT64)
    else None
  }

  /** The descriptions name the types one to one, and reading one back gives
      its type. */
  lemma DTypeDescRoundTrip(t: DType, s: string)
    ensures DescDType(s) == Some(t) <==> DTypeDesc(t) == s
  {
  }

  /** `_to_type_desc`: Python literals are described as `bool`, `int32` and
      `float32`, scalar constants by their type; anything else is rejected. */
  function ToTypeDesc(v: Value): (r: Result<string>)
    ensures r.Ok? <==> v.Scalar? || IsNumberLiteral(v)
    ensures r.Err? ==> r.error == UnsupportedConstantType
    ensures r.Ok? && v.Scalar? ==> DescDType(r.value) == Some(v.c.dtype)
    ensures r.Ok? && v.BoolLit? ==> DescDType(r.value) == Some(BOOL)
    ensures r.Ok? && v.IntLit? ==> DescDType(r.value) == Some(INT32)
    ensures r.Ok? && v.FloatLit? ==> DescDType(r.value) == Some(FLOAT)
  {
    match v
    case BoolLit(_) => Ok("bool")
    case IntLit(_) => Ok("int32")
    case FloatLit(_) => Ok("float32")
    case Scalar(c) =>
      DTypeDescRoundTrip(c.dtype, DTypeDesc(c.dtype));
      Ok(DTypeDesc(c.dtype))
    case _ => Err(UnsupportedConstantType)
  }

  /** A constant's description agrees with its category: integer-like
      constants are described by an integer or boolean type, real-like ones
      by a floating-point type. */
  lemma TypeDescCategory(v: Value)
    requires IsIntegerLike(v) || IsRealLike(v)
    ensures ToTypeDesc(v).Ok?
    ensures IsIntegerLike(v) ==> DescDType(ToTypeDesc(v).value).value in IntLikeTypes
    ensures IsRealLike(v) ==> DescDType(ToTypeDesc(v).value).value in FloatTypes
  {
    CategoriesPartition(v);
  }

  // ---------------------------------------------------------------------------
  // Grouping the operands

  datatype Category = EdgeInput | IntegerConstant | RealConstant

  /** The first step of `_group_inputs`: a handle, a scalar constant or a
      Python number is kept; anything else goes through `types.Constant`,
      given here as `constant`. */
  function Normalize(v: Value, constant: Value -> Value): Value {
    if v.Node? || v.Scalar? || IsNumberLiteral(v) then v else constant(v)
  }

  function Normalized(inputs: seq<Value>, constant: Value -> Value): (ws: seq<Value>)
    ensures |ws| == |inputs| && forall i :: 0 <= i < |inputs| ==> ws[i] == Normalize(inputs[i], constant)
  {
    seq(|inputs|, i requires 0 <= i < |inputs| => Normalize(inputs[i], constant))
  }

  /** The category `_group_inputs` puts an operand in; `None` is the
      `TypeError` branch. */
  function Classify(w: Value): (r: Option<Category>)
    ensures r == Some(EdgeInput) <==> w.Node?
    ensures r == Some(IntegerConstant) <==> !w.Node? && IsIntegerLike(w)
    ensures r == Some(RealConstant) <==> !w.Node? && !IsIntegerLike(w) && IsRealLike(w)
  {
    if w.Node? then Some(EdgeInput)
    else if IsIntegerLike(w) then Some(IntegerConstant)
    else if IsRealLike(w) then Some(RealConstant)
    else None
  }

  /** How many of the first `n` operands fall in category `cat`. */
  function CountBefore(ws: seq<Value>, n: nat, cat: Category): (k: nat)
    requires n <= |ws|
    ensures k <= n
  {
    if n == 0 then 0
    else CountBefore(ws, n - 1, cat) + (if Classify(ws[n - 1]) == Some(cat) then 1 else 0)
  }

  /** Counting is monotone: an operand of category `cat` at position `i`
      precedes `CountBefore(ws, i, cat) + 1 <= CountBefore(ws, n, cat)`
      operands of that category among the first `n` for every `n > i`. */
  lemma {:induction false} CountBeforeBound(ws: seq<Value>, i: nat, n: nat, cat: Category)
    requires i < n <= |ws| && Classify(ws[i]) == Some(cat)
    ensures CountBefore(ws, i, cat) < CountBefore(ws, n, cat)
    decreases n
  {
    if n > i + 1 {
      CountBeforeBound(ws, i, n - 1, cat);
    }
  }

  /** Every slot of a category's list is taken by exactly one operand: slot
      `j` is the operand of that category preceded by `j` others of it. */
  lemma {:induction false} CountBeforeCovers(ws: seq<Value>, n: nat, cat: Category, j: nat)
    requires n <= |ws| && j < CountBefore(ws, n, cat)
    ensures exists i :: 0 <= i < n && Classify(ws[i]) == Some(cat) && CountBefore(ws, i, cat) == j
    decreases n
  {
    if j < CountBefore(ws, n - 1, cat) {
      CountBeforeCovers(ws, n - 1, cat, j);
    } else {
      assert Classify(ws[n - 1]) == Some(cat) && CountBefore(ws, n - 1, cat) == j;
    }
  }

  /** What `_group_inputs` returns: the category and slot of every operand,
      the edges, and the integer and real constants (`None` when there are
      none). */
  datatype Grouping = Grouping(
    categories: seq<(Category, nat)>,
    edges: seq<Handle>,
    integers: Option<seq<Value>>,
    reals: Option<seq<Value>>)

  /** The constants of a category as a possibly empty list. */
  function Constants(o: Option<seq<Value>>): seq<Value> {
    if o.Some? then o.value else []
  }

  /** Operand `k` sits in the slot its entry names, and that slot is its
      category's running index. */
  ghost predicate Placed(ws: seq<Value>, k: nat, entry: (Category, nat), edges: seq<Handle>, integers: seq<Value>, reals: seq<Value>)
    requires k < |ws|
  {
    && Classify(ws[k]) == Some(entry.0)
    && entry.1 == CountBefore(ws, k, entry.0)
    && (entry.0 == EdgeInput ==> entry.1 < |edges| && edges[entry.1] == ws[k].h)
    && (entry.0 == IntegerConstant ==> entry.1 < |integers| && integers[entry.1] == ws[k])
    && (entry.0 == RealConstant ==> entry.1 < |reals| && reals[entry.1] == ws[k])
  }

  lemma PlacedExtend(ws: seq<Value>, k: nat, entry: (Category, nat), edges: seq<Handle>, integers: seq<Value>, reals: seq<Value>,
                     edges': seq<Handle>, integers': seq<Value>, reals': seq<Value>)
    requires k < |ws| && Placed(ws, k, entry, edges, integers, reals)
    requires edges <= edges' && integers <= integers' && reals <= reals'
    ensures Placed(ws, k, entry, edges', integers', reals')
  {
  }

  /** `_group_inputs`. */
  method GroupInputs(inputs: seq<Value>, constant: Value -> Value) returns (r: Result<Grouping>)
    ensures var ws := Normalized(inputs, constant);
            r.Ok? <==> forall i :: 0 <= i < |ws| ==> Classify(ws[i]).Some?
    ensures var ws := Normalized(inputs, constant);
            r.Err? ==> exists i :: 0 <= i < |ws| && r.error == UnsupportedArithmeticArgument(i)
                                  && Classify(ws[i]).None?
                                  && forall k :: 0 <= k < i ==> Classify(ws[k]).Some?
    ensures var ws := Normalized(inputs, constant);
            r.Ok? ==>
              && |r.value.categories| == |inputs|
              && |r.value.edges| == CountBefore(ws, |ws|, EdgeInput)
              && |Constants(r.value.integers)| == CountBefore(ws, |ws|, IntegerConstant)
              && |Constants(r.value.reals)| == CountBefore(ws, |ws|, RealConstant)
              && (r.value.integers.Some? <==> CountBefore(ws, |ws|, IntegerConstant) > 0)
              && (r.value.reals.Some? <==> CountBefore(ws, |ws|, RealConstant) > 0)
    ensures var ws := Normalized(inputs, constant);
            r.Ok? ==> forall i :: 0 <= i < |inputs| ==>
              Placed(ws, i, r.value.categories[i], r.value.edges, Constants(r.value.integers), Constants(r.value.reals))
  {
    ghost var ws := Normalized(inputs, constant);
    var categories: seq<(Category, nat)> := [];
    var edges: seq<Handle> := [];
    var integers: seq<Value> := [];
    var reals: seq<Value> := [];
    var i := 0;
    while i < |inputs|
      invariant 0 <= i <= |inputs| && |categories| == i
      invariant forall k :: 0 <= k < i ==> Classify(ws[k]).Some?
      invariant |edges| == CountBefore(ws, i, EdgeInput)
      invariant |integers| == CountBefore(ws, i, IntegerConstant)
      invariant |reals| == CountBefore(ws, i, RealConstant)
      invariant forall k :: 0 <= k < i ==> Placed(ws, k, categories[k], edges, integers, reals)
    {
      var w := Normalize(inputs[i], constant);
      assert w == ws[i];
      var cat := Classify(w);
      if cat.None? {
        return Err(UnsupportedArithmeticArgument(i));
      }
      var entry: (Category, nat);
      var edges', integers', reals' := edges, integers, reals;
      match cat.value {
        case EdgeInput =>
          entry := (EdgeInput, |edges|);
          edges' := edges + [w.h];
        case IntegerConstant =>
          entry := (IntegerConstant, |integers|);
          integers' := integers + [w];
        case RealConstant =>
          entry := (RealConstant, |reals|);
          reals' := reals + [w];
      }
      forall k | 0 <= k < i
        ensures Placed(ws, k, categories[k], edges', integers', reals')
      {
        PlacedExtend(ws, k, categories[k], edges, integers, reals, edges', integers', reals');
      }
      assert Placed(ws, i, entry, edges', integers', reals');
      categories, edges, integers, reals := categories + [entry], edges', integers', reals';
      i := i + 1;
    }
    r := Ok(Grouping(categories, edges,
                     if |integers| == 0 then None else Some(integers),
                     if |reals| == 0 then None else Some(reals)));
  }

  // ---------------------------------------------------------------------------
  // The expression description

  /** An operand as the expression refers to it: edge `k`, or constant `k`
      of the named type. */
  datatype InputRef = EdgeRef(index: nat) | ConstRef(index: nat, typeDesc: string)

  /** An entry's slot lies within its list and, for a constant, the
      constant has a type description. */
  predicate SlotOk(entry: (Category, nat), integers: Option<seq<Value>>, reals: Option<seq<Value>>) {
    && (entry.0 == IntegerConstant ==> entry.1 < |Constants(integers)| && ToTypeDesc(Constants(integers)[entry.1]).Ok?)
    && (entry.0 == RealConstant ==> entry.1 < |Constants(reals)| && ToTypeDesc(Constants(reals)[entry.1]).Ok?)
  }

  /** The grouping is consistent: every entry's slot is in range. */
  predicate WellGrouped(categories: seq<(Category, nat)>, integers: Option<seq<Value>>, reals: Option<seq<Value>>) {
    forall i :: 0 <= i < |categories| ==> SlotOk(categories[i], integers, reals)
  }

  /** The operand an entry of the grouping stands for. */
  function RefOf(entry: (Category, nat), integers: Option<seq<Value>>, reals: Option<seq<Value>>): InputRef
    requires SlotOk(entry, integers, reals)
  {
    match entry.0
    case EdgeInput => EdgeRef(entry.1)
    case IntegerConstant => ConstRef(entry.1, ToTypeDesc(Constants(integers)[entry.1]).value)
    case RealConstant => ConstRef(entry.1, ToTypeDesc(Constants(reals)[entry.1]).value)
  }

  /** The text of one operand: `&<index>` or `$<index>:<type>`. */
  function RefToken(ref: InputRef): string {
    match ref
    case EdgeRef(k) => "&" + NatToString(k)
    case ConstRef(k, t) => "$" + NatToString(k) + ":" + t
  }

  function Tokens(categories: seq<(Category, nat)>, integers: Option<seq<Value>>, reals: Option<seq<Value>>): (r: seq<string>)
    requires WellGrouped(categories, integers, reals)
    ensures |r| == |categories|
    ensures forall i :: 0 <= i < |categories| ==> r[i] == RefToken(RefOf(categories[i], integers, reals))
  {
    seq(|categories|, i requires 0 <= i < |categories| && WellGrouped(categories, integers, reals) =>
      RefToken(RefOf(categories[i], integers, reals)))
  }

  /** `_generate_input_desc`: the operand tokens separated by single spaces. */
  function GenerateInputDesc(categories: seq<(Category, nat)>, integers: Option<seq<Value>>, reals: Option<seq<Value>>): string
    requires WellGrouped(categories, integers, reals)
  {
    Join(Tokens(categories, integers, reals), ' ')
  }

  /** Reading one token back. */
  function ParseToken(t: string): Option<InputRef> {
    if |t| >= 2 && t[0] == '&' && AllDigits(t[1..]) then Some(EdgeRef(DigitsValue(t[1..])))
    else if |t| >= 1 && t[0] == '$' && ':' in t[1..] then
      var body := t[1..];
      var k := IndexOf(body, ':');
      if k > 0 && AllDigits(body[..k]) then Some(ConstRef(DigitsValue(body[..k]), body[k + 1..]))
      else None
    else None
  }

  /** Reading an input description back: one operand per space-separated
      token. */
  function ParseInputDesc(desc: string): seq<Option<InputRef>> {
    var parts := Split(desc, ' ');
    seq(|parts|, i requires 0 <= i < |parts| => ParseToken(parts[i]))
  }

  lemma DigitsHaveNoMarks(s: string)
    requires AllDigits(s)
    ensures ' ' !in s && ':' !in s
  {
  }

  /** No token contains a space. */
  lemma NoSpaceInToken(ref: InputRef)
    requires ref.ConstRef? ==> DescDType(ref.typeDesc).Some?
    ensures ' ' !in RefToken(ref)
  {
    var digits := NatToString(ref.index);
    DigitsHaveNoMarks(digits);
    if ref.ConstRef? {
      DescHasNoSpace(ref.typeDesc);
      var t := RefToken(ref);
      assert t == "$" + digits + ":" + ref.typeDesc;
      assert forall k :: 0 <= k < |t| ==> t[k] != ' ' by {
        forall k | 0 <= k < |t|
          ensures t[k] != ' '
        {
          if 0 < k <= |digits| {
            assert t[k] == digits[k - 1];
          } else if k > |digits| + 1 {
            assert t[k] == ref.typeDesc[k - |digits| - 2];
          }
        }
      }
    } else {
      var t := RefToken(ref);
      assert t == "&" + digits;
      assert forall k :: 0 < k < |t| ==> t[k] == digits[k - 1];
    }
  }

  /** Type descriptions contain no space. */
  lemma DescHasNoSpace(s: string)
    requires DescDType(s).Some?
    ensures ' ' !in s
  {
    DTypeDescRoundTrip(DescDType(s).value, s);
    match DescDType(s).value {
      case BOOL => case INT8 => case INT16 => case INT32 => case INT64 =>
      case UINT8 => case UINT16 => case UINT32 => case UINT64 =>
      case FLOAT16 => case FLOAT => case FLOAT64 =>
    }
  }

  /** A token reads back as the operand it was written for. */
  lemma {:induction false} TokenRoundTrip(ref: InputRef)
    ensures ParseToken(RefToken(ref)) == Some(ref)
  {
    var t := RefToken(ref);
    match ref
    case EdgeRef(k) =>
      assert t[1..] == NatToString(k);
      NatToStringRoundTrip(k);
    case ConstRef(k, ty) =>
      var digits := NatToString(k);
      var body := t[1..];
      assert body == digits + ":" + ty;
      DigitsHaveNoMarks(digits);
      assert body[|digits|] == ':' && body[..|digits|] == digits;
      FirstIndex(body, ':', |digits|);
      var i := |digits|;
      assert body[..i] == digits && body[i + 1..] == ty;
      NatToStringRoundTrip(k);
  }

  /** The description of a non-empty operand list reads back as the
      operands, in order. */
  lemma {:induction false} InputDescRoundTrip(categories: seq<(Category, nat)>, integers: Option<seq<Value>>, reals: Option<seq<Value>>)
    requires WellGrouped(categories, integers, reals) && |categories| > 0
    ensures var refs := ParseInputDesc(GenerateInputDesc(categories, integers, reals));
            && |refs| == |categories|
            && forall i :: 0 <= i < |categories| ==> refs[i] == Some(RefOf(categories[i], integers, reals))
  {
    var tokens := Tokens(categories, integers, reals);
    forall k | 0 <= k < |tokens|
      ensures ' ' !in tokens[k]
    {
      NoSpaceInToken(RefOf(categories[k], integers, reals));
    }
    SplitJoin(tokens, ' ');
    forall i | 0 <= i < |categories|
      ensures ParseToken(tokens[i]) == Some(RefOf(categories[i], integers, reals))
    {
      TokenRoundTrip(RefOf(categories[i], integers, reals));
    }
  }

  // ---------------------------------------------------------------------------
  // Device choice and the whole setup

  predicate OnGpu(v: Value) {
    v.Node? && v.h.device == GPU
  }

  /** An operand that puts the expression on the GPU: a GPU handle, or a
      list or tuple holding one. */
  predicate GpuOperand(v: Value) {
    OnGpu(v) || ((v.ListOf? || v.TupleOf?) && exists j :: 0 <= j < |v.items| && OnGpu(v.items[j]))
  }

  /** `_choose_device`: the first operand that is or holds a GPU handle
      decides for the GPU; without one the expression runs on the CPU. */
  function ChooseDevice(inputs: seq<Value>): (d: Device)
    ensures d == GPU <==> exists i :: 0 <= i < |inputs| && GpuOperand(inputs[i])
    ensures d != GPU ==> d == CPU
    decreases |inputs|
  {
    if |inputs| == 0 then CPU
    else if GpuOperand(inputs[0]) then GPU
    else
      assert forall i :: 1 <= i < |inputs| ==> inputs[i] == inputs[1..][i - 1];
      ChooseDevice(inputs[1..])
  }

  /** The arguments `_arithm_op` gives `ArithmeticGenericOp`, and the edges
      it is called on. */
  datatype ArithmSetup = ArithmSetup(
    device: Device,
    expressionDesc: string,
    integerConstants: Option<seq<Value>>,
    realConstants: Option<seq<Value>>,
    edges: seq<Handle>)

  /** The operand an input of the expression stands for, stated from the
      operand alone: its category's running index and, for a constant, its
      type description. */
  function ExpectedRef(ws: seq<Value>, i: nat): InputRef
    requires i < |ws| && Classify(ws[i]).Some?
  {
    var cat := Classify(ws[i]).value;
    if cat == EdgeInput then EdgeRef(CountBefore(ws, i, cat))
    else
      TypeDescCategory(ws[i]);
      ConstRef(CountBefore(ws, i, cat), ToTypeDesc(ws[i]).value)
  }

  /** A grouping that places every operand is well formed, and each entry
      stands for the operand's expected reference. */
  lemma GroupedRefs(ws: seq<Value>, g: Grouping)
    requires |g.categories| == |ws|
    requires forall i :: 0 <= i < |ws| ==> Placed(ws, i, g.categories[i], g.edges, Constants(g.integers), Constants(g.reals))
    ensures WellGrouped(g.categories, g.integers, g.reals)
    ensures forall i :: 0 <= i < |ws| ==> Classify(ws[i]).Some? && RefOf(g.categories[i], g.integers, g.reals) == ExpectedRef(ws, i)
  {
    forall i | 0 <= i < |ws|
      ensures SlotOk(g.categories[i], g.integers, g.reals) && Classify(ws[i]).Some?
      ensures RefOf(g.categories[i], g.integers, g.reals) == ExpectedRef(ws, i)
    {
      var (cat, slot) := g.categories[i];
      assert Placed(ws, i, (cat, slot), g.edges, Constants(g.integers), Constants(g.reals));
      CategoriesPartition(ws[i]);
      assert Classify(ws[i]).value == cat && CountBefore(ws, i, cat) == slot;
      match cat {
        case EdgeInput =>
        case IntegerConstant => assert Constants(g.integers)[slot] == ws[i];
        case RealConstant => assert Constants(g.reals)[slot] == ws[i];
      }
    }
  }

  /** `desc` reads back as the operands `ws`, in order, each as its
      category's running index and, for a constant, its type. */
  ghost predicate DescribesOperands(desc: string, ws: seq<Value>)
    requires forall i :: 0 <= i < |ws| ==> Classify(ws[i]).Some?
  {
    var refs := ParseInputDesc(desc);
    |ws| > 0 ==> |refs| == |ws| && forall i :: 0 <= i < |ws| ==> refs[i] == Some(ExpectedRef(ws, i))
  }

  /** The input description of a grouping that places every operand
      describes the operands. */
  lemma GroupedDesc(ws: seq<Value>, g: Grouping)
    requires |g.categories| == |ws|
    requires forall i :: 0 <= i < |ws| ==> Placed(ws, i, g.categories[i], g.edges, Constants(g.integers), Constants(g.reals))
    ensures WellGrouped(g.categories, g.integers, g.reals)
    ensures forall i :: 0 <= i < |ws| ==> Classify(ws[i]).Some?
    ensures DescribesOperands(GenerateInputDesc(g.categories, g.integers, g.reals), ws)
  {
    GroupedRefs(ws, g);
    if |ws| > 0 {
      InputDescRoundTrip(g.categories, g.integers, g.reals);
    }
  }

  /** The device of an expression over `edges`: `_choose_device(edges)`. */
  function EdgesDevice(edges: seq<Handle>): (d: Device)
    ensures d == GPU <==> exists j :: 0 <= j < |edges| && edges[j].device == GPU
    ensures d != GPU ==> d == CPU
  {
    var vs := seq(|edges|, j requires 0 <= j < |edges| => Node(edges[j]));
    assert forall j :: 0 <= j < |vs| ==> (GpuOperand(vs[j]) <==> edges[j].device == GPU);
    ChooseDevice(vs)
  }

  /** `"{}({})".format(name, desc)`. */
  function CallExpression(name: string, desc: string): (e: string)
    ensures |e| == |name| + |desc| + 2
    ensures e[..|name| + 1] == name + "(" && e[|e| - 1] == ')'
    ensures e[|name| + 1..|e| - 1] == desc
  {
    name + "(" + desc + ")"
  }

  /** `_arithm_op` up to the operator call: group the operands, describe
      the expression as `name(<operands>)`, and choose the device from the
      edges. */
  method ArithmOp(name: string, inputs: seq<Value>, constant: Value -> Value) returns (r: Result<ArithmSetup>)
    ensures var ws := Normalized(inputs, constant);
            r.Ok? <==> forall i :: 0 <= i < |ws| ==> Classify(ws[i]).Some?
    ensures r.Err? ==> r.error.UnsupportedArithmeticArgument?
    ensures var ws := Normalized(inputs, constant);
            r.Ok? ==>
              && |r.value.edges| == CountBefore(ws, |ws|, EdgeInput)
              && (forall i :: 0 <= i < |ws| && ws[i].Node? ==>
                    CountBefore(ws, i, EdgeInput) < |r.value.edges| && r.value.edges[CountBefore(ws, i, EdgeInput)] == ws[i].h)
              && (r.value.device == GPU <==> exists j :: 0 <= j < |r.value.edges| && r.value.edges[j].device == GPU)
              && (r.value.device != GPU ==> r.value.device == CPU)
    ensures var ws := Normalized(inputs, constant);
            r.Ok? ==>
              && |r.value.expressionDesc| >= |name| + 2
              && r.value.expressionDesc[..|name| + 1] == name + "("
              && r.value.expressionDesc[|r.value.expressionDesc| - 1] == ')'
              && DescribesOperands(r.value.expressionDesc[|name| + 1..|r.value.expressionDesc| - 1], ws)
  {
    var g := GroupInputs(inputs, constant);
    if g.Err? {
      return Err(g.error);
    }
    var grouping := g.value;
    ghost var ws := Normalized(inputs, constant);
    GroupedDesc(ws, grouping);
    forall i | 0 <= i < |ws| && ws[i].Node?
      ensures CountBefore(ws, i, EdgeInput) < |grouping.edges| && grouping.edges[CountBefore(ws, i, EdgeInput)] == ws[i].h
    {
      assert Placed(ws, i, grouping.categories[i], grouping.edges, Constants(grouping.integers), Constants(grouping.reals));
    }
    var desc := GenerateInputDesc(grouping.categories, grouping.integers, grouping.reals);
    r := Ok(ArithmSetup(EdgesDevice(grouping.edges), CallExpression(name, desc), grouping.integers, grouping.reals, grouping.edges));
  }
}

=== FILE: backend.dfy ===
/** What the operator layer asks of an operator's schema. The schema lives
    in the backend; here each query is a field holding its answer. */
module Backend {
  import opened Values
  import opened Outcomes

  /** `DeprecatedArgMeta(name)`: an empty `renamedTo` means "not renamed". */
  datatype ArgDeprecation = ArgDeprecation(renamedTo: string, removed: bool, msg: string)

  datatype Schema = Schema(
    minNumInput: nat,                            // MinNumInput()
    maxNumInput: nat,                            // MaxNumInput()
    tensorArguments: set<string>,                // IsTensorArgument(name)
    inputDevices: map<nat, Device>,              // GetInputDevice(idx); absent means None
    calculatedOutputs: nat,                      // CalculateOutputs(spec)
    additionalOutputs: nat,                      // CalculateAdditionalOutputs(spec)
    noPrune: bool,                               // IsNoPrune()
    deprecated: bool,                            // IsDeprecated()
    deprecatedInFavorOf: string,                 // DeprecatedInFavorOf()
    deprecationMessage: string,                  // DeprecationMessage()
    deprecatedArgs: map<string, ArgDeprecation>) // IsDeprecatedArg / DeprecatedArgMeta

  /** The number of outputs an instance of this operator produces. */
  function NumOutputs(schema: Schema): nat {
    schema.calculatedOutputs + schema.additionalOutputs
  }

  /** `_check_schema_num_inputs`: the positional input count must lie within
      the schema's bound. */
  function CheckNumInputs(schema: Schema, op: string, count: nat): (r: Result<()>)
    ensures r.Ok? <==> schema.minNumInput <= count <= schema.maxNumInput
    ensures r.Err? ==>
              r.error == InputCountOutOfRange(op, schema.minNumInput, schema.maxNumInput, count)
  {
    if count < schema.minNumInput || count > schema.maxNumInput then
      Err(InputCountOutOfRange(op, schema.minNumInput, schema.maxNumInput, count))
    else
      Ok(())
  }

  /** `_check_arg_input`: an argument may be fed by a tensor only if the
      schema says so; `name` is exempt. */
  function CheckArgInput(schema: Schema, op: string, name: string): (r: Result<()>)
    ensures r.Ok? <==> name == "name" || name in schema.tensorArguments
    ensures r.Err? ==> r.error == ArgumentInputNotSupported(op, name)
  {
    if name == "name" then Ok(())
    else if name !in schema.tensorArguments then Err(ArgumentInputNotSupported(op, name))
    else Ok(())
  }
}

=== FILE: graph.dfy ===
/** The state an operator call threads through: the process-wide instance
    id counter (`_OpCounter`), the current pipeline's sink list, default
    instance names, and the creation of constant nodes. */
module Graph {
  import opened Strings
  import opened Values
  import opened Outcomes

  /** `_OpCounter._op_count`: the next id to hand out, starting at 0. */
  datatype Counter = Counter(next: nat)

  const InitialCounter: Counter := Counter(0)

  /** `_OpCounter()`: takes the next id. */
  function Allocate(c: Counter): (r: (nat, Counter))
    ensures r.0 >= c.next && r.1.next > r.0
  {
    (c.next, Counter(c.next + 1))
  }

  /** The pipeline a node with side effects registers its sinks in. */
  datatype Pipeline = Pipeline(sinks: seq<Handle>)

  function AddSink(p: Pipeline, h: Handle): Pipeline {
    Pipeline(p.sinks + [h])
  }

  /** Outputs of "gpu" and "mixed" operators live on the GPU. */
  function OutputDevice(d: Device): Device {
    if d == GPU || d == Mixed then GPU else CPU
  }

  /** `"gpu" if device == "gpu" else "cpu"`: where literal inputs are placed. */
  function DefaultInputDevice(d: Device): Device {
    if d == GPU then GPU else CPU
  }

  /** `'__' + type(op).__name__ + "_" + str(id)`. */
  function DefaultName(typeName: string, id: nat): string {
    "__" + typeName + "_" + NatToString(id)
  }

  /** Two instances of one operator type never share a default name. */
  lemma DefaultNameInjective(typeName: string, a: nat, b: nat)
    ensures DefaultName(typeName, a) == DefaultName(typeName, b) ==> a == b
  {
    var prefix := "__" + typeName + "_";
    if DefaultName(typeName, a) == DefaultName(typeName, b) {
      assert NatToString(a) == DefaultName(typeName, a)[|prefix|..];
      assert NatToString(b) == DefaultName(typeName, b)[|prefix|..];
      NatToStringInjective(a, b);
    }
  }

  /** `_instantiate_constant_node(device, c)` and `_Constant(v, device=...)`:
      a fresh `Constant` node, taking the next id, whose sole output is the
      returned handle; `None` when the factory rejects the value. */
  function InstantiateConstant(c: Counter, device: Device, v: Value): (r: Option<(Handle, Counter)>)
    ensures r.Some? <==> ConstantConvertible(v)
    ensures r.Some? ==> r.value.0.producer == c.next && r.value.1.next == c.next + 1
    ensures r.Some? ==> r.value.0.device == OutputDevice(device)
  {
    if !ConstantConvertible(v) then None
    else
      var (id, c') := Allocate(c);
      Some((Handle(DefaultName("Constant", id), OutputDevice(device), id), c'))
  }
}

=== FILE: input_sets.dfy ===
/** Multiple input sets: a call whose positional inputs include Python lists
    stands for several parallel calls, one per list position. These are the
    helpers `Operator.__call__` uses to expand such a call into input sets
    and to repack the outputs of the resulting instances. */
module InputSets {
  import opened Values
  import opened Outcomes

  /** `_detect_multiple_input_sets`: some positional input is a list. */
  predicate HasListInput(inputs: seq<Value>) {
    exists i :: 0 <= i < |inputs| && inputs[i].ListOf?
  }

  /** `_safe_len`: a list counts its elements, anything else counts as 1. */
  function SafeLen(v: Value): nat {
    if v.ListOf? then |v.items| else 1
  }

  /** `max(_safe_len(input) for input in inputs)`. */
  function MaxSafeLen(inputs: seq<Value>): (m: nat)
    requires |inputs| > 0
    ensures forall i :: 0 <= i < |inputs| ==> SafeLen(inputs[i]) <= m
    ensures exists i :: 0 <= i < |inputs| && SafeLen(inputs[i]) == m
    decreases |inputs|
  {
    if |inputs| == 1 then SafeLen(inputs[0])
    else
      var rest := MaxSafeLen(inputs[1..]);
      assert forall i :: 1 <= i < |inputs| ==> inputs[i] == inputs[1..][i - 1];
      if SafeLen(inputs[0]) >= rest then SafeLen(inputs[0]) else rest
  }

  /** Every list input has exactly `n` elements. */
  predicate ListsHaveLength(inputs: seq<Value>, n: nat) {
    forall i :: 0 <= i < |inputs| && inputs[i].ListOf? ==> |inputs[i].items| == n
  }

  /** `_check_common_length`: the number of input sets is the longest list
      (a non-list input counting as 1); every list must have that length. */
  function CheckCommonLength(op: string, inputs: seq<Value>): (r: Result<nat>)
    ensures |inputs| == 0 ==> r == Err(EmptyInputs)
    ensures |inputs| > 0 ==>
              (r.Ok? <==> exists n :: ListsHaveLength(inputs, n)
                                    && forall i :: 0 <= i < |inputs| ==> SafeLen(inputs[i]) <= n)
    ensures |inputs| > 0 && r.Err? ==> r.error == InputSetLengthMismatch(op)
    ensures r.Ok? ==> ListsHaveLength(inputs, r.value)
    ensures r.Ok? ==> forall i :: 0 <= i < |inputs| ==> SafeLen(inputs[i]) <= r.value
    ensures r.Ok? ==> exists i :: 0 <= i < |inputs| && SafeLen(inputs[i]) == r.value
  {
    if |inputs| == 0 then Err(EmptyInputs)
    else
      var n := MaxSafeLen(inputs);
      if ListsHaveLength(inputs, n) then Ok(n)
      else
        Err(InputSetLengthMismatch(op))
  }

  /** `_unify_lists`: every non-list input is repeated `n` times, so that all
      positions are lists of length `n`; the repeats are the same value. */
  function UnifyLists(inputs: seq<Value>, n: nat): (r: seq<seq<Value>>)
    requires ListsHaveLength(inputs, n)
    ensures |r| == |inputs|
    ensures forall i :: 0 <= i < |r| ==> |r[i]| == n
    ensures forall i, j :: 0 <= i < |r| && 0 <= j < n ==>
              r[i][j] == (if inputs[i].ListOf? then inputs[i].items[j] else inputs[i])
    decreases |inputs|
  {
    if |inputs| == 0 then []
    else
      var first := if inputs[0].ListOf? then inputs[0].items else seq(n, _ => inputs[0]);
      assert ListsHaveLength(inputs[1..], n) by {
        assert forall i :: 0 <= i < |inputs| - 1 ==> inputs[1..][i] == inputs[i + 1];
      }
      [first] + UnifyLists(inputs[1..], n)
  }

  /** All rows have the length of the first. */
  predicate SameLength<T>(sets: seq<seq<T>>) {
    forall j :: 0 <= j < |sets| ==> |sets[j]| == |sets[0]|
  }

  function Heads<T>(sets: seq<seq<T>>): (r: seq<T>)
    requires forall j :: 0 <= j < |sets| ==> |sets[j]| > 0
    ensures |r| == |sets| && forall j :: 0 <= j < |sets| ==> r[j] == sets[j][0]
    decreases |sets|
  {
    if |sets| == 0 then [] else [sets[0][0]] + Heads(sets[1..])
  }

  function Tails<T>(sets: seq<seq<T>>): (r: seq<seq<T>>)
    requires forall j :: 0 <= j < |sets| ==> |sets[j]| > 0
    ensures |r| == |sets| && forall j :: 0 <= j < |sets| ==> r[j] == sets[j][1..]
    decreases |sets|
  {
    if |sets| == 0 then [] else [sets[0][1..]] + Tails(sets[1..])
  }

  /** `_repack_list`: turns rows into columns, so that element `k` of every
      row is gathered, in row order, into result row `k`. */
  function RepackList<T>(sets: seq<seq<T>>): (r: seq<seq<T>>)
    requires |sets| > 0 && SameLength(sets)
    ensures |r| == |sets[0]|
    ensures forall k :: 0 <= k < |r| ==> |r[k]| == |sets|
    ensures forall k, j :: 0 <= k < |r| && 0 <= j < |sets| ==> r[k][j] == sets[j][k]
    decreases |sets[0]|
  {
    if |sets[0]| == 0 then []
    else
      var rest := RepackList(Tails(sets));
      [Heads(sets)] + rest
  }

  /** Repacking is its own inverse: repacking twice gives back the rows. */
  lemma RepackListTwice<T>(sets: seq<seq<T>>)
    requires |sets| > 0 && SameLength(sets) && |sets[0]| > 0
    ensures |RepackList(sets)| > 0 && SameLength(RepackList(sets))
    ensures RepackList(RepackList(sets)) == sets
  {
    var once := RepackList(sets);
    var twice := RepackList(once);
    assert |twice| == |sets|;
    forall j | 0 <= j < |sets|
      ensures twice[j] == sets[j]
    {
      assert |twice[j]| == |sets[j]|;
      forall k | 0 <= k < |sets[j]|
        ensures twice[j][k] == sets[j][k]
      {
        assert twice[j][k] == once[k][j];
      }
    }
  }

  /** `_build_input_sets`: a call without list inputs is its own single
      input set; otherwise there is one input set per list position, taking
      element `j` of each list and broadcasting every other input. */
  function BuildInputSets(op: string, inputs: seq<Value>): (r: Result<seq<seq<Value>>>)
    ensures !HasListInput(inputs) ==> r == Ok([inputs])
    ensures HasListInput(inputs) ==>
              (r.Ok? <==> exists n :: ListsHaveLength(inputs, n)
                                    && forall i :: 0 <= i < |inputs| ==> SafeLen(inputs[i]) <= n)
    ensures HasListInput(inputs) && r.Err? ==> r.error == InputSetLengthMismatch(op)
    ensures HasListInput(inputs) && r.Ok? ==>
              && ListsHaveLength(inputs, |r.value|)
              && (forall i :: 0 <= i < |inputs| && !inputs[i].ListOf? ==> |r.value| >= 1)
              && (forall j :: 0 <= j < |r.value| ==> |r.value[j]| == |inputs|)
              && (forall j, i :: 0 <= j < |r.value| && 0 <= i < |inputs| ==>
                    r.value[j][i] == (if inputs[i].ListOf? then inputs[i].items[j] else inputs[i]))
  {
    if !HasListInput(inputs) then Ok([inputs])
    else
      match CheckCommonLength(op, inputs)
      case Err(e) => Err(e)
      case Ok(n) =>
        var packed := UnifyLists(inputs, n);
        var sets := RepackList(packed);
        assert |sets| == n;
        assert forall i :: 0 <= i < |inputs| ==> SafeLen(inputs[i]) <= n;
        forall j, i | 0 <= j < n && 0 <= i < |inputs|
          ensures sets[j][i] == (if inputs[i].ListOf? then inputs[i].items[j] else inputs[i])
        {
          assert sets[j][i] == packed[i][j];
        }
        assert forall j :: 0 <= j < n ==> |sets[j]| == |inputs|;
        assert ListsHaveLength(inputs, |sets|);
        assert ListsHaveLength(inputs, n) && forall i :: 0 <= i < |inputs| ==> SafeLen(inputs[i]) <= n;
        assert forall i :: 0 <= i < |inputs| && !inputs[i].ListOf? ==> |sets| >= 1;
        Ok(sets)
  }

  /** A call's result: one handle, a flat list, or a list of lists. */
  datatype Packed<T> = One(item: T) | Flat(items: seq<T>) | Nested(groups: seq<seq<T>>)

  /** `_repack_output_sets`: with several input sets of one output each, the
      list of those outputs in input-set order; otherwise, per output index,
      the list of that output of every input set. */
  function RepackOutputSets<T>(outputs: seq<seq<T>>): (r: Packed<T>)
    requires |outputs| > 0 && SameLength(outputs)
    ensures |outputs| > 1 && |outputs[0]| == 1 ==>
              r.Flat? && |r.items| == |outputs|
              && forall j :: 0 <= j < |outputs| ==> r.items[j] == outputs[j][0]
    ensures !(|outputs| > 1 && |outputs[0]| == 1) ==>
              && r.Nested? && |r.groups| == |outputs[0]|
              && (forall k :: 0 <= k < |r.groups| ==> |r.groups[k]| == |outputs|)
              && (forall k, j :: 0 <= k < |r.groups| && 0 <= j < |outputs| ==>
                    r.groups[k][j] == outputs[j][k])
  {
    if |outputs| > 1 && |outputs[0]| == 1 then Flat(Heads(outputs))
    else Nested(RepackList(outputs))
  }
}

=== FILE: kwargs.dfy ===
/** Keyword-argument dictionaries and `_separate_kwargs`, which splits the
    keyword arguments of a call into construction-time configuration and
    call-time argument inputs. */
module Kwargs {
  import opened Values
  import opened Outcomes

  /** A Python keyword-argument dict: (name, value) entries in insertion order. */
  type Kwargs = seq<(string, Value)>

  function Keys(d: Kwargs): set<string> {
    set e | e in d :: e.0
  }

  /** Dict keys are unique. */
  predicate DistinctKeys(d: Kwargs) {
    forall i, j :: 0 <= i < j < |d| ==> d[i].0 != d[j].0
  }

  /** The position of key `k`. */
  function KeyIndex(d: Kwargs, k: string): (i: nat)
    requires k in Keys(d)
    ensures i < |d| && d[i].0 == k
    ensures forall j :: 0 <= j < i ==> d[j].0 != k
    decreases |d|
  {
    if d[0].0 == k then 0
    else
      assert k in Keys(d[1..]) by {
        var e :| e in d && e.0 == k;
        var j :| 0 <= j < |d| && d[j] == e;
        assert d[1..][j - 1] == e;
      }
      1 + KeyIndex(d[1..], k)
  }

  lemma {:induction false} KeyIndexFirst(d: Kwargs, k: string, i: nat)
    requires i < |d| && d[i].0 == k
    requires forall j :: 0 <= j < i ==> d[j].0 != k
    ensures k in Keys(d) && KeyIndex(d, k) == i
    decreases |d|
  {
    assert d[i] in d;
    if i > 0 {
      KeyIndexFirst(d[1..], k, i - 1);
    }
  }

  /** `d[k]`. */
  function Lookup(d: Kwargs, k: string): Value
    requires k in Keys(d)
  {
    d[KeyIndex(d, k)].1
  }

  lemma LookupAt(d: Kwargs, i: nat)
    requires DistinctKeys(d) && i < |d|
    ensures d[i].0 in Keys(d) && Lookup(d, d[i].0) == d[i].1
  {
    assert d[i] in d;
  }

  /** The keys whose value is not `None`: the arguments actually supplied. */
  function SuppliedKeys(d: Kwargs): set<string> {
    set e | e in d && !e.1.NoneVal? :: e.0
  }

  /** A key is supplied exactly when it is present with a value other than `None`. */
  lemma SuppliedLookup(d: Kwargs)
    requires DistinctKeys(d)
    ensures SuppliedKeys(d) <= Keys(d)
    ensures forall k :: k in Keys(d) ==> (k in SuppliedKeys(d) <==> !Lookup(d, k).NoneVal?)
  {
    forall k | k in Keys(d)
      ensures k in SuppliedKeys(d) <==> !Lookup(d, k).NoneVal?
    {
      LookupAt(d, KeyIndex(d, k));
      if k in SuppliedKeys(d) {
        var e :| e in d && !e.1.NoneVal? && e.0 == k;
        var i :| 0 <= i < |d| && d[i] == e;
        LookupAt(d, i);
      }
    }
  }

  /** The keys in insertion order (`list(d.keys())`). */
  function KeyList(d: Kwargs): (ks: seq<string>)
    ensures |ks| == |d|
    ensures forall i :: 0 <= i < |d| ==> ks[i] == d[i].0
    decreases |d|
  {
    if |d| == 0 then [] else [d[0].0] + KeyList(d[1..])
  }

  lemma KeyListKeys(d: Kwargs)
    ensures forall k :: k in KeyList(d) <==> k in Keys(d)
  {
    var ks := KeyList(d);
    forall k
      ensures k in ks <==> k in Keys(d)
    {
      if k in ks {
        var i :| 0 <= i < |ks| && ks[i] == k;
        assert d[i] in d;
      }
      if k in Keys(d) {
        var i := KeyIndex(d, k);
        assert ks[i] == k;
      }
    }
  }

  /** `d[k] = v` for a key not yet present: the entry goes last. */
  function Append(d: Kwargs, k: string, v: Value): (r: Kwargs)
    requires k !in Keys(d)
    ensures Keys(r) == Keys(d) + {k}
    ensures DistinctKeys(d) ==> DistinctKeys(r)
    ensures k in Keys(r) && Lookup(r, k) == v
    ensures forall k' :: k' in Keys(d) ==> Lookup(r, k') == Lookup(d, k')
  {
    var r := d + [(k, v)];
    assert r[|d|] in r;
    assert forall i :: 0 <= i < |d| ==> d[i] in d;
    forall k' | k' in Keys(d)
      ensures Lookup(r, k') == Lookup(d, k')
    {
      KeyIndexFirst(r, k', KeyIndex(d, k'));
    }
    KeyIndexFirst(r, k, |d|);
    r
  }

  /** `del d[k]`. */
  function Delete(d: Kwargs, k: string): (r: Kwargs)
    requires DistinctKeys(d)
    ensures Keys(r) == Keys(d) - {k}
    ensures DistinctKeys(r)
    ensures forall k' :: k' in Keys(r) ==> Lookup(r, k') == Lookup(d, k')
    decreases |d|
  {
    if |d| == 0 then d
    else
      var init := d[..|d| - 1];
      var last := d[|d| - 1];
      assert d == init + [last];
      assert forall i :: 0 <= i < |init| ==> init[i] == d[i];
      assert Keys(d) == Keys(init) + {last.0} by {
        assert forall e :: e in d <==> e in init || e == last;
      }
      assert last.0 !in Keys(init);
      var rest := Delete(init, k);
      if last.0 == k then
        rest
      else
        LookupPrefix(d, init, last);
        Append(rest, last.0, last.1)
  }

  lemma LookupPrefix(d: Kwargs, init: Kwargs, last: (string, Value))
    requires d == init + [last] && last.0 !in Keys(init)
    ensures last.0 in Keys(d) && Lookup(d, last.0) == last.1
    ensures forall k :: k in Keys(init) ==> Lookup(d, k) == Lookup(init, k)
  {
    assert Append(init, last.0, last.1) == d;
  }

  /** How a dict relates to the dict without its first entry. */
  lemma DropFirst(d: Kwargs)
    requires DistinctKeys(d) && |d| > 0
    ensures DistinctKeys(d[1..])
    ensures Keys(d) == {d[0].0} + Keys(d[1..]) && d[0].0 !in Keys(d[1..])
    ensures SuppliedKeys(d) == (if d[0].1.NoneVal? then {} else {d[0].0}) + SuppliedKeys(d[1..])
    ensures Lookup(d, d[0].0) == d[0].1
    ensures forall k :: k in Keys(d[1..]) ==> Lookup(d, k) == Lookup(d[1..], k)
  {
    assert d == [d[0]] + d[1..];
    assert forall e :: e in d <==> e == d[0] || e in d[1..];
    assert forall i :: 0 <= i < |d| - 1 ==> d[1..][i] == d[i + 1];
    forall k | k in Keys(d[1..])
      ensures Lookup(d, k) == Lookup(d[1..], k)
    {
      var i := KeyIndex(d[1..], k);
      KeyIndexFirst(d, k, i + 1);
    }
  }

  // ---------------------------------------------------------------------------
  // `_separate_kwargs`

  /** `is_call_arg`: whether a supplied keyword argument is a call-time
      argument input rather than construction-time configuration. */
  predicate IsCallArg(name: string, v: Value) {
    if name == "device" then false
    else if name == "ndim" then false
    else if name == "name" || v.Node? then true
    else if v.Str? || v.ListOf? || v.TupleOf? || v.Scalar? then false
    else !IsScalarValue(v)
  }

  /** `a` and `b` are the construction-time and call-time parts of `d`:
      together they hold exactly the supplied keys, each key on the side
      `IsCallArg` picks, with its value (unwrapped on the construction side). */
  ghost predicate SplitsInto(d: Kwargs, a: Kwargs, b: Kwargs) {
    && DistinctKeys(a) && DistinctKeys(b)
    && Keys(a) !! Keys(b)
    && Keys(a) + Keys(b) == SuppliedKeys(d)
    && (forall k :: k in Keys(a) ==>
          k in Keys(d) && !IsCallArg(k, Lookup(d, k)) && Lookup(a, k) == ToScalar(Lookup(d, k)))
    && (forall k :: k in Keys(b) ==>
          k in Keys(d) && IsCallArg(k, Lookup(d, k)) && Lookup(b, k) == Lookup(d, k))
  }

  /** Splits keyword arguments into the construction-time ones (scalar
      constants unwrapped to their raw value) and the call-time ones, in
      order, dropping the ones whose value is `None`. */
  function SeparateKwargs(d: Kwargs): (r: (Kwargs, Kwargs))
    requires DistinctKeys(d)
    ensures SplitsInto(d, r.0, r.1)
    decreases |d|
  {
    if |d| == 0 then ([], [])
    else
      var init := d[..|d| - 1];
      var last := d[|d| - 1];
      var (initArgs, callArgs) := SeparateKwargs(init);
      SeparateStep(d, init, last, initArgs, callArgs);
      if last.1.NoneVal? then
        (initArgs, callArgs)
      else if IsCallArg(last.0, last.1) then
        (initArgs, Append(callArgs, last.0, last.1))
      else
        (Append(initArgs, last.0, ToScalar(last.1)), callArgs)
  }

  lemma SeparateStep(d: Kwargs, init: Kwargs, last: (string, Value), a: Kwargs, b: Kwargs)
    requires DistinctKeys(d) && |d| > 0
    requires init == d[..|d| - 1] && last == d[|d| - 1]
    requires SplitsInto(init, a, b)
    ensures last.0 !in Keys(a) + Keys(b)
    ensures last.1.NoneVal? ==> SplitsInto(d, a, b)
    ensures !last.1.NoneVal? && IsCallArg(last.0, last.1) ==>
              SplitsInto(d, a, Append(b, last.0, last.1))
    ensures !last.1.NoneVal? && !IsCallArg(last.0, last.1) ==>
              SplitsInto(d, Append(a, last.0, ToScalar(last.1)), b)
  {
    SplitPrefix(d, init, last);
    if last.1.NoneVal? {
      SplitKeep(d, init, a, b);
    } else if IsCallArg(last.0, last.1) {
      SplitAddCall(d, init, a, b, last.0, last.1);
    } else {
      SplitAddInit(d, init, a, b, last.0, last.1);
    }
  }

  /** How a dict relates to the dict without its last entry. */
  lemma SplitPrefix(d: Kwargs, init: Kwargs, last: (string, Value))
    requires DistinctKeys(d) && |d| > 0
    requires init == d[..|d| - 1] && last == d[|d| - 1]
    ensures last.0 !in Keys(init) && SuppliedKeys(init) <= Keys(init)
    ensures Keys(init) <= Keys(d) && last.0 in Keys(d) && Lookup(d, last.0) == last.1
    ensures SuppliedKeys(d) == SuppliedKeys(init) + (if last.1.NoneVal? then {} else {last.0})
    ensures forall k :: k in Keys(init) ==> Lookup(d, k) == Lookup(init, k)
  {
    assert d == init + [last];
    assert forall i :: 0 <= i < |init| ==> init[i] == d[i];
    assert last.0 !in Keys(init);
    assert forall e :: e in d <==> e in init || e == last;
    LookupPrefix(d, init, last);
  }

  /** A `None` entry leaves the split unchanged. */
  lemma SplitKeep(d: Kwargs, init: Kwargs, a: Kwargs, b: Kwargs)
    requires SplitsInto(init, a, b)
    requires Keys(init) <= Keys(d) && SuppliedKeys(d) == SuppliedKeys(init)
    requires forall k :: k in Keys(init) ==> Lookup(d, k) == Lookup(init, k)
    ensures SplitsInto(d, a, b)
  {
  }

  /** A call-time entry goes last in the call-time part. */
  lemma SplitAddCall(d: Kwargs, init: Kwargs, a: Kwargs, b: Kwargs, k: string, v: Value)
    requires SplitsInto(init, a, b)
    requires k !in Keys(init) && SuppliedKeys(init) <= Keys(init)
    requires Keys(init) <= Keys(d) && k in Keys(d) && Lookup(d, k) == v && IsCallArg(k, v)
    requires SuppliedKeys(d) == SuppliedKeys(init) + {k}
    requires forall k' :: k' in Keys(init) ==> Lookup(d, k') == Lookup(init, k')
    ensures k !in Keys(b) && SplitsInto(d, a, Append(b, k, v))
  {
  }

  /** A construction-time entry goes last in the construction-time part,
      unwrapped. */
  lemma SplitAddInit(d: Kwargs, init: Kwargs, a: Kwargs, b: Kwargs, k: string, v: Value)
    requires SplitsInto(init, a, b)
    requires k !in Keys(init) && SuppliedKeys(init) <= Keys(init)
    requires Keys(init) <= Keys(d) && k in Keys(d) && Lookup(d, k) == v && !IsCallArg(k, v)
    requires SuppliedKeys(d) == SuppliedKeys(init) + {k}
    requires forall k' :: k' in Keys(init) ==> Lookup(d, k') == Lookup(init, k')
    ensures k !in Keys(a) && SplitsInto(d, Append(a, k, ToScalar(v)), b)
  {
  }

  /** The supplied keys `is_call_arg` sends to `__call__`. */
  function CallTimeKeys(d: Kwargs): set<string> {
    set e | e in d && !e.1.NoneVal? && IsCallArg(e.0, e.1) :: e.0
  }

  /** The call-time part holds exactly the call-time keys, and the
      construction-time part every other supplied key. */
  lemma SeparateKwargsKeys(d: Kwargs)
    requires DistinctKeys(d)
    ensures Keys(SeparateKwargs(d).1) == CallTimeKeys(d)
    ensures Keys(SeparateKwargs(d).0) == SuppliedKeys(d) - CallTimeKeys(d)
    ensures SuppliedKeys(SeparateKwargs(d).1) == Keys(SeparateKwargs(d).1)
  {
    var (a, b) := SeparateKwargs(d);
    SuppliedLookup(d);
    forall e | e in b
      ensures !e.1.NoneVal?
    {
      var i :| 0 <= i < |b| && b[i] == e;
      LookupAt(b, i);
    }
    forall k | k in CallTimeKeys(d)
      ensures k in Keys(b)
    {
      var e :| e in d && !e.1.NoneVal? && IsCallArg(e.0, e.1) && e.0 == k;
      var i :| 0 <= i < |d| && d[i] == e;
      LookupAt(d, i);
    }
    forall k | k in Keys(b)
      ensures k in CallTimeKeys(d)
    {
      var i := KeyIndex(d, k);
      assert d[i] in d;
    }
  }

  /** `device` and `ndim` always configure the operator, `name` is always a
      call-time argument, and a key whose value is `None` is dropped. */
  lemma SeparateKwargsReservedNames(d: Kwargs)
    requires DistinctKeys(d)
    ensures "device" in SuppliedKeys(d) ==> "device" in Keys(SeparateKwargs(d).0)
    ensures "ndim" in SuppliedKeys(d) ==> "ndim" in Keys(SeparateKwargs(d).0)
    ensures "name" in SuppliedKeys(d) ==> "name" in Keys(SeparateKwargs(d).1)
    ensures forall k :: k in Keys(d) && k !in SuppliedKeys(d) ==>
              k !in Keys(SeparateKwargs(d).0) + Keys(SeparateKwargs(d).1)
  {
  }
}

=== FILE: operator.dfy ===
/** The operator class `python_op_factory` builds: construction, which
    splits the keyword arguments, checks the call-time ones against the
    schema, extracts `preserve` and applies argument deprecations; and the
    call, which checks and preprocesses the inputs, expands them into input
    sets, builds one instance per set and packs the outputs. */
module Operators {
  import opened Strings
  import opened Values
  import opened Outcomes
  import opened Kwargs
  import opened Backend
  import opened Graph
  import opened InputSets
  import opened OperatorInstance

  // ---------------------------------------------------------------------------
  // `Operator.__init__`

  /** The loop over the call-time arguments in `__init__`: each must be
      accepted by `_check_arg_input`; the first that is not raises. */
  function CheckArgInputs(schema: Schema, op: string, keys: seq<string>): (r: Result<()>)
    ensures r.Ok? <==> forall i :: 0 <= i < |keys| ==> keys[i] == "name" || keys[i] in schema.tensorArguments
    ensures r.Err? ==> exists i :: 0 <= i < |keys| && r.error == ArgumentInputNotSupported(op, keys[i])
                                    && keys[i] != "name" && keys[i] !in schema.tensorArguments
                                    && forall j :: 0 <= j < i ==> keys[j] == "name" || keys[j] in schema.tensorArguments
    decreases |keys|
  {
    if |keys| == 0 then Ok(())
    else
      match CheckArgInput(schema, op, keys[0])
      case Err(e) => Err(e)
      case Ok(_) =>
        var rest := CheckArgInputs(schema, op, keys[1..]);
        assert forall i :: 1 <= i < |keys| ==> keys[i] == keys[1..][i - 1];
        if rest.Err? then
          var i :| 0 <= i < |keys| - 1 && rest.error == ArgumentInputNotSupported(op, keys[1..][i])
                   && keys[1..][i] != "name" && keys[1..][i] !in schema.tensorArguments
                   && forall j :: 0 <= j < i ==> keys[1..][j] == "name" || keys[1..][j] in schema.tensorArguments;
          assert keys[i + 1] == keys[1..][i];
          rest
        else rest
  }

  /** A deprecated argument that has been renamed. */
  predicate Renamed(schema: Schema, a: string) {
    a in schema.deprecatedArgs && schema.deprecatedArgs[a].renamedTo != ""
  }

  /** A deprecated argument among `names` that disappears from the
      arguments: renamed, or removed. */
  predicate Dropped(schema: Schema, names: seq<string>, k: string) {
    k in names && k in schema.deprecatedArgs
    && (schema.deprecatedArgs[k].renamedTo != "" || schema.deprecatedArgs[k].removed)
  }

  /** The renames among `names` cannot clash: no new name is already an
      argument, and no two arguments get the same new name. */
  predicate TargetsFresh(schema: Schema, d: Kwargs, names: seq<string>) {
    && (forall i :: 0 <= i < |names| && Renamed(schema, names[i]) ==>
          schema.deprecatedArgs[names[i]].renamedTo !in Keys(d))
    && (forall i, j :: 0 <= i < j < |names| && Renamed(schema, names[i]) && Renamed(schema, names[j]) ==>
          schema.deprecatedArgs[names[i]].renamedTo != schema.deprecatedArgs[names[j]].renamedTo)
  }

  /** One warning per deprecated argument, in order. */
  function DeprecationWarnings(schema: Schema, names: seq<string>): (ws: seq<Warning>)
    ensures |ws| <= |names|
    ensures forall w :: w in ws ==> w.DeprecatedArgument? && w.arg in names && w.arg in schema.deprecatedArgs
    decreases |names|
  {
    if |names| == 0 then []
    else
      var a := names[0];
      (if a in schema.deprecatedArgs then [DeprecatedArgument(a, schema.deprecatedArgs[a].msg)] else [])
      + DeprecationWarnings(schema, names[1..])
  }

  /** Some rename among `names` hits an argument that stays present. */
  ghost predicate Clash(schema: Schema, d: Kwargs, names: seq<string>) {
    exists a :: a in names && Renamed(schema, a) && schema.deprecatedArgs[a].renamedTo in Keys(d)
                && !Dropped(schema, names, schema.deprecatedArgs[a].renamedTo)
  }

  /** `out` is `d` after the deprecations of `names`: the dropped arguments
      are gone, every other one keeps its value, and every renamed one now
      sits under its new name. */
  ghost predicate Remapped(schema: Schema, d: Kwargs, names: seq<string>, out: Kwargs) {
    && DistinctKeys(out)
    && (forall k :: k in Keys(out) <==>
          || (k in Keys(d) && !Dropped(schema, names, k))
          || (exists a :: a in names && Renamed(schema, a) && schema.deprecatedArgs[a].renamedTo == k))
    && (forall k :: k in Keys(d) && !Dropped(schema, names, k) ==> k in Keys(out) && Lookup(out, k) == Lookup(d, k))
    && (forall a :: a in names && a in Keys(d) && Renamed(schema, a) ==>
          schema.deprecatedArgs[a].renamedTo in Keys(out)
          && Lookup(out, schema.deprecatedArgs[a].renamedTo) == Lookup(d, a))
  }

  /** The deprecated-argument loop of `__init__` over the argument names
      `names`: a renamed argument moves to its new name (an error when that
      name is already present), a removed one is deleted, and each deprecated
      one emits its warning. */
  function RemapDeprecatedArgs(schema: Schema, op: string, d: Kwargs, names: seq<string>)
    : (r: Result<(Kwargs, seq<Warning>)>)
    requires DistinctKeys(d) && Distinct(names) && forall k :: k in names ==> k in Keys(d)
    ensures r.Err? ==> ConflictFor(schema, op, d, names, r.error)
    ensures TargetsFresh(schema, d, names) ==> r.Ok?
    ensures Clash(schema, d, names) ==> r.Err?
    ensures r.Ok? ==> Remapped(schema, d, names, r.value.0)
    ensures r.Ok? ==> r.value.1 == DeprecationWarnings(schema, names)
    decreases |names|
  {
    if |names| == 0 then
      Ok((d, []))
    else
      var a := names[0];
      var rest := names[1..];
      RestFacts(names);
      if a !in schema.deprecatedArgs || (schema.deprecatedArgs[a].renamedTo == "" && !schema.deprecatedArgs[a].removed) then
        KeepStep(schema, d, names);
        var w := if a in schema.deprecatedArgs then [DeprecatedArgument(a, schema.deprecatedArgs[a].msg)] else [];
        match RemapDeprecatedArgs(schema, op, d, rest)
        case Ok((d2, ws)) =>
          KeepRemapped(schema, d, names, d2);
          Ok((d2, w + ws))
        case Err(e) =>
          ConflictKeep(schema, op, d, names, e);
          Err(e)
      else
        var meta := schema.deprecatedArgs[a];
        var w := DeprecatedArgument(a, meta.msg);
        if meta.renamedTo != "" && meta.renamedTo in Keys(d) then
          Err(DeprecatedArgumentConflict(op, a, meta.renamedTo))
        else
          var d1 := if meta.renamedTo != "" then Delete(Append(d, meta.renamedTo, Lookup(d, a)), a) else Delete(d, a);
          DropStep(schema, d, names, d1);
          match RemapDeprecatedArgs(schema, op, d1, rest)
          case Err(e) =>
            ConflictDrop(schema, op, d, names, d1, e);
            Err(e)
          case Ok((d2, ws)) =>
            DropRemapped(schema, d, names, d1, d2);
            Ok((d2, [w] + ws))
  }

  /** `e` is the conflict raised for a renamed argument among `names` whose
      new name is already an argument of `d` or is the new name of another
      renamed argument among `names`. */
  ghost predicate ConflictFor(schema: Schema, op: string, d: Kwargs, names: seq<string>, e: Error) {
    exists a :: a in names && Renamed(schema, a)
                && e == DeprecatedArgumentConflict(op, a, schema.deprecatedArgs[a].renamedTo)
                && (|| schema.deprecatedArgs[a].renamedTo in Keys(d)
                    || exists b :: b in names && b != a && Renamed(schema, b)
                                   && schema.deprecatedArgs[b].renamedTo == schema.deprecatedArgs[a].renamedTo)
  }

  /** A conflict later in the loop, over the same arguments, is a conflict of
      the whole loop. */
  lemma ConflictKeep(schema: Schema, op: string, d: Kwargs, names: seq<string>, e: Error)
    requires |names| > 0 && Distinct(names)
    requires ConflictFor(schema, op, d, names[1..], e)
    ensures ConflictFor(schema, op, d, names, e)
  {
    RestFacts(names);
    var a :| a in names[1..] && Renamed(schema, a)
             && e == DeprecatedArgumentConflict(op, a, schema.deprecatedArgs[a].renamedTo)
             && (|| schema.deprecatedArgs[a].renamedTo in Keys(d)
                 || exists b :: b in names[1..] && b != a && Renamed(schema, b)
                                && schema.deprecatedArgs[b].renamedTo == schema.deprecatedArgs[a].renamedTo);
    assert a in names;
  }

  /** A conflict later in the loop, after the first argument was renamed or
      removed, is a conflict of the whole loop: a new name present then was
      present before or is the first argument's new name. */
  lemma ConflictDrop(schema: Schema, op: string, d: Kwargs, names: seq<string>, d1: Kwargs, e: Error)
    requires |names| > 0 && Distinct(names)
    requires Keys(d1) == Keys(d) - {names[0]} + (if Renamed(schema, names[0]) then {schema.deprecatedArgs[names[0]].renamedTo} else {})
    requires ConflictFor(schema, op, d1, names[1..], e)
    ensures ConflictFor(schema, op, d, names, e)
  {
    RestFacts(names);
    var a :| a in names[1..] && Renamed(schema, a)
             && e == DeprecatedArgumentConflict(op, a, schema.deprecatedArgs[a].renamedTo)
             && (|| schema.deprecatedArgs[a].renamedTo in Keys(d1)
                 || exists b :: b in names[1..] && b != a && Renamed(schema, b)
                                && schema.deprecatedArgs[b].renamedTo == schema.deprecatedArgs[a].renamedTo);
    assert a in names && a != names[0];
    var t := schema.deprecatedArgs[a].renamedTo;
    if t in Keys(d1) && t !in Keys(d) {
      assert Renamed(schema, names[0]) && schema.deprecatedArgs[names[0]].renamedTo == t;
    }
  }

  lemma RestFacts(names: seq<string>)
    requires |names| > 0 && Distinct(names)
    ensures Distinct(names[1..])
    ensures forall k :: k in names[1..] ==> k in names && k != names[0]
    ensures forall k :: k in names <==> k == names[0] || k in names[1..]
  {
    assert names == [names[0]] + names[1..];
    forall k | k in names[1..]
      ensures k != names[0]
    {
      var i :| 0 <= i < |names| - 1 && names[1..][i] == k;
      assert names[i + 1] == k;
    }
  }

  /** The first name is kept in place: the conditions carry over to the rest. */
  lemma KeepStep(schema: Schema, d: Kwargs, names: seq<string>)
    requires DistinctKeys(d) && Distinct(names) && forall k :: k in names ==> k in Keys(d)
    requires |names| > 0 && !Dropped(schema, names, names[0])
    ensures TargetsFresh(schema, d, names) ==> TargetsFresh(schema, d, names[1..])
    ensures Clash(schema, d, names) ==> Clash(schema, d, names[1..])
  {
    RestFacts(names);
    if Clash(schema, d, names) {
      var a :| a in names && Renamed(schema, a) && schema.deprecatedArgs[a].renamedTo in Keys(d)
               && !Dropped(schema, names, schema.deprecatedArgs[a].renamedTo);
      assert a != names[0];
      assert !Dropped(schema, names[1..], schema.deprecatedArgs[a].renamedTo);
    }
    if TargetsFresh(schema, d, names) {
      assert forall i :: 0 <= i < |names| - 1 ==> names[1..][i] == names[i + 1];
    }
  }

  lemma KeepRemapped(schema: Schema, d: Kwargs, names: seq<string>, out: Kwargs)
    requires DistinctKeys(d) && Distinct(names) && forall k :: k in names ==> k in Keys(d)
    requires |names| > 0 && !Dropped(schema, names, names[0])
    requires Remapped(schema, d, names[1..], out)
    ensures Remapped(schema, d, names, out)
  {
    RestFacts(names);
    forall k
      ensures Dropped(schema, names, k) <==> Dropped(schema, names[1..], k)
    {
    }
  }

  /** The first name is renamed or removed: the conditions carry over to the
      rest, applied to the updated arguments. */
  lemma DropStep(schema: Schema, d: Kwargs, names: seq<string>, d1: Kwargs)
    requires DistinctKeys(d) && Distinct(names) && forall k :: k in names ==> k in Keys(d)
    requires |names| > 0 && Dropped(schema, names, names[0])
    requires Renamed(schema, names[0]) ==>
               && schema.deprecatedArgs[names[0]].renamedTo !in Keys(d)
               && d1 == Delete(Append(d, schema.deprecatedArgs[names[0]].renamedTo, Lookup(d, names[0])), names[0])
    requires !Renamed(schema, names[0]) ==> d1 == Delete(d, names[0])
    ensures DistinctKeys(d1) && forall k :: k in names[1..] ==> k in Keys(d1)
    ensures Keys(d1) == Keys(d) - {names[0]} + (if Renamed(schema, names[0]) then {schema.deprecatedArgs[names[0]].renamedTo} else {})
    ensures Renamed(schema, names[0]) ==>
              Lookup(d1, schema.deprecatedArgs[names[0]].renamedTo) == Lookup(d, names[0])
    ensures forall k :: k in Keys(d) && k != names[0] ==> Lookup(d1, k) == Lookup(d, k)
    ensures TargetsFresh(schema, d, names) ==> TargetsFresh(schema, d1, names[1..])
    ensures Clash(schema, d, names) ==> Clash(schema, d1, names[1..])
  {
    RestFacts(names);
    var a := names[0];
    if TargetsFresh(schema, d, names) {
      assert forall i :: 0 <= i < |names| - 1 ==> names[1..][i] == names[i + 1];
      if Renamed(schema, a) {
        forall i | 0 <= i < |names| - 1 && Renamed(schema, names[1..][i])
          ensures schema.deprecatedArgs[names[1..][i]].renamedTo != schema.deprecatedArgs[a].renamedTo
        {
          assert names[1..][i] == names[i + 1];
        }
      }
    }
    if Clash(schema, d, names) {
      var b :| b in names && Renamed(schema, b) && schema.deprecatedArgs[b].renamedTo in Keys(d)
               && !Dropped(schema, names, schema.deprecatedArgs[b].renamedTo);
      if b == a {
        assert false;
      }
      assert !Dropped(schema, names[1..], schema.deprecatedArgs[b].renamedTo);
    }
  }

  lemma DropRemapped(schema: Schema, d: Kwargs, names: seq<string>, d1: Kwargs, out: Kwargs)
    requires DistinctKeys(d) && Distinct(names) && forall k :: k in names ==> k in Keys(d)
    requires |names| > 0 && Dropped(schema, names, names[0])
    requires Renamed(schema, names[0]) ==> schema.deprecatedArgs[names[0]].renamedTo !in Keys(d)
    requires Keys(d1) == Keys(d) - {names[0]} + (if Renamed(schema, names[0]) then {schema.deprecatedArgs[names[0]].renamedTo} else {})
    requires Renamed(schema, names[0]) ==>
               Lookup(d1, schema.deprecatedArgs[names[0]].renamedTo) == Lookup(d, names[0])
    requires forall k :: k in Keys(d) && k != names[0] ==> Lookup(d1, k) == Lookup(d, k)
    requires Remapped(schema, d1, names[1..], out)
    ensures Remapped(schema, d, names, out)
  {
    RestFacts(names);
    var a := names[0];
    forall k
      ensures k in Keys(out) <==>
          || (k in Keys(d) && !Dropped(schema, names, k))
          || (exists b :: b in names && Renamed(schema, b) && schema.deprecatedArgs[b].renamedTo == k)
    {
      if Renamed(schema, a) && k == schema.deprecatedArgs[a].renamedTo {
        assert k !in names[1..];
      }
    }
  }

  /** The construction-time arguments other than `preserve`. */
  function ConfigKeys(kwargs: Kwargs): set<string> {
    SuppliedKeys(kwargs) - CallTimeKeys(kwargs) - {"preserve"}
  }

  /** Renaming the deprecated arguments among `keys` collides with nothing. */
  predicate RenamesFresh(schema: Schema, keys: set<string>) {
    && (forall k :: k in keys && Renamed(schema, k) ==> schema.deprecatedArgs[k].renamedTo !in keys)
    && (forall k1, k2 :: k1 in keys && k2 in keys && k1 != k2 && Renamed(schema, k1) && Renamed(schema, k2) ==>
          schema.deprecatedArgs[k1].renamedTo != schema.deprecatedArgs[k2].renamedTo)
  }

  /** Some deprecated argument among `keys` is renamed to an argument that is
      itself neither renamed nor removed. */
  predicate RenameClash(schema: Schema, keys: set<string>) {
    exists k :: k in keys && Renamed(schema, k)
                && var t := schema.deprecatedArgs[k].renamedTo;
                   t in keys && !(t in schema.deprecatedArgs
                                  && (schema.deprecatedArgs[t].renamedTo != "" || schema.deprecatedArgs[t].removed))
  }

  /** `Operator(device=device, **kwargs)`: the call-time arguments must be
      tensor arguments of the schema; `preserve` is taken out of the
      construction-time ones (defaulting to false, and forced on by a no-prune
      schema), and the deprecated construction-time arguments are renamed or
      removed. `device` is a separate keyword-only parameter, so it never
      appears in `kwargs`. */
  function MakeOperator(typeName: string, schema: Schema, device: Device, kwargs: Kwargs)
    : (r: Result<(Operator, seq<Warning>)>)
    requires DistinctKeys(kwargs) && NameIsString(kwargs) && "device" !in Keys(kwargs)
    ensures r.Err? ==> r.error.ArgumentInputNotSupported? || r.error.DeprecatedArgumentConflict?
    ensures (r.Err? && r.error.ArgumentInputNotSupported?) <==>
              exists k :: k in CallTimeKeys(kwargs) && k != "name" && k !in schema.tensorArguments
    ensures r.Err? && r.error.DeprecatedArgumentConflict? ==>
              r.error.arg in ConfigKeys(kwargs) && Renamed(schema, r.error.arg)
              && SetConflict(schema, typeName, ConfigKeys(kwargs), r.error)
    ensures r.Ok? ==> RenamedKeys(schema, ConfigKeys(kwargs), Keys(r.value.0.initArgs))
    ensures (forall k :: k in CallTimeKeys(kwargs) ==> k == "name" || k in schema.tensorArguments) ==>
              && (RenamesFresh(schema, ConfigKeys(kwargs)) ==> r.Ok?)
              && (RenameClash(schema, ConfigKeys(kwargs)) ==> r.Err? && r.error.DeprecatedArgumentConflict?)
    ensures r.Ok? ==>
              var op := r.value.0;
              && ValidOperator(op)
              && op.typeName == typeName && op.schema == schema && op.device == device
              && Keys(op.callArgs) == CallTimeKeys(kwargs)
              && (forall k :: k in Keys(op.callArgs) ==> k in Keys(kwargs) && Lookup(op.callArgs, k) == Lookup(kwargs, k))
              && op.preserve == (schema.noPrune || ("preserve" in SuppliedKeys(kwargs) - CallTimeKeys(kwargs)
                                                    && Truthy(ToScalar(Lookup(kwargs, "preserve")))))
    ensures r.Ok? ==>
              var op := r.value.0;
              && (forall k :: k in ConfigKeys(kwargs) && !Retired(schema, k) ==>
                    k in Keys(op.initArgs) && Lookup(op.initArgs, k) == ToScalar(Lookup(kwargs, k)))
              && (forall k :: k in ConfigKeys(kwargs) && Renamed(schema, k) ==>
                    schema.deprecatedArgs[k].renamedTo in Keys(op.initArgs)
                    && Lookup(op.initArgs, schema.deprecatedArgs[k].renamedTo) == ToScalar(Lookup(kwargs, k)))
              && (forall w :: w in r.value.1 ==> w.DeprecatedArgument? && w.arg in ConfigKeys(kwargs)
                                                  && w.arg in schema.deprecatedArgs)
  {
    var (init, call) := SeparateKwargs(kwargs);
    SeparateKwargsKeys(kwargs);
    KeyListKeys(call);
    match CheckArgInputs(schema, typeName, KeyList(call))
    case Err(e) => Err(e)
    case Ok(_) =>
      var preserveArg := if "preserve" in Keys(init) then Lookup(init, "preserve") else BoolLit(false);
      var rest := Delete(init, "preserve");
      ConfigFacts(kwargs, init, call, rest);
      match RenameDeprecatedArgs(schema, typeName, rest)
      case Err(e) => Err(e)
      case Ok((initArgs, ws)) =>
        var op := Operator(typeName, schema, device, initArgs, call, Truthy(preserveArg) || schema.noPrune);
        CallArgsValid(kwargs, call);
        Ok((op, ws))
  }

  /** The deprecated-argument loop over `list(kwargs.keys())`, stated over
      the set of arguments. */
  function RenameDeprecatedArgs(schema: Schema, op: string, d: Kwargs): (r: Result<(Kwargs, seq<Warning>)>)
    requires DistinctKeys(d)
    ensures r.Err? ==> r.error.DeprecatedArgumentConflict? && r.error.arg in Keys(d) && Renamed(schema, r.error.arg)
    ensures r.Err? ==> SetConflict(schema, op, Keys(d), r.error)
    ensures RenamesFresh(schema, Keys(d)) ==> r.Ok?
    ensures RenameClash(schema, Keys(d)) ==> r.Err?
    ensures r.Ok? ==> RenamedKeys(schema, Keys(d), Keys(r.value.0))
    ensures r.Ok? ==>
              && DistinctKeys(r.value.0)
              && (forall k :: k in Keys(d) && !Retired(schema, k) ==>
                    k in Keys(r.value.0) && Lookup(r.value.0, k) == Lookup(d, k))
              && (forall k :: k in Keys(d) && Renamed(schema, k) ==>
                    schema.deprecatedArgs[k].renamedTo in Keys(r.value.0)
                    && Lookup(r.value.0, schema.deprecatedArgs[k].renamedTo) == Lookup(d, k))
              && (forall w :: w in r.value.1 ==> w.DeprecatedArgument? && w.arg in Keys(d) && w.arg in schema.deprecatedArgs)
  {
    var names := KeyList(d);
    KeyListKeys(d);
    KeyListDistinct(d);
    RenameConditions(schema, d, names);
    var r := RemapDeprecatedArgs(schema, op, d, names);
    RenameSetFacts(schema, op, d, names, r);
    r
  }

  /** A deprecated argument that disappears: renamed, or removed. */
  predicate Retired(schema: Schema, k: string) {
    k in schema.deprecatedArgs && (schema.deprecatedArgs[k].renamedTo != "" || schema.deprecatedArgs[k].removed)
  }

  /** `out` are the argument names after the deprecations of `keys`: the
      names that are not retired, and the new names of the renamed ones. */
  ghost predicate RenamedKeys(schema: Schema, keys: set<string>, out: set<string>) {
    forall k :: k in out <==>
      || (k in keys && !Retired(schema, k))
      || (exists a :: a in keys && Renamed(schema, a) && schema.deprecatedArgs[a].renamedTo == k)
  }

  /** `e` is the conflict raised for a renamed argument among `keys` whose
      new name is among `keys` or is the new name of another renamed one. */
  ghost predicate SetConflict(schema: Schema, op: string, keys: set<string>, e: Error) {
    exists a :: a in keys && Renamed(schema, a)
                && e == DeprecatedArgumentConflict(op, a, schema.deprecatedArgs[a].renamedTo)
                && (|| schema.deprecatedArgs[a].renamedTo in keys
                    || exists b :: b in keys && b != a && Renamed(schema, b)
                                   && schema.deprecatedArgs[b].renamedTo == schema.deprecatedArgs[a].renamedTo)
  }

  /** The loop's outcome over the name list, stated over the set of names. */
  lemma RenameSetFacts(schema: Schema, op: string, d: Kwargs, names: seq<string>, r: Result<(Kwargs, seq<Warning>)>)
    requires forall k :: k in names <==> k in Keys(d)
    requires r.Err? ==> ConflictFor(schema, op, d, names, r.error)
    requires r.Ok? ==> Remapped(schema, d, names, r.value.0)
    ensures r.Err? ==> SetConflict(schema, op, Keys(d), r.error)
    ensures r.Ok? ==> RenamedKeys(schema, Keys(d), Keys(r.value.0))
  {
    if r.Err? {
      var a :| a in names && Renamed(schema, a)
               && r.error == DeprecatedArgumentConflict(op, a, schema.deprecatedArgs[a].renamedTo)
               && (|| schema.deprecatedArgs[a].renamedTo in Keys(d)
                   || exists b :: b in names && b != a && Renamed(schema, b)
                                  && schema.deprecatedArgs[b].renamedTo == schema.deprecatedArgs[a].renamedTo);
      assert a in Keys(d);
    } else {
      forall k
        ensures k in Keys(r.value.0) <==>
          || (k in Keys(d) && !Retired(schema, k))
          || (exists a :: a in Keys(d) && Renamed(schema, a) && schema.deprecatedArgs[a].renamedTo == k)
      {
        assert Dropped(schema, names, k) <==> k in Keys(d) && Retired(schema, k);
      }
    }
  }

  lemma ConfigFacts(kwargs: Kwargs, init: Kwargs, call: Kwargs, rest: Kwargs)
    requires DistinctKeys(kwargs) && (init, call) == SeparateKwargs(kwargs)
    requires rest == Delete(init, "preserve")
    ensures Keys(rest) == ConfigKeys(kwargs)
    ensures forall k :: k in Keys(rest) ==> k in Keys(kwargs) && Lookup(rest, k) == ToScalar(Lookup(kwargs, k))
    ensures "preserve" in Keys(init) <==> "preserve" in SuppliedKeys(kwargs) - CallTimeKeys(kwargs)
    ensures "preserve" in Keys(init) ==> "preserve" in Keys(kwargs) && Lookup(init, "preserve") == ToScalar(Lookup(kwargs, "preserve"))
  {
    SeparateKwargsKeys(kwargs);
  }

  lemma CallArgsValid(kwargs: Kwargs, call: Kwargs)
    requires DistinctKeys(kwargs) && NameIsString(kwargs) && call == SeparateKwargs(kwargs).1
    ensures DistinctKeys(call) && NameIsString(call)
    ensures forall k :: k in Keys(call) ==> k in Keys(kwargs) && Lookup(call, k) == Lookup(kwargs, k)
  {
    forall i | 0 <= i < |call| && call[i].0 == "name"
      ensures call[i].1.NoneVal? || call[i].1.Str?
    {
      LookupAt(call, i);
      LookupAt(kwargs, KeyIndex(kwargs, "name"));
    }
  }

  /** The set-level rename conditions in terms of the name list. */
  lemma RenameConditions(schema: Schema, d: Kwargs, names: seq<string>)
    requires Distinct(names) && forall k :: k in names <==> k in Keys(d)
    ensures RenamesFresh(schema, Keys(d)) ==> TargetsFresh(schema, d, names)
    ensures RenameClash(schema, Keys(d)) ==> Clash(schema, d, names)
  {
    if RenameClash(schema, Keys(d)) {
      var k :| k in Keys(d) && Renamed(schema, k)
               && var t := schema.deprecatedArgs[k].renamedTo;
                  t in Keys(d) && !(t in schema.deprecatedArgs
                                    && (schema.deprecatedArgs[t].renamedTo != "" || schema.deprecatedArgs[t].removed));
      assert k in names;
    }
    if RenamesFresh(schema, Keys(d)) {
      forall i | 0 <= i < |names| && Renamed(schema, names[i])
        ensures schema.deprecatedArgs[names[i]].renamedTo !in Keys(d)
      {
        assert names[i] in Keys(d);
      }
      forall i, j | 0 <= i < j < |names| && Renamed(schema, names[i]) && Renamed(schema, names[j])
        ensures schema.deprecatedArgs[names[i]].renamedTo != schema.deprecatedArgs[names[j]].renamedTo
      {
        assert names[i] in Keys(d) && names[j] in Keys(d) && names[i] != names[j];
      }
    }
  }

  // ---------------------------------------------------------------------------
  // `Operator.__call__`

  /** `is_input` in `_preprocess_inputs`: a handle, a scalar constant, or a
      list holding at least one handle and nothing but handles and scalar
      constants. */
  predicate IsInput(v: Value) {
    || v.Node? || v.Scalar?
    || (&& v.ListOf?
        && (exists j :: 0 <= j < |v.items| && v.items[j].Node?)
        && (forall j :: 0 <= j < |v.items| ==> v.items[j].Node? || v.items[j].Scalar?))
  }

  /** Where a constant made from positional input `idx` is placed: the
      schema's device for that input if it names one, else the operator's
      default input device. */
  function InputDevice(op: Operator, idx: nat): Device {
    if idx in op.schema.inputDevices then op.schema.inputDevices[idx] else DefaultInputDevice(op.device)
  }

  /** `_preprocess_inputs`: every positional input that is not already an
      input becomes a constant node on its input device; one that cannot
      raises `TypeError` naming its position. */
  function PreprocessInputs(op: Operator, inputs: seq<Value>, c: Counter): (r: Result<(seq<Value>, Counter)>)
    ensures r.Ok? <==> forall i :: 0 <= i < |inputs| && !IsInput(inputs[i]) ==> ConstantConvertible(inputs[i])
    ensures r.Err? ==> exists i :: 0 <= i < |inputs| && r.error == InputNotConvertible(op.typeName, i)
                                    && !IsInput(inputs[i]) && !ConstantConvertible(inputs[i])
                                    && forall j :: 0 <= j < i ==> IsInput(inputs[j]) || ConstantConvertible(inputs[j])
    ensures (forall i :: 0 <= i < |inputs| ==> IsInput(inputs[i])) ==> r == Ok((inputs, c))
    ensures r.Ok? ==> PreparedInputs(op, inputs, c.next, r.value.1.next, r.value.0)
    decreases |inputs|
  {
    if |inputs| == 0 then Ok(([], c))
    else
      var n := |inputs| - 1;
      var init := inputs[..n];
      var last := inputs[n];
      assert forall i :: 0 <= i < n ==> init[i] == inputs[i];
      match PreprocessInputs(op, init, c)
      case Err(e) => Err(e)
      case Ok((done, c1)) =>
        if IsInput(last) then
          assert inputs == init + [last];
          PreparedExtend(op, inputs, c.next, c1.next, c1.next, done, last);
          Ok((done + [last], c1))
        else
          match InstantiateConstant(c1, InputDevice(op, n), last)
          case None => Err(InputNotConvertible(op.typeName, n))
          case Some((h, c2)) =>
            PreparedExtend(op, inputs, c.next, c1.next, c2.next, done, Node(h));
            Ok((done + [Node(h)], c2))
  }

  /** Positional input `i`, given as `v`, became `w`: an input stays as it
      is, anything else becomes a constant node on input `i`'s device made
      by an operator numbered in `[lo, hi)`. */
  predicate InputPrepared(op: Operator, i: nat, v: Value, lo: nat, hi: nat, w: Value) {
    && IsInput(w)
    && (IsInput(v) ==> w == v)
    && (!IsInput(v) ==> w.Node? && w.h.device == OutputDevice(InputDevice(op, i)) && lo <= w.h.producer < hi)
  }

  /** What `_preprocess_inputs` leaves for `inputs`, position by position. */
  ghost predicate PreparedInputs(op: Operator, inputs: seq<Value>, lo: nat, hi: nat, out: seq<Value>) {
    && lo <= hi && |out| == |inputs|
    && forall i :: 0 <= i < |inputs| ==> InputPrepared(op, i, inputs[i], lo, hi, out[i])
  }

  lemma PreparedExtend(op: Operator, inputs: seq<Value>, lo: nat, mid: nat, hi: nat, done: seq<Value>, w: Value)
    requires |inputs| > 0 && mid <= hi
    requires PreparedInputs(op, inputs[..|inputs| - 1], lo, mid, done)
    requires InputPrepared(op, |inputs| - 1, inputs[|inputs| - 1], lo, hi, w)
    ensures PreparedInputs(op, inputs, lo, hi, done + [w])
  {
    var n := |inputs| - 1;
    var out := done + [w];
    forall i | 0 <= i < |inputs|
      ensures InputPrepared(op, i, inputs[i], lo, hi, out[i])
    {
      if i < n {
        assert inputs[..n][i] == inputs[i] && out[i] == done[i];
        assert InputPrepared(op, i, inputs[..n][i], lo, mid, done[i]);
      }
    }
  }

  /** The number of outputs each instance of `op` carries. */
  function OutputCount(op: Operator): nat {
    if NumOutputs(op.schema) == 0 && op.preserve then 0 else NumOutputs(op.schema)
  }

  /** The sinks a side-effect instance registers with the pipeline: its
      outputs, or a single sink handle named after it when the operator has
      none. */
  function Registered(op: Operator, inst: Instance): seq<Handle> {
    if OutputCount(op) == 0 then [Handle(SinkName(op.typeName, inst.id), OutputDevice(op.device), inst.id)]
    else inst.outputs
  }

  /** The sinks a sequence of side-effect instances registers, in order. */
  function RegisteredAll(op: Operator, insts: seq<Instance>): seq<Handle>
    decreases |insts|
  {
    if |insts| == 0 then [] else Registered(op, insts[0]) + RegisteredAll(op, insts[1..])
  }

  /** The sinks of one instance followed by others are its own sinks
      followed by theirs. */
  lemma RegisteredCons(op: Operator, first: seq<Instance>, rest: seq<Instance>)
    requires |first| == 1
    ensures RegisteredAll(op, first + rest) == Registered(op, first[0]) + RegisteredAll(op, rest)
  {
    var all := first + rest;
    assert all[0] == first[0] && all[1..] == rest;
  }

  /** The pipeline after a first instance and then a batch of further
      ones holds the sinks of all of them, in order. */
  lemma SinksCons(op: Operator, p: Option<Pipeline>, first: Batch, rest: Batch, more: bool)
    requires |first.instances| == 1 && (!more ==> rest.instances == [])
    requires op.preserve ==> p.Some? && first.pipeline == Some(WithSinks(p.value, Registered(op, first.instances[0])))
    requires op.preserve && !more ==> rest.pipeline == first.pipeline
    requires op.preserve && more ==>
               first.pipeline.Some? && rest.pipeline == Some(WithSinks(first.pipeline.value, RegisteredAll(op, rest.instances)))
    ensures op.preserve ==>
              p.Some? && rest.pipeline == Some(WithSinks(p.value, RegisteredAll(op, first.instances + rest.instances)))
  {
    RegisteredCons(op, first.instances, rest.instances);
    if op.preserve {
      var mine := Registered(op, first.instances[0]);
      if more {
        assert p.value.sinks + mine + RegisteredAll(op, rest.instances)
            == p.value.sinks + (mine + RegisteredAll(op, rest.instances));
      } else {
        assert RegisteredAll(op, rest.instances) == [];
        assert mine + RegisteredAll(op, rest.instances) == mine;
      }
    }
  }

  /** The registered sinks depend only on each instance's id and outputs. */
  lemma {:induction false} RegisteredSame(op: Operator, a: seq<Instance>, b: seq<Instance>)
    requires |a| == |b|
    requires forall j :: 0 <= j < |a| ==> a[j].id == b[j].id && a[j].outputs == b[j].outputs
    ensures RegisteredAll(op, a) == RegisteredAll(op, b)
    decreases |a|
  {
    if |a| > 0 {
      RegisteredSame(op, a[1..], b[1..]);
    }
  }

  /** The pipeline with `hs` registered after its current sinks. */
  function WithSinks(p: Pipeline, hs: seq<Handle>): Pipeline {
    Pipeline(p.sinks + hs)
  }

  /** The instances a call built, with the counter, pipeline and warnings
      after them. */
  datatype Batch = Batch(instances: seq<Instance>, counter: Counter, pipeline: Option<Pipeline>, warnings: seq<Warning>)

  /** Every element of every input set is a handle or a scalar constant. */
  predicate PlainInputSets(sets: seq<seq<Value>>) {
    forall j, i :: 0 <= j < |sets| && 0 <= i < |sets[j]| ==> sets[j][i].Node? || sets[j][i].Scalar?
  }

  /** `inst` was built from `inputSet` with an id taken in `[lo, hi)`: its
      relation is itself, its handle inputs are the set's handles, each
      scalar constant of the set is a node of its own on the default input
      device, and it carries the operator's outputs. */
  ghost predicate InstanceFits(op: Operator, inputSet: seq<Value>, lo: nat, hi: nat, inst: Instance) {
    && lo <= inst.id < hi
    && inst.relationId == inst.id
    && |inst.positional| == |inputSet|
    && (forall i :: 0 <= i < |inputSet| && inputSet[i].Node? ==> inst.positional[i] == inputSet[i].h)
    && (forall i :: 0 <= i < |inputSet| && inputSet[i].Scalar? ==>
          && inst.positional[i].device == OutputDevice(DefaultInputDevice(op.device))
          && inst.id < inst.positional[i].producer < hi)
    && |inst.outputs| == OutputCount(op)
  }

  /** What `inst` owes to the operator and the call's keyword arguments
      rather than to its input set: its name; its outputs, each produced by
      it on the operator's output device and named after it; and its
      argument inputs, in sorted order, one per call-time argument other
      than `name`, each the given handle or a CPU constant node made after
      the instance and before `hi`. */
  ghost predicate InstanceWired(op: Operator, kwargs: Kwargs, hi: nat, inst: Instance) {
    && inst.name == (match ExplicitName(op, kwargs)
                     case Some(n) => n
                     case None => DefaultName(op.typeName, inst.id))
    && (forall k :: 0 <= k < |inst.outputs| ==>
          && inst.outputs[k].producer == inst.id
          && inst.outputs[k].device == OutputDevice(op.device)
          && inst.outputs[k].name == OutputName(inst.name, OutputCount(op), k))
    && StrictlyIncreasing(ArgNames(inst.argumentInputs))
    && (forall k :: k in ArgNames(inst.argumentInputs) <==>
          k != "name" && (k in SuppliedKeys(op.callArgs) || k in CallTimeKeys(kwargs)))
    && (forall i :: 0 <= i < |inst.argumentInputs| ==>
          var (k, h) := inst.argumentInputs[i];
          && (CallArgValue(op.callArgs, kwargs, k).Node? ==> h == CallArgValue(op.callArgs, kwargs, k).h)
          && (!CallArgValue(op.callArgs, kwargs, k).Node? ==>
                h.device == CPU && inst.id < h.producer < hi))
  }

  /** `b` holds one fitting instance per input set, in increasing id order,
      all with ids taken between `lo` and the batch's counter. */
  ghost predicate BatchFits(op: Operator, kwargs: Kwargs, sets: seq<seq<Value>>, lo: nat, b: Batch) {
    && |b.instances| == |sets|
    && lo <= b.counter.next
    && (forall j :: 0 <= j < |sets| ==> InstanceFits(op, sets[j], lo, b.counter.next, b.instances[j]))
    && (forall j :: 0 <= j < |sets| ==> InstanceWired(op, kwargs, b.counter.next, b.instances[j]))
    && (forall j, k :: 0 <= j < k < |sets| ==> b.instances[j].id < b.instances[k].id)
  }

  /** A fitting first instance followed by a fitting batch for the remaining
      sets is a fitting batch for all of them. */
  lemma {:induction false} BatchCons(op: Operator, kwargs: Kwargs, sets: seq<seq<Value>>, lo: nat, first: Batch, rest: Batch)
    requires |sets| > 0 && |first.instances| == 1
    requires lo <= first.counter.next
    requires InstanceFits(op, sets[0], lo, first.counter.next, first.instances[0])
    requires InstanceWired(op, kwargs, first.counter.next, first.instances[0])
    requires BatchFits(op, kwargs, sets[1..], first.counter.next, rest)
    ensures BatchFits(op, kwargs, sets, lo, Batch(first.instances + rest.instances, rest.counter, rest.pipeline, first.warnings + rest.warnings))
  {
    var all := first.instances + rest.instances;
    var hi := rest.counter.next;
    forall j | 0 <= j < |sets|
      ensures InstanceFits(op, sets[j], lo, hi, all[j])
      ensures InstanceWired(op, kwargs, hi, all[j])
    {
      ConsAt(op, kwargs, sets, lo, first, rest, j);
    }
    forall j | 0 <= j < |rest.instances|
      ensures first.counter.next <= rest.instances[j].id
    {
      assert InstanceFits(op, sets[1..][j], first.counter.next, rest.counter.next, rest.instances[j]);
    }
    ConsOrder(first.instances, rest.instances, first.counter.next);
  }

  /** The first instance's id is below the ids of the rest, taken later. */
  lemma ConsOrder(first: seq<Instance>, rest: seq<Instance>, mid: nat)
    requires |first| == 1 && first[0].id < mid
    requires forall j :: 0 <= j < |rest| ==> mid <= rest[j].id
    requires forall j, k :: 0 <= j < k < |rest| ==> rest[j].id < rest[k].id
    ensures forall j, k :: 0 <= j < k < |first + rest| ==> (first + rest)[j].id < (first + rest)[k].id
  {
    var all := first + rest;
    forall j, k | 0 <= j < k < |all|
      ensures all[j].id < all[k].id
    {
      if j > 0 {
        assert all[j] == rest[j - 1] && all[k] == rest[k - 1];
      } else {
        assert all[k] == rest[k - 1];
      }
    }
  }

  /** The facts about one instance still hold over a wider id range. */
  lemma FitsLater(op: Operator, kwargs: Kwargs, inputSet: seq<Value>, lo: nat, lo': nat, mid: nat, hi: nat, inst: Instance)
    requires lo' <= lo && mid <= hi
    requires InstanceFits(op, inputSet, lo, mid, inst) && InstanceWired(op, kwargs, mid, inst)
    ensures InstanceFits(op, inputSet, lo', hi, inst) && InstanceWired(op, kwargs, hi, inst)
  {
  }

  /** Instance `j` of a batch put together from a first instance and a
      batch for the remaining sets. */
  lemma ConsAt(op: Operator, kwargs: Kwargs, sets: seq<seq<Value>>, lo: nat, first: Batch, rest: Batch, j: nat)
    requires j < |sets| && |first.instances| == 1
    requires lo <= first.counter.next
    requires InstanceFits(op, sets[0], lo, first.counter.next, first.instances[0])
    requires InstanceWired(op, kwargs, first.counter.next, first.instances[0])
    requires BatchFits(op, kwargs, sets[1..], first.counter.next, rest)
    ensures InstanceFits(op, sets[j], lo, rest.counter.next, (first.instances + rest.instances)[j])
    ensures InstanceWired(op, kwargs, rest.counter.next, (first.instances + rest.instances)[j])
  {
    var all := first.instances + rest.instances;
    var hi := rest.counter.next;
    if j > 0 {
      assert sets[j] == sets[1..][j - 1] && all[j] == rest.instances[j - 1];
      FitsLater(op, kwargs, sets[j], first.counter.next, lo, hi, hi, all[j]);
    } else {
      FitsLater(op, kwargs, sets[0], lo, lo, first.counter.next, hi, all[0]);
    }
  }

  /** Every input set is buildable exactly when the first one and all the
      remaining ones are. */
  lemma BuildableSplit(op: Operator, sets: seq<seq<Value>>, kwargs: Kwargs)
    requires |sets| > 0
    ensures (forall j :: 0 <= j < |sets| ==> Buildable(op, sets[j], kwargs)) <==>
              Buildable(op, sets[0], kwargs) && forall j :: 0 <= j < |sets[1..]| ==> Buildable(op, sets[1..][j], kwargs)
  {
    assert forall j :: 1 <= j < |sets| ==> sets[j] == sets[1..][j - 1];
  }

  /** The loop of `__call__` that builds an instance for each input set and
      generates its outputs right away. */
  function BuildInstances(op: Operator, sets: seq<seq<Value>>, kwargs: Kwargs, c: Counter, pipeline: Option<Pipeline>)
    : (r: Result<Batch>)
    requires ValidOperator(op) && DistinctKeys(kwargs) && NameIsString(kwargs)
    ensures r.Err? ==> r.error.DuplicateArgument? || r.error.InvalidInputType? || r.error.PipelineRequired?
                       || r.error.ArgumentInputNotConvertible? || r.error.ArgumentInputNotSupported?
    ensures r.Err? && PlainInputSets(sets) ==> !r.error.InvalidInputType?
    ensures r.Ok? ==> BatchFits(op, kwargs, sets, c.next, r.value)
    ensures r.Ok? && !op.preserve ==> r.value.pipeline == pipeline
    ensures r.Ok? && op.preserve ==>
              if |sets| == 0 then r.value.pipeline == pipeline
              else pipeline.Some? && r.value.pipeline == Some(WithSinks(pipeline.value, RegisteredAll(op, r.value.instances)))
    decreases |sets|
  {
    if |sets| == 0 then Ok(Batch([], c, pipeline, []))
    else
      assert PlainInputSets(sets) ==> PlainInputSets(sets[1..]) by {
        assert forall j :: 1 <= j < |sets| ==> sets[j] == sets[1..][j - 1];
      }
      match BuildOne(op, sets[0], kwargs, c, pipeline)
      case Err(e) => Err(e)
      case Ok(first) =>
        match BuildInstances(op, sets[1..], kwargs, first.counter, first.pipeline)
        case Err(e) => Err(e)
        case Ok(rest) =>
          BatchCons(op, kwargs, sets, c.next, first, rest);
          SinksCons(op, pipeline, first, rest, |sets| > 1);
          Ok(Batch(first.instances + rest.instances, rest.counter, rest.pipeline, first.warnings + rest.warnings))
  }

  /** The loop succeeds exactly when every input set is buildable and, for a
      side-effect operator, there is a current pipeline; an argument-input
      error names the first refused argument input. */
  lemma {:induction false} BuildInstancesOutcome(op: Operator, sets: seq<seq<Value>>, kwargs: Kwargs, c: Counter, pipeline: Option<Pipeline>)
    requires ValidOperator(op) && DistinctKeys(kwargs) && NameIsString(kwargs)
    ensures var r := BuildInstances(op, sets, kwargs, c, pipeline);
            && (r.Ok? <==> (forall j :: 0 <= j < |sets| ==> Buildable(op, sets[j], kwargs))
                           && (|sets| > 0 ==> !(op.preserve && pipeline.None?)))
            && (r.Err? && (r.error.ArgumentInputNotConvertible? || r.error.ArgumentInputNotSupported?) ==>
                  exists k :: FirstRefusedArg(op, kwargs, k, r.error))
    decreases |sets|
  {
    if |sets| > 0 {
      BuildableSplit(op, sets, kwargs);
      var one := BuildOne(op, sets[0], kwargs, c, pipeline);
      if one.Ok? {
        BuildInstancesOutcome(op, sets[1..], kwargs, one.value.counter, one.value.pipeline);
      }
    }
  }

  /** One iteration of that loop: an instance for `inputSet`, with its outputs. */
  function BuildOne(op: Operator, inputSet: seq<Value>, kwargs: Kwargs, c: Counter, pipeline: Option<Pipeline>)
    : (r: Result<Batch>)
    requires ValidOperator(op) && DistinctKeys(kwargs) && NameIsString(kwargs)
    ensures r.Err? ==> r.error.DuplicateArgument? || r.error.InvalidInputType? || r.error.PipelineRequired?
                       || r.error.ArgumentInputNotConvertible? || r.error.ArgumentInputNotSupported?
    ensures r.Err? && (forall i :: 0 <= i < |inputSet| ==> inputSet[i].Node? || inputSet[i].Scalar?) ==> !r.error.InvalidInputType?
    ensures r.Ok? <==> Buildable(op, inputSet, kwargs) && !(op.preserve && pipeline.None?)
    ensures r.Err? && (r.error.ArgumentInputNotConvertible? || r.error.ArgumentInputNotSupported?) ==>
              exists k :: FirstRefusedArg(op, kwargs, k, r.error)
    ensures r.Ok? ==>
              && |r.value.instances| == 1 && c.next <= r.value.counter.next
              && InstanceFits(op, inputSet, c.next, r.value.counter.next, r.value.instances[0])
              && InstanceWired(op, kwargs, r.value.counter.next, r.value.instances[0])
    ensures r.Ok? && op.preserve ==>
              pipeline.Some? && r.value.pipeline == Some(WithSinks(pipeline.value, Registered(op, r.value.instances[0])))
    ensures r.Ok? && !op.preserve ==> r.value.pipeline == pipeline
  {
    match NewInstance(op, inputSet, kwargs, c)
    case Err(e) => Err(e)
    case Ok(built) =>
      match GenerateOutputs(op, built.inst, pipeline)
      case Err(e) => Err(e)
      case Ok((inst, pipeline1)) =>
        GeneratedOutputs(op, built.inst, pipeline, inst, pipeline1);
        OneFits(op, inputSet, kwargs, c, built, inst);
        Ok(Batch([inst], built.counter, pipeline1, built.warnings))
  }

  /** A freshly built instance, once its outputs are generated, fits its
      input set. */
  lemma OneFits(op: Operator, inputSet: seq<Value>, kwargs: Kwargs, c: Counter, built: Built, inst: Instance)
    requires InstanceFor(op, inputSet, kwargs, c, built)
    requires inst == built.inst.(outputs := inst.outputs) && |inst.outputs| == OutputCount(op)
    requires forall k :: 0 <= k < |inst.outputs| ==>
               && inst.outputs[k].producer == built.inst.id
               && inst.outputs[k].device == OutputDevice(op.device)
               && inst.outputs[k].name == OutputName(built.inst.name, OutputCount(op), k)
    ensures c.next <= built.counter.next
    ensures InstanceFits(op, inputSet, c.next, built.counter.next, inst)
    ensures InstanceWired(op, kwargs, built.counter.next, inst)
  {
  }

  /** The outputs `generate_outputs` gives an instance that had none: as
      many as the operator declares, each produced by it on the output
      device and named after it. */
  lemma GeneratedOutputs(op: Operator, pre: Instance, pipeline: Option<Pipeline>, inst: Instance, pipeline1: Option<Pipeline>)
    requires pre.outputs == []
    requires GenerateOutputs(op, pre, pipeline) == Ok((inst, pipeline1))
    ensures inst == pre.(outputs := inst.outputs) && |inst.outputs| == OutputCount(op)
    ensures forall k :: 0 <= k < |inst.outputs| ==>
              && inst.outputs[k].producer == pre.id
              && inst.outputs[k].device == OutputDevice(op.device)
              && inst.outputs[k].name == OutputName(pre.name, OutputCount(op), k)
    ensures op.preserve ==> pipeline.Some? && pipeline1 == Some(WithSinks(pipeline.value, Registered(op, inst)))
  {
    assert inst.outputs[0..] == inst.outputs;
    forall k | 0 <= k < |inst.outputs|
      ensures inst.outputs[k].producer == pre.id && inst.outputs[k].device == OutputDevice(op.device)
    {
      assert inst.outputs[k] in inst.outputs[0..];
    }
  }

  /** The facts the expansion into input sets leaves about `sets`, in terms
      of the call's original inputs. */
  /** Positional input `i` is an input list, spread over the input sets. */
  predicate Spread(inputs: seq<Value>, i: nat)
    requires i < |inputs|
  {
    inputs[i].ListOf? && IsInput(inputs[i])
  }

  ghost predicate SetsFromInputs(op: Operator, inputs: seq<Value>, sets: seq<seq<Value>>) {
    && |sets| >= 1 && PlainInputSets(sets)
    && ((forall i :: 0 <= i < |inputs| ==> !inputs[i].ListOf?) ==> |sets| == 1)
    && (forall i :: 0 <= i < |inputs| && Spread(inputs, i) ==> |sets| == |inputs[i].items|)
    && (forall j :: 0 <= j < |sets| ==> |sets[j]| == |inputs|)
    && (forall j, i :: 0 <= j < |sets| && 0 <= i < |inputs| ==>
          && ((inputs[i].Node? || inputs[i].Scalar?) ==> sets[j][i] == inputs[i])
          && (Spread(inputs, i) ==> sets[j][i] == inputs[i].items[j])
          && (!Spread(inputs, i) ==> sets[j][i] == sets[0][i])
          && (!IsInput(inputs[i]) ==>
                sets[j][i].Node? && sets[j][i].h.device == OutputDevice(InputDevice(op, i))))
  }

  /** What `_preprocess_inputs` guarantees about `pre`, relative to `inputs`. */
  ghost predicate Preprocessed(op: Operator, inputs: seq<Value>, pre: seq<Value>) {
    && |pre| == |inputs|
    && (forall i :: 0 <= i < |inputs| ==> IsInput(pre[i]))
    && (forall i :: 0 <= i < |inputs| && IsInput(inputs[i]) ==> pre[i] == inputs[i])
    && (forall i :: 0 <= i < |inputs| && !IsInput(inputs[i]) ==>
          pre[i].Node? && pre[i].h.device == OutputDevice(InputDevice(op, i)))
  }

  lemma PreparedIsPreprocessed(op: Operator, inputs: seq<Value>, lo: nat, hi: nat, pre: seq<Value>)
    requires PreparedInputs(op, inputs, lo, hi, pre)
    ensures Preprocessed(op, inputs, pre)
  {
    assert forall i :: 0 <= i < |inputs| ==> InputPrepared(op, i, inputs[i], lo, hi, pre[i]);
  }

  /** Without list inputs the single input set is the preprocessed inputs. */
  lemma {:induction false} SingleSetFacts(op: Operator, inputs: seq<Value>, pre: seq<Value>)
    requires Preprocessed(op, inputs, pre) && !HasListInput(pre)
    ensures SetsFromInputs(op, inputs, [pre])
  {
    assert forall i :: 0 <= i < |inputs| && IsInput(inputs[i]) ==> !inputs[i].ListOf? by {
      assert forall i :: 0 <= i < |pre| ==> !pre[i].ListOf?;
    }
    forall j, i | 0 <= j < 1 && 0 <= i < |[pre][j]|
      ensures [pre][j][i].Node? || [pre][j][i].Scalar?
    {
      assert IsInput(pre[i]);
    }
  }

  /** With list inputs, every input set takes one position of the lists. */
  lemma {:induction false} ListSetFacts(op: Operator, inputs: seq<Value>, pre: seq<Value>, sets: seq<seq<Value>>)
    requires Preprocessed(op, inputs, pre) && HasListInput(pre)
    requires ListsHaveLength(pre, |sets|)
    requires forall j :: 0 <= j < |sets| ==> |sets[j]| == |pre|
    requires forall j, i :: 0 <= j < |sets| && 0 <= i < |pre| ==>
               sets[j][i] == (if pre[i].ListOf? then pre[i].items[j] else pre[i])
    ensures SetsFromInputs(op, inputs, sets)
  {
    var i0 :| 0 <= i0 < |pre| && pre[i0].ListOf?;
    assert IsInput(pre[i0]);
    var j0 :| 0 <= j0 < |pre[i0].items| && pre[i0].items[j0].Node?;
    assert |sets| == |pre[i0].items| >= 1;
    forall j, i | 0 <= j < |sets| && 0 <= i < |sets[j]|
      ensures sets[j][i].Node? || sets[j][i].Scalar?
    {
      assert IsInput(pre[i]);
    }
    forall i | 0 <= i < |inputs| && inputs[i].ListOf? && IsInput(inputs[i])
      ensures |sets| == |inputs[i].items|
    {
      assert pre[i] == inputs[i];
    }
    forall j, i | 0 <= j < |sets| && 0 <= i < |inputs|
      ensures (inputs[i].Node? || inputs[i].Scalar?) ==> sets[j][i] == inputs[i]
      ensures !Spread(inputs, i) ==> sets[j][i] == sets[0][i] == pre[i]
    {
      if IsInput(inputs[i]) {
        assert pre[i] == inputs[i];
      }
    }
  }

  /** Either way, `sets` fits the call's inputs. */
  lemma {:induction false} InputSetFacts(op: Operator, inputs: seq<Value>, pre: seq<Value>, sets: seq<seq<Value>>)
    requires Preprocessed(op, inputs, pre)
    requires !HasListInput(pre) ==> sets == [pre]
    requires HasListInput(pre) ==>
               && ListsHaveLength(pre, |sets|)
               && (forall j :: 0 <= j < |sets| ==> |sets[j]| == |pre|)
               && (forall j, i :: 0 <= j < |sets| && 0 <= i < |pre| ==>
                     sets[j][i] == (if pre[i].ListOf? then pre[i].items[j] else pre[i]))
    ensures SetsFromInputs(op, inputs, sets)
  {
    if HasListInput(pre) {
      ListSetFacts(op, inputs, pre, sets);
    } else {
      SingleSetFacts(op, inputs, pre);
    }
  }

  /** The instances of one call, before they are tied to one relation:
      at least one, in increasing id order, each with its outputs, and each
      taking its handle inputs from the call's inputs. */
  ghost predicate CallFits(op: Operator, kwargs: Kwargs, inputs: seq<Value>, lo: nat, b: Batch) {
    var insts := b.instances;
    && |insts| >= 1 && lo <= b.counter.next
    && (forall j :: 0 <= j < |insts| ==> lo <= insts[j].id < b.counter.next && |insts[j].outputs| == OutputCount(op))
    && (forall j :: 0 <= j < |insts| ==> InstanceWired(op, kwargs, b.counter.next, insts[j]))
    && (forall j, k :: 0 <= j < k < |insts| ==> insts[j].id < insts[k].id)
    && ((forall i :: 0 <= i < |inputs| ==> !inputs[i].ListOf?) ==> |insts| == 1)
    && CallPositional(op, inputs, insts)
  }

  /** The positional inputs of the instances of one call: a handle is
      broadcast to every instance and a list element goes to the instance at
      its position; a value `_preprocess_inputs` turned into a constant node
      is that one node, on its input's device, in every instance; a scalar
      constant, given directly or in a list, becomes a node of each
      instance's own, made after it on the default input device. */
  ghost predicate CallPositional(op: Operator, inputs: seq<Value>, insts: seq<Instance>) {
    && (forall i :: 0 <= i < |inputs| && Spread(inputs, i) ==> |insts| == |inputs[i].items|)
    && (forall j :: 0 <= j < |insts| ==> |insts[j].positional| == |inputs|)
    && (forall j, i :: 0 <= j < |insts| && 0 <= i < |inputs| ==>
          && (inputs[i].Node? ==> insts[j].positional[i] == inputs[i].h)
          && (Spread(inputs, i) && inputs[i].items[j].Node? ==>
                insts[j].positional[i] == inputs[i].items[j].h)
          && (!IsInput(inputs[i]) ==>
                && insts[j].positional[i] == insts[0].positional[i]
                && insts[j].positional[i].device == OutputDevice(InputDevice(op, i)))
          && ((|| inputs[i].Scalar?
               || (Spread(inputs, i) && inputs[i].items[j].Scalar?)) ==>
                && insts[j].positional[i].device == OutputDevice(DefaultInputDevice(op.device))
                && insts[j].id < insts[j].positional[i].producer))
  }

  /** Positional facts depend only on each instance's id and positional
      inputs. */
  lemma CallPositionalSame(op: Operator, inputs: seq<Value>, a: seq<Instance>, b: seq<Instance>)
    requires CallPositional(op, inputs, a) && |a| == |b|
    requires forall j :: 0 <= j < |a| ==> a[j].id == b[j].id && a[j].positional == b[j].positional
    ensures CallPositional(op, inputs, b)
  {
  }

  /** Position `i` of the instance built from set `sj`, given the first set
      `s0` and its instance `i0`. */
  lemma PositionFromSets(op: Operator, inputs: seq<Value>, s0: seq<Value>, sj: seq<Value>, i: nat,
                         lo: nat, hi: nat, i0: Instance, ij: Instance)
    requires i < |inputs| == |s0| == |sj|
    requires InstanceFits(op, s0, lo, hi, i0) && InstanceFits(op, sj, lo, hi, ij)
    requires (inputs[i].Node? || inputs[i].Scalar?) ==> sj[i] == inputs[i]
    requires !Spread(inputs, i) ==> sj[i] == s0[i]
    requires !IsInput(inputs[i]) ==> sj[i].Node? && sj[i].h.device == OutputDevice(InputDevice(op, i))
    ensures inputs[i].Node? ==> ij.positional[i] == inputs[i].h
    ensures !IsInput(inputs[i]) ==>
              ij.positional[i] == i0.positional[i] && ij.positional[i].device == OutputDevice(InputDevice(op, i))
    ensures sj[i].Scalar? ==>
              ij.positional[i].device == OutputDevice(DefaultInputDevice(op.device)) && ij.id < ij.positional[i].producer
    ensures sj[i].Node? ==> ij.positional[i] == sj[i].h
  {
  }

  /** The positional facts of instances built from the input sets. */
  lemma CallPositionalFromSets(op: Operator, inputs: seq<Value>, sets: seq<seq<Value>>, lo: nat, hi: nat, insts: seq<Instance>)
    requires SetsFromInputs(op, inputs, sets) && |insts| == |sets|
    requires forall j :: 0 <= j < |sets| ==> InstanceFits(op, sets[j], lo, hi, insts[j])
    ensures CallPositional(op, inputs, insts)
  {
    forall j, i | 0 <= j < |insts| && 0 <= i < |inputs|
      ensures inputs[i].Node? ==> insts[j].positional[i] == inputs[i].h
      ensures Spread(inputs, i) && inputs[i].items[j].Node? ==>
                insts[j].positional[i] == inputs[i].items[j].h
      ensures !IsInput(inputs[i]) ==>
                && insts[j].positional[i] == insts[0].positional[i]
                && insts[j].positional[i].device == OutputDevice(InputDevice(op, i))
      ensures (|| inputs[i].Scalar?
               || (Spread(inputs, i) && inputs[i].items[j].Scalar?)) ==>
                && insts[j].positional[i].device == OutputDevice(DefaultInputDevice(op.device))
                && insts[j].id < insts[j].positional[i].producer
    {
      PositionFromSets(op, inputs, sets[0], sets[j], i, lo, hi, insts[0], insts[j]);
    }
  }

  lemma {:induction false} CallFitsFromSets(op: Operator, kwargs: Kwargs, inputs: seq<Value>, sets: seq<seq<Value>>, start: nat, lo: nat, b: Batch)
    requires SetsFromInputs(op, inputs, sets) && BatchFits(op, kwargs, sets, lo, b) && start <= lo
    ensures CallFits(op, kwargs, inputs, start, b)
  {
    var insts := b.instances;
    forall j | 0 <= j < |insts|
      ensures |insts[j].positional| == |inputs|
    {
      assert InstanceFits(op, sets[j], lo, b.counter.next, insts[j]);
    }
    CallPositionalFromSets(op, inputs, sets, lo, b.counter.next, insts);
    forall j | 0 <= j < |insts|
      ensures start <= insts[j].id < b.counter.next && |insts[j].outputs| == OutputCount(op)
    {
      assert InstanceFits(op, sets[j], lo, b.counter.next, insts[j]);
    }
  }

  /** The schema accepts the number of positional inputs. */
  predicate InputCountFits(op: Operator, inputs: seq<Value>) {
    op.schema.minNumInput <= |inputs| <= op.schema.maxNumInput
  }

  /** Every positional input `is_input` refuses can be made a constant. */
  predicate InputsConvertible(inputs: seq<Value>) {
    forall i :: 0 <= i < |inputs| && !IsInput(inputs[i]) ==> ConstantConvertible(inputs[i])
  }

  /** The input lists that are spread over input sets all have one length. */
  predicate SpreadLengthsAgree(inputs: seq<Value>) {
    forall i, k :: 0 <= i < |inputs| && 0 <= k < |inputs| && Spread(inputs, i) && Spread(inputs, k) ==>
      |inputs[i].items| == |inputs[k].items|
  }

  /** The inputs of a call can be expanded into input sets. */
  predicate InputsExpandable(op: Operator, inputs: seq<Value>) {
    InputCountFits(op, inputs) && InputsConvertible(inputs) && SpreadLengthsAgree(inputs)
  }

  /** `e` is the error `_preprocess_inputs` raises for `inputs`: it names the
      first position that is neither an input nor convertible. */
  ghost predicate FirstUnconvertible(op: Operator, inputs: seq<Value>, e: Error) {
    exists i :: 0 <= i < |inputs| && e == InputNotConvertible(op.typeName, i)
                && !IsInput(inputs[i]) && !ConstantConvertible(inputs[i])
                && forall j :: 0 <= j < i ==> IsInput(inputs[j]) || ConstantConvertible(inputs[j])
  }

  /** After preprocessing, the lists of `pre` are exactly the spread inputs,
      so the input sets can be built exactly when those agree in length. */
  lemma ExpandableSets(op: Operator, inputs: seq<Value>, pre: seq<Value>)
    requires Preprocessed(op, inputs, pre)
    ensures SpreadLengthsAgree(inputs) <==>
              || !HasListInput(pre)
              || exists n :: ListsHaveLength(pre, n) && forall i :: 0 <= i < |pre| ==> SafeLen(pre[i]) <= n
  {
    forall i | 0 <= i < |inputs|
      ensures pre[i].ListOf? <==> Spread(inputs, i)
    {
      if IsInput(inputs[i]) {
        assert pre[i] == inputs[i];
      }
    }
    if HasListInput(pre) {
      var i0 :| 0 <= i0 < |pre| && pre[i0].ListOf?;
      assert Spread(inputs, i0) && pre[i0] == inputs[i0];
      if SpreadLengthsAgree(inputs) {
        var n := |pre[i0].items|;
        var j0 :| 0 <= j0 < n && pre[i0].items[j0].Node?;
        assert ListsHaveLength(pre, n);
        assert forall i :: 0 <= i < |pre| ==> SafeLen(pre[i]) <= n;
      }
      if exists n :: ListsHaveLength(pre, n) && forall i :: 0 <= i < |pre| ==> SafeLen(pre[i]) <= n {
        var n :| ListsHaveLength(pre, n);
        forall i, k | 0 <= i < |inputs| && 0 <= k < |inputs| && Spread(inputs, i) && Spread(inputs, k)
          ensures |inputs[i].items| == |inputs[k].items|
        {
          assert pre[i] == inputs[i] && pre[k] == inputs[k];
        }
      }
    } else {
      assert forall i :: 0 <= i < |inputs| ==> !Spread(inputs, i);
    }
  }

  /** The checks and expansion of `__call__` before any instance is built:
      the input count, preprocessing, and the input sets. */
  function ExpandInputs(op: Operator, inputs: seq<Value>, c: Counter): (r: Result<(seq<seq<Value>>, Counter)>)
    ensures r.Ok? <==> InputsExpandable(op, inputs)
    ensures (r.Err? && r.error.InputCountOutOfRange?) <==> !InputCountFits(op, inputs)
    ensures (r.Err? && r.error.InputNotConvertible?) <==> InputCountFits(op, inputs) && !InputsConvertible(inputs)
    ensures (r.Err? && r.error.InputSetLengthMismatch?) <==>
              InputCountFits(op, inputs) && InputsConvertible(inputs) && !SpreadLengthsAgree(inputs)
    ensures r.Err? ==> r.error.InputCountOutOfRange? || r.error.InputNotConvertible? || r.error.InputSetLengthMismatch?
    ensures r.Err? && r.error.InputNotConvertible? ==> FirstUnconvertible(op, inputs, r.error)
    ensures r.Ok? ==> SetsFromInputs(op, inputs, r.value.0) && r.value.1.next >= c.next
  {
    match CheckNumInputs(op.schema, op.typeName, |inputs|)
    case Err(e) => Err(e)
    case Ok(_) =>
      match PreprocessInputs(op, inputs, c)
      case Err(e) => Err(e)
      case Ok((pre, c1)) =>
        PreparedIsPreprocessed(op, inputs, c.next, c1.next, pre);
        ExpandableSets(op, inputs, pre);
        match BuildInputSets(op.typeName, pre)
        case Err(e) => Err(e)
        case Ok(sets) =>
          InputSetFacts(op, inputs, pre, sets);
          Ok((sets, c1))
  }

  /** A call goes through: its inputs expand into input sets, no call-time
      argument repeats one bound at construction, every argument input is
      accepted, and a side-effect operator has a current pipeline. */
  ghost predicate CallAccepted(op: Operator, inputs: seq<Value>, kwargs: Kwargs, pipeline: Option<Pipeline>) {
    && InputsExpandable(op, inputs)
    && CallTimeKeys(kwargs) !! Keys(op.callArgs)
    && ArgInputsAccepted(op, kwargs)
    && !(op.preserve && pipeline.None?)
  }

  /** Input sets of handles and scalar constants are all buildable exactly
      when the keyword arguments are: that part does not depend on the set. */
  lemma BuildableSets(op: Operator, sets: seq<seq<Value>>, kwargs: Kwargs)
    requires |sets| >= 1 && PlainInputSets(sets)
    ensures (forall j :: 0 <= j < |sets| ==> Buildable(op, sets[j], kwargs)) <==>
              CallTimeKeys(kwargs) !! Keys(op.callArgs) && ArgInputsAccepted(op, kwargs)
  {
    assert Buildable(op, sets[0], kwargs) ==> CallTimeKeys(kwargs) !! Keys(op.callArgs) && ArgInputsAccepted(op, kwargs);
  }

  /** The part of `__call__` that builds the instances: one per input set. */
  function CallInstances(op: Operator, inputs: seq<Value>, kwargs: Kwargs, c: Counter, pipeline: Option<Pipeline>)
    : (r: Result<Batch>)
    requires ValidOperator(op) && DistinctKeys(kwargs) && NameIsString(kwargs)
    ensures r.Ok? <==> CallAccepted(op, inputs, kwargs, pipeline)
    ensures r.Ok? && op.preserve ==>
              pipeline.Some? && r.value.pipeline == Some(WithSinks(pipeline.value, RegisteredAll(op, r.value.instances)))
    ensures r.Ok? ==> CallFits(op, kwargs, inputs, c.next, r.value)
    ensures r.Ok? && !op.preserve ==> r.value.pipeline == pipeline
  {
    match ExpandInputs(op, inputs, c)
    case Err(e) => Err(e)
    case Ok((sets, c1)) =>
      BuildInstancesOutcome(op, sets, kwargs, c1, pipeline);
      BuildableSets(op, sets, kwargs);
      match BuildInstances(op, sets, kwargs, c1, pipeline)
      case Err(e) => Err(e)
      case Ok(batch) =>
        CallFitsFromSets(op, kwargs, inputs, sets, c.next, c1.next, batch);
        Ok(batch)
  }

  /** The errors of the instance-building part of a call, by kind. */
  lemma CallInstancesErrors(op: Operator, inputs: seq<Value>, kwargs: Kwargs, c: Counter, pipeline: Option<Pipeline>)
    requires ValidOperator(op) && DistinctKeys(kwargs) && NameIsString(kwargs)
    ensures var r := CallInstances(op, inputs, kwargs, c, pipeline);
            && ((r.Err? && r.error.InputCountOutOfRange?) <==> !InputCountFits(op, inputs))
            && ((r.Err? && r.error.InputNotConvertible?) <==> InputCountFits(op, inputs) && !InputsConvertible(inputs))
            && ((r.Err? && r.error.InputSetLengthMismatch?) <==>
                  InputCountFits(op, inputs) && InputsConvertible(inputs) && !SpreadLengthsAgree(inputs))
            && (r.Err? && r.error.InputNotConvertible? ==> FirstUnconvertible(op, inputs, r.error))
            && (r.Err? ==> !r.error.NoInputSets? && !r.error.InvalidInputType?)
            && (r.Err? && (r.error.ArgumentInputNotConvertible? || r.error.ArgumentInputNotSupported?) ==>
                  exists k :: FirstRefusedArg(op, kwargs, k, r.error))
  {
    var e := ExpandInputs(op, inputs, c);
    if e.Ok? {
      var (sets, c1) := e.value;
      BuildInstancesOutcome(op, sets, kwargs, c1, pipeline);
    }
  }

  /** `op.relation_id = relation_id` for every instance. */
  function TieRelation(insts: seq<Instance>, relation: nat): (r: seq<Instance>)
    ensures |r| == |insts|
    ensures forall j :: 0 <= j < |insts| ==> r[j] == insts[j].(relationId := relation)
  {
    seq(|insts|, j requires 0 <= j < |insts| => insts[j].(relationId := relation))
  }

  function OutputsOf(insts: seq<Instance>): (r: seq<seq<Handle>>)
    ensures |r| == |insts| && forall j :: 0 <= j < |insts| ==> r[j] == insts[j].outputs
  {
    seq(|insts|, j requires 0 <= j < |insts| => insts[j].outputs)
  }

  /** What a call returns, and the state it leaves behind. */
  datatype CallOutcome = CallOutcome(
    result: Packed<Handle>,
    instances: seq<Instance>,
    counter: Counter,
    pipeline: Option<Pipeline>,
    warnings: seq<Warning>)

  /** The instances a call returns, tied into one relation: at least one,
      all sharing the first one's id as relation id, ids taken in order from
      `[lo, hi)`, each with the operator's outputs; one instance per call
      without list inputs and one per element of an input list; handle
      inputs broadcast to every instance and list elements given to the
      instance at their position; every instance named and wired by the
      operator and the call's keyword arguments, with the same argument
      input names, and a handle given as an argument input shared by all. */
  ghost predicate CallShape(op: Operator, kwargs: Kwargs, inputs: seq<Value>, lo: nat, hi: nat, insts: seq<Instance>) {
    && |insts| >= 1
    && lo <= insts[0].id
    && (forall j :: 0 <= j < |insts| ==> insts[j].relationId == insts[0].id && insts[j].id < hi)
    && (forall j :: 0 <= j < |insts| ==> InstanceWired(op, kwargs, hi, insts[j]))
    && (forall j :: 0 <= j < |insts| ==> ArgNames(insts[j].argumentInputs) == ArgNames(insts[0].argumentInputs))
    && (forall j, i ::
          (&& 0 <= j < |insts| && 0 <= i < |insts[0].argumentInputs|
           && CallArgValue(op.callArgs, kwargs, insts[0].argumentInputs[i].0).Node?) ==>
          insts[j].argumentInputs[i] == insts[0].argumentInputs[i])
    && (forall j, k :: 0 <= j < k < |insts| ==> insts[j].id < insts[k].id)
    && (forall j :: 0 <= j < |insts| ==> |insts[j].outputs| == OutputCount(op))
    && ((forall i :: 0 <= i < |inputs| ==> !inputs[i].ListOf?) ==> |insts| == 1)
    && CallPositional(op, inputs, insts)
  }

  /** Tying the instances of a call to the first one's id keeps everything
      else about them. */
  lemma {:induction false} TiedFacts(op: Operator, kwargs: Kwargs, inputs: seq<Value>, lo: nat, b: Batch)
    requires CallFits(op, kwargs, inputs, lo, b)
    ensures CallShape(op, kwargs, inputs, lo, b.counter.next, TieRelation(b.instances, b.instances[0].id))
  {
    var insts := TieRelation(b.instances, b.instances[0].id);
    var hi := b.counter.next;
    forall j | 0 <= j < |insts|
      ensures insts[j].id == b.instances[j].id && insts[j].outputs == b.instances[j].outputs
      ensures insts[j].positional == b.instances[j].positional
      ensures InstanceWired(op, kwargs, hi, insts[j])
    {
      assert InstanceWired(op, kwargs, hi, b.instances[j]);
    }
    CallPositionalSame(op, inputs, b.instances, insts);
    forall j | 0 <= j < |insts|
      ensures ArgNames(insts[j].argumentInputs) == ArgNames(insts[0].argumentInputs)
    {
      StrictlyIncreasingUnique(ArgNames(insts[j].argumentInputs), ArgNames(insts[0].argumentInputs));
    }
    forall j, i | 0 <= j < |insts| && 0 <= i < |insts[0].argumentInputs|
        && CallArgValue(op.callArgs, kwargs, insts[0].argumentInputs[i].0).Node?
      ensures insts[j].argumentInputs[i] == insts[0].argumentInputs[i]
    {
      var names := ArgNames(insts[0].argumentInputs);
      assert ArgNames(insts[j].argumentInputs) == names;
      assert insts[j].argumentInputs[i].0 == names[i] == insts[0].argumentInputs[i].0;
    }
  }

  /** What `__call__` returns for the outputs of its instances: the single
      instance's unwrapped outputs, or the outputs repacked per input set. */
  function PackOutputs(op: Operator, insts: seq<Instance>): (r: Packed<Handle>)
    requires |insts| >= 1 && forall j :: 0 <= j < |insts| ==> |insts[j].outputs| == OutputCount(op)
    ensures |insts| == 1 ==> r == UnwrappedOutputs(insts[0])
    ensures |insts| > 1 && OutputCount(op) == 1 ==>
              && r.Flat? && |r.items| == |insts|
              && forall j :: 0 <= j < |insts| ==> r.items[j] == insts[j].outputs[0]
    ensures |insts| > 1 && OutputCount(op) != 1 ==>
              && r.Nested? && |r.groups| == OutputCount(op)
              && forall k, j :: 0 <= k < OutputCount(op) && 0 <= j < |insts| ==>
                   |r.groups[k]| == |insts| && r.groups[k][j] == insts[j].outputs[k]
  {
    if |insts| == 1 then UnwrappedOutputs(insts[0])
    else
      var outputs := OutputsOf(insts);
      assert SameLength(outputs);
      RepackOutputSets(outputs)
  }

  /** What tying the instances of a call keeps: their shape, and the sinks
      they registered. */
  lemma CallFinish(op: Operator, kwargs: Kwargs, inputs: seq<Value>, lo: nat, pipeline: Option<Pipeline>, b: Batch)
    requires CallFits(op, kwargs, inputs, lo, b)
    requires op.preserve ==> pipeline.Some? && b.pipeline == Some(WithSinks(pipeline.value, RegisteredAll(op, b.instances)))
    ensures |b.instances| >= 1
    ensures CallShape(op, kwargs, inputs, lo, b.counter.next, TieRelation(b.instances, b.instances[0].id))
    ensures op.preserve ==>
              b.pipeline == Some(WithSinks(pipeline.value, RegisteredAll(op, TieRelation(b.instances, b.instances[0].id))))
  {
    TiedFacts(op, kwargs, inputs, lo, b);
    RegisteredSame(op, b.instances, TieRelation(b.instances, b.instances[0].id));
  }

  /** The errors of a call: an input count out of range, then an input that
      cannot be made a constant, naming the first, then lists of different
      lengths; an argument-input error names the first refused argument
      input, and no call fails for want of input sets or with an input
      type error. */
  lemma CallErrors(op: Operator, inputs: seq<Value>, kwargs: Kwargs, c: Counter, pipeline: Option<Pipeline>)
    requires ValidOperator(op) && DistinctKeys(kwargs) && NameIsString(kwargs)
    ensures var r := Call(op, inputs, kwargs, c, pipeline);
            && ((r.Err? && r.error.InputCountOutOfRange?) <==> !InputCountFits(op, inputs))
            && ((r.Err? && r.error.InputNotConvertible?) <==> InputCountFits(op, inputs) && !InputsConvertible(inputs))
            && ((r.Err? && r.error.InputSetLengthMismatch?) <==>
                  InputCountFits(op, inputs) && InputsConvertible(inputs) && !SpreadLengthsAgree(inputs))
            && (r.Err? && r.error.InputNotConvertible? ==> FirstUnconvertible(op, inputs, r.error))
            && (r.Err? ==> !r.error.NoInputSets? && !r.error.InvalidInputType?)
            && (r.Err? && (r.error.ArgumentInputNotConvertible? || r.error.ArgumentInputNotSupported?) ==>
                  exists k :: FirstRefusedArg(op, kwargs, k, r.error))
  {
    CallInstancesErrors(op, inputs, kwargs, c, pipeline);
  }

  /** `op(*inputs, **kwargs)`, with `pipeline` standing for
      `Pipeline.current()`. */
  function Call(op: Operator, inputs: seq<Value>, kwargs: Kwargs, c: Counter, pipeline: Option<Pipeline>)
    : (r: Result<CallOutcome>)
    requires ValidOperator(op) && DistinctKeys(kwargs) && NameIsString(kwargs)
    ensures r.Ok? <==> CallAccepted(op, inputs, kwargs, pipeline)
    ensures r.Ok? && op.preserve ==>
              pipeline.Some? && r.value.pipeline == Some(WithSinks(pipeline.value, RegisteredAll(op, r.value.instances)))
    ensures r.Ok? ==> CallShape(op, kwargs, inputs, c.next, r.value.counter.next, r.value.instances)
    ensures r.Ok? && !op.preserve ==> r.value.pipeline == pipeline
    ensures r.Ok? ==> r.value.result == PackOutputs(op, r.value.instances)
  {
    match CallInstances(op, inputs, kwargs, c, pipeline)
    case Err(e) => Err(e)
    case Ok(batch) =>
      CallFinish(op, kwargs, inputs, c.next, pipeline, batch);
      if |batch.instances| == 0 then Err(NoInputSets(op.typeName))
      else
        var insts := TieRelation(batch.instances, batch.instances[0].id);
        Ok(CallOutcome(PackOutputs(op, insts), insts, batch.counter, batch.pipeline, batch.warnings))
  }
}

=== FILE: operator_instance.dfy ===
/** `_OperatorInstance`: one node of the graph, created by an operator call
    for one input set. Construction takes an id from the counter, turns
    scalar-constant inputs into constant nodes, merges the call-time
    arguments with the ones the operator bound at construction, names the
    instance and attaches its argument inputs; `generate_outputs` then mints
    its output handles and registers sinks for operators with side effects. */
module OperatorInstance {
  import opened Strings
  import opened Values
  import opened Outcomes
  import opened Kwargs
  import opened Backend
  import opened Graph
  import opened InputSets

  /** A constructed operator object: its type name (`type(op).__name__`),
      schema, device, the construction-time arguments it recorded, the
      call-time arguments bound at construction (`_call_args`) and its
      effective `preserve` flag. */
  datatype Operator = Operator(
    typeName: string,
    schema: Schema,
    device: Device,
    initArgs: Kwargs,
    callArgs: Kwargs,
    preserve: bool)

  /** The state of an `_OperatorInstance`: `specArgs` are the call's
      construction-time arguments recorded in its spec, `positional` its
      positional inputs and `argumentInputs` its named tensor inputs. */
  datatype Instance = Instance(
    id: nat,
    relationId: nat,
    name: string,
    positional: seq<Handle>,
    argumentInputs: seq<(string, Handle)>,
    specArgs: Kwargs,
    outputs: seq<Handle>)

  /** A freshly built instance, the counter after it, and the warnings its
      construction emitted. */
  datatype Built = Built(inst: Instance, counter: Counter, warnings: seq<Warning>)

  /** The `name` argument, when supplied, is a string. */
  predicate NameIsString(d: Kwargs) {
    forall i :: 0 <= i < |d| && d[i].0 == "name" ==> d[i].1.NoneVal? || d[i].1.Str?
  }

  /** What operator construction guarantees about the bound call arguments. */
  predicate ValidOperator(op: Operator) {
    DistinctKeys(op.callArgs) && NameIsString(op.callArgs)
  }

  function ArgNames(args: seq<(string, Handle)>): (r: seq<string>)
    ensures |r| == |args| && forall i :: 0 <= i < |args| ==> r[i] == args[i].0
    decreases |args|
  {
    if |args| == 0 then [] else [args[0].0] + ArgNames(args[1..])
  }

  // ---------------------------------------------------------------------------
  // Scalar-constant positional inputs

  /** The first loop of `_OperatorInstance.__init__`: each scalar-constant
      positional input is replaced by a fresh constant node on `device`;
      other inputs are kept as they are. */
  function PromoteScalarInputs(inputs: seq<Value>, device: Device, c: Counter): (r: (seq<Value>, Counter))
    ensures |r.0| == |inputs| && r.1.next >= c.next
    ensures forall i :: 0 <= i < |inputs| && !inputs[i].Scalar? ==> r.0[i] == inputs[i]
    ensures forall i :: 0 <= i < |inputs| && inputs[i].Scalar? ==>
              && r.0[i].Node? && r.0[i].h.device == OutputDevice(device)
              && c.next <= r.0[i].h.producer < r.1.next
    ensures forall i, j :: 0 <= i < j < |inputs| && inputs[i].Scalar? && inputs[j].Scalar? ==>
              r.0[i].h.producer < r.0[j].h.producer
    decreases |inputs|
  {
    if |inputs| == 0 then ([], c)
    else
      var n := |inputs| - 1;
      var (done, c1) := PromoteScalarInputs(inputs[..n], device, c);
      assert forall i :: 0 <= i < n ==> inputs[..n][i] == inputs[i];
      if inputs[n].Scalar? then
        var made := InstantiateConstant(c1, device, inputs[n]).value;
        (done + [Node(made.0)], made.1)
      else
        (done + [inputs[n]], c1)
  }

  // ---------------------------------------------------------------------------
  // Call-time arguments

  /** `call_args = {**op._call_args}` and the loop over the call's own
      call-time arguments: a `None` value is skipped, and an argument the
      operator already bound is refused. */
  function MergeCallArgs(bound: Kwargs, given: Kwargs): (r: Result<Kwargs>)
    requires DistinctKeys(bound) && DistinctKeys(given)
    ensures r.Ok? <==> SuppliedKeys(given) !! Keys(bound)
    ensures r.Err? ==>
              r.error.DuplicateArgument? && r.error.arg in SuppliedKeys(given) && r.error.arg in Keys(bound)
    ensures r.Ok? ==> DistinctKeys(r.value) && Keys(r.value) == Keys(bound) + SuppliedKeys(given)
    ensures r.Ok? ==> forall k :: k in Keys(bound) ==> Lookup(r.value, k) == Lookup(bound, k)
    ensures r.Ok? ==> forall k :: k in SuppliedKeys(given) && k in Keys(given) ==>
              Lookup(r.value, k) == Lookup(given, k)
  {
    MergeInto(bound, bound, given)
  }

  /** `MergeCallArgs` with the entries merged so far in `acc`. */
  function MergeInto(acc: Kwargs, bound: Kwargs, given: Kwargs): (r: Result<Kwargs>)
    requires DistinctKeys(acc) && DistinctKeys(given) && Keys(bound) <= Keys(acc)
    requires forall k :: k in Keys(acc) && k in Keys(given) ==> k in Keys(bound)
    ensures r.Ok? <==> SuppliedKeys(given) !! Keys(bound)
    ensures r.Err? ==>
              r.error.DuplicateArgument? && r.error.arg in SuppliedKeys(given) && r.error.arg in Keys(bound)
    ensures r.Ok? ==> DistinctKeys(r.value) && Keys(r.value) == Keys(acc) + SuppliedKeys(given)
    ensures r.Ok? ==> forall k :: k in Keys(acc) ==> Lookup(r.value, k) == Lookup(acc, k)
    ensures r.Ok? ==> forall k :: k in SuppliedKeys(given) && k in Keys(given) ==>
              Lookup(r.value, k) == Lookup(given, k)
    decreases |given|
  {
    if |given| == 0 then
      assert SuppliedKeys(given) == {};
      Ok(acc)
    else
      var (k, v) := given[0];
      DropFirst(given);
      if v.NoneVal? then
        MergeInto(acc, bound, given[1..])
      else if k in Keys(bound) then
        Err(DuplicateArgument(k))
      else
        MergeInto(Append(acc, k, v), bound, given[1..])
  }

  /** The argument inputs: every merged entry other than `name` whose value
      is not `None`. */
  predicate IsArgInputKey(m: Kwargs, k: string)
    requires k in Keys(m)
  {
    k != "name" && !Lookup(m, k).NoneVal?
  }

  /** An argument input is accepted when it is a handle or can become a
      constant node, and the schema lets a tensor feed that argument. */
  predicate AcceptedArgInput(schema: Schema, k: string, v: Value) {
    (v.Node? || ConstantConvertible(v)) && k in schema.tensorArguments
  }

  /** `args` are the argument inputs of `m` among `keys`, in the order of
      `keys`: a handle value is attached as it is, any other value as a CPU
      constant node with an id taken from `[lo, hi)`. */
  ghost predicate Attached(m: Kwargs, keys: seq<string>, lo: nat, hi: nat, args: seq<(string, Handle)>)
    requires forall k :: k in keys ==> k in Keys(m)
  {
    && lo <= hi
    && AttachedNames(m, keys, args)
    && AttachedHandles(m, lo, hi, args)
    && (StrictlyIncreasing(keys) ==> StrictlyIncreasing(ArgNames(args)))
  }

  /** Exactly the argument-input keys among `keys` are attached. */
  ghost predicate AttachedNames(m: Kwargs, keys: seq<string>, args: seq<(string, Handle)>)
    requires forall k :: k in keys ==> k in Keys(m)
  {
    forall k :: k in ArgNames(args) <==> k in keys && IsArgInputKey(m, k)
  }

  /** Every attached handle is the argument's own node, or a constant node
      on the CPU made by an operator numbered in `[lo, hi)`. */
  ghost predicate AttachedHandles(m: Kwargs, lo: nat, hi: nat, args: seq<(string, Handle)>) {
    forall i :: 0 <= i < |args| ==> AttachedHandle(m, lo, hi, args[i])
  }

  ghost predicate AttachedHandle(m: Kwargs, lo: nat, hi: nat, arg: (string, Handle)) {
    && arg.0 in Keys(m)
    && (Lookup(m, arg.0).Node? ==> arg.1 == Lookup(m, arg.0).h)
    && (!Lookup(m, arg.0).Node? ==> arg.1.device == CPU && lo <= arg.1.producer < hi)
  }

  /** A key that is not an argument input adds nothing. */
  lemma AttachedSkip(m: Kwargs, keys: seq<string>, lo: nat, hi: nat, args: seq<(string, Handle)>)
    requires |keys| > 0 && forall k :: k in keys ==> k in Keys(m)
    requires !IsArgInputKey(m, keys[|keys| - 1])
    requires Attached(m, keys[..|keys| - 1], lo, hi, args)
    ensures Attached(m, keys, lo, hi, args)
  {
    var n := |keys| - 1;
    assert forall k' :: k' in keys <==> k' in keys[..n] || k' == keys[n];
    assert StrictlyIncreasing(keys) ==> StrictlyIncreasing(keys[..n]);
  }

  lemma AttachedNamesAdd(m: Kwargs, keys: seq<string>, args: seq<(string, Handle)>, h: Handle)
    requires |keys| > 0 && forall k :: k in keys ==> k in Keys(m)
    requires IsArgInputKey(m, keys[|keys| - 1])
    requires AttachedNames(m, keys[..|keys| - 1], args)
    ensures AttachedNames(m, keys, args + [(keys[|keys| - 1], h)])
  {
    var n := |keys| - 1;
    assert forall k' :: k' in keys <==> k' in keys[..n] || k' == keys[n];
    assert ArgNames(args + [(keys[n], h)]) == ArgNames(args) + [keys[n]];
  }

  lemma AttachedHandlesAdd(m: Kwargs, lo: nat, mid: nat, hi: nat, args: seq<(string, Handle)>, arg: (string, Handle))
    requires mid <= hi && AttachedHandles(m, lo, mid, args) && AttachedHandle(m, lo, hi, arg)
    ensures AttachedHandles(m, lo, hi, args + [arg])
  {
    var r := args + [arg];
    forall i | 0 <= i < |r|
      ensures AttachedHandle(m, lo, hi, r[i])
    {
      if i < |args| {
        assert r[i] == args[i] && AttachedHandle(m, lo, mid, args[i]);
      }
    }
  }

  lemma AttachedOrderAdd(m: Kwargs, keys: seq<string>, args: seq<(string, Handle)>, h: Handle)
    requires |keys| > 0 && StrictlyIncreasing(keys) && forall k :: k in keys ==> k in Keys(m)
    requires AttachedNames(m, keys[..|keys| - 1], args)
    requires StrictlyIncreasing(ArgNames(args))
    ensures StrictlyIncreasing(ArgNames(args + [(keys[|keys| - 1], h)]))
  {
    var n := |keys| - 1;
    var k := keys[n];
    assert forall i :: 0 <= i < n ==> keys[..n][i] == keys[i];
    assert forall k' :: k' in keys[..n] ==> Below(k', k);
    AppendIncreasing(ArgNames(args), k);
    assert ArgNames(args + [(k, h)]) == ArgNames(args) + [k];
  }

  /** An argument input attached as `h` extends the attachment. */
  lemma AttachedAdd(m: Kwargs, keys: seq<string>, lo: nat, mid: nat, hi: nat, args: seq<(string, Handle)>, h: Handle)
    requires |keys| > 0 && forall k :: k in keys ==> k in Keys(m)
    requires IsArgInputKey(m, keys[|keys| - 1]) && mid <= hi
    requires Attached(m, keys[..|keys| - 1], lo, mid, args)
    requires Lookup(m, keys[|keys| - 1]).Node? ==> h == Lookup(m, keys[|keys| - 1]).h
    requires !Lookup(m, keys[|keys| - 1]).Node? ==> h.device == CPU && lo <= h.producer < hi
    ensures Attached(m, keys, lo, hi, args + [(keys[|keys| - 1], h)])
  {
    var n := |keys| - 1;
    AttachedNamesAdd(m, keys, args, h);
    AttachedHandlesAdd(m, lo, mid, hi, args, (keys[n], h));
    if StrictlyIncreasing(keys) {
      assert StrictlyIncreasing(keys[..n]);
      AttachedOrderAdd(m, keys, args, h);
    }
  }

  /** `keys[i]` is the first argument input among `keys` that is refused,
      and `e` is the exception raised for it: a conversion error when the
      value is neither a handle nor convertible, else the schema's refusal. */
  predicate FirstRefused(op: Operator, m: Kwargs, keys: seq<string>, i: nat, e: Error)
    requires i < |keys| && forall k :: k in keys ==> k in Keys(m)
  {
    && IsArgInputKey(m, keys[i]) && !AcceptedArgInput(op.schema, keys[i], Lookup(m, keys[i]))
    && e == RefusalError(op, keys[i], Lookup(m, keys[i]))
    && forall j :: 0 <= j < i && IsArgInputKey(m, keys[j]) ==> AcceptedArgInput(op.schema, keys[j], Lookup(m, keys[j]))
  }

  /** When every earlier argument input is accepted, a refused last one is
      the first refused. */
  lemma RefusedLast(op: Operator, m: Kwargs, keys: seq<string>)
    requires |keys| > 0 && forall k :: k in keys ==> k in Keys(m)
    requires forall k :: k in keys[..|keys| - 1] && IsArgInputKey(m, k) ==> AcceptedArgInput(op.schema, k, Lookup(m, k))
    requires IsArgInputKey(m, keys[|keys| - 1]) && !AcceptedArgInput(op.schema, keys[|keys| - 1], Lookup(m, keys[|keys| - 1]))
    ensures FirstRefused(op, m, keys, |keys| - 1, RefusalError(op, keys[|keys| - 1], Lookup(m, keys[|keys| - 1])))
  {
    var n := |keys| - 1;
    forall j | 0 <= j < n && IsArgInputKey(m, keys[j])
      ensures AcceptedArgInput(op.schema, keys[j], Lookup(m, keys[j]))
    {
      assert keys[j] in keys[..n];
    }
  }

  /** The first refused argument input of a prefix is the first of the whole. */
  lemma RefusedPrefix(op: Operator, m: Kwargs, keys: seq<string>, n: nat, e: Error)
    requires n <= |keys| && forall k :: k in keys ==> k in Keys(m)
    requires forall k :: k in keys[..n] ==> k in Keys(m)
    requires exists i :: 0 <= i < n && FirstRefused(op, m, keys[..n], i, e)
    ensures exists i :: 0 <= i < |keys| && FirstRefused(op, m, keys, i, e)
  {
    var i :| 0 <= i < n && FirstRefused(op, m, keys[..n], i, e);
    assert forall j :: 0 <= j <= i ==> keys[..n][j] == keys[j];
    assert FirstRefused(op, m, keys, i, e);
  }

  /** The exception for an argument input `k` given as `v` that is refused. */
  function RefusalError(op: Operator, k: string, v: Value): Error {
    if v.Node? || ConstantConvertible(v) then ArgumentInputNotSupported(op.typeName, k)
    else ArgumentInputNotConvertible(k)
  }

  /** The loop over `sorted(call_args.keys())`, applied to `keys`: each
      argument input that is not a handle becomes a constant node on the CPU,
      then the schema is asked whether the argument takes a tensor. */
  function AttachArgumentInputs(op: Operator, m: Kwargs, keys: seq<string>, c: Counter)
    : (r: Result<(seq<(string, Handle)>, Counter)>)
    requires forall k :: k in keys ==> k in Keys(m)
    ensures r.Ok? <==> forall k :: k in keys && IsArgInputKey(m, k) ==>
                         AcceptedArgInput(op.schema, k, Lookup(m, k))
    ensures r.Err? ==> exists i :: 0 <= i < |keys| && FirstRefused(op, m, keys, i, r.error)
    ensures r.Ok? ==> Attached(m, keys, c.next, r.value.1.next, r.value.0)
    decreases |keys|
  {
    if |keys| == 0 then Ok(([], c))
    else
      var n := |keys| - 1;
      var k := keys[n];
      var v := Lookup(m, k);
      assert forall k' :: k' in keys <==> k' in keys[..n] || k' == k;
      match AttachArgumentInputs(op, m, keys[..n], c)
      case Err(e) =>
        RefusedPrefix(op, m, keys, n, e);
        Err(e)
      case Ok((done, c1)) =>
        if k == "name" || v.NoneVal? then
          AttachedSkip(m, keys, c.next, c1.next, done);
          Ok((done, c1))
        else
          var fed := if v.Node? then Some((v.h, c1)) else InstantiateConstant(c1, CPU, v);
          if fed.None? then
            RefusedLast(op, m, keys);
            Err(ArgumentInputNotConvertible(k))
          else
            match CheckArgInput(op.schema, op.typeName, k)
            case Err(e) =>
              RefusedLast(op, m, keys);
              Err(e)
            case Ok(_) =>
              AttachedAdd(m, keys, c.next, c1.next, fed.value.1.next, done, fed.value.0);
              Ok((done + [(k, fed.value.0)], fed.value.1))
  }

  // ---------------------------------------------------------------------------
  // Positional inputs

  /** The loop over the positional inputs: each must be a handle; the first
      that is not raises `TypeError`. */
  function CheckPositional(vs: seq<Value>): (r: Result<seq<Handle>>)
    ensures r.Ok? <==> forall i :: 0 <= i < |vs| ==> vs[i].Node?
    ensures r.Ok? ==> |r.value| == |vs| && forall i :: 0 <= i < |vs| ==> r.value[i] == vs[i].h
    ensures r.Err? ==> exists i :: 0 <= i < |vs| && r.error == InvalidInputType(i) && !vs[i].Node?
                                    && forall j :: 0 <= j < i ==> vs[j].Node?
    decreases |vs|
  {
    if |vs| == 0 then Ok([])
    else
      var init := vs[..|vs| - 1];
      var last := vs[|vs| - 1];
      match CheckPositional(init)
      case Err(e) => Err(e)
      case Ok(hs) =>
        if !last.Node? then Err(InvalidInputType(|vs| - 1)) else Ok(hs + [last.h])
  }

  // ---------------------------------------------------------------------------
  // `_OperatorInstance.__init__`

  /** The string a dict's `name` entry holds, if any. */
  function NameIn(d: Kwargs): Option<string> {
    if "name" in Keys(d) && Lookup(d, "name").Str? then Some(Lookup(d, "name").s) else None
  }

  /** The explicit instance name: the call's `name` argument, else the one
      bound at construction. */
  function ExplicitName(op: Operator, kwargs: Kwargs): Option<string> {
    if NameIn(kwargs).Some? then NameIn(kwargs) else NameIn(op.callArgs)
  }

  /** The warnings an instance of `op` emits when it is built. */
  function InstanceWarnings(op: Operator): seq<Warning> {
    if op.schema.deprecated then
      [DeprecatedOperator(op.typeName, op.schema.deprecatedInFavorOf, op.schema.deprecationMessage)]
    else []
  }

  /** What building an instance of `op` on `inputs` and `kwargs` with the
      counter at `c` yields:
      - the instance takes id `c.next`, which is also its relation id, has
        no outputs yet, and emits the operator's deprecation warning;
      - it is named by the call's or the operator's `name`, else by the
        default name for its id;
      - a handle input is kept and a scalar constant input becomes a
        constant node on the default input device with a later id;
      - its argument inputs are, in sorted order, the call-time arguments
        other than `name`, each the given handle or a CPU constant node with
        a later id;
      - its specification arguments are the supplied keyword arguments that
        are not call-time arguments. */
  ghost predicate InstanceFor(op: Operator, inputs: seq<Value>, kwargs: Kwargs, c: Counter, b: Built) {
    && b.inst.id == c.next && b.inst.relationId == c.next
    && b.counter.next > c.next && b.inst.outputs == []
    && b.warnings == InstanceWarnings(op)
    && b.inst.name == (match ExplicitName(op, kwargs)
                       case Some(n) => n
                       case None => DefaultName(op.typeName, c.next))
    && |b.inst.positional| == |inputs|
    && (forall i :: 0 <= i < |inputs| && inputs[i].Node? ==> b.inst.positional[i] == inputs[i].h)
    && (forall i :: 0 <= i < |inputs| && inputs[i].Scalar? ==>
          && b.inst.positional[i].device == OutputDevice(DefaultInputDevice(op.device))
          && c.next < b.inst.positional[i].producer < b.counter.next)
    && StrictlyIncreasing(ArgNames(b.inst.argumentInputs))
    && (forall k :: k in ArgNames(b.inst.argumentInputs) <==>
          k != "name" && (k in SuppliedKeys(op.callArgs) || k in CallTimeKeys(kwargs)))
    && (forall i :: 0 <= i < |b.inst.argumentInputs| ==>
          var (k, h) := b.inst.argumentInputs[i];
          && (CallArgValue(op.callArgs, kwargs, k).Node? ==> h == CallArgValue(op.callArgs, kwargs, k).h)
          && (!CallArgValue(op.callArgs, kwargs, k).Node? ==>
                h.device == CPU && c.next < h.producer < b.counter.next))
    && Keys(b.inst.specArgs) == SuppliedKeys(kwargs) - CallTimeKeys(kwargs)
  }

  /** The facts of the two halves of `__init__` combine into `InstanceFor`. */
  lemma InstanceFromParts(op: Operator, inputs: seq<Value>, kwargs: Kwargs, c: Counter, p: Prepared, b: Built)
    requires PreparedFor(op, inputs, kwargs, c, p)
    requires CompletedFrom(op, p.id, p.promoted, p.merged, p.specArgs, p.counter, b)
    ensures InstanceFor(op, inputs, kwargs, c, b)
  {
    ArgInputHandles(op.callArgs, kwargs, p.merged, b.inst.argumentInputs, p.counter.next, b.counter.next);
  }

  /** `_OperatorInstance(inputs, op, **kwargs)` for one input set. */
  function NewInstance(op: Operator, inputs: seq<Value>, kwargs: Kwargs, c: Counter): (r: Result<Built>)
    requires ValidOperator(op) && DistinctKeys(kwargs) && NameIsString(kwargs)
    ensures r.Err? ==> r.error.DuplicateArgument? || r.error.InvalidInputType?
                       || r.error.ArgumentInputNotConvertible? || r.error.ArgumentInputNotSupported?
    ensures (r.Err? && r.error.DuplicateArgument?) <==> CallTimeKeys(kwargs) * Keys(op.callArgs) != {}
    ensures (r.Err? && r.error.InvalidInputType?) <==>
              && CallTimeKeys(kwargs) !! Keys(op.callArgs)
              && exists i :: 0 <= i < |inputs| && !inputs[i].Node? && !inputs[i].Scalar?
    ensures r.Ok? <==> Buildable(op, inputs, kwargs)
    ensures (r.Err? && (r.error.ArgumentInputNotConvertible? || r.error.ArgumentInputNotSupported?)) <==>
              && CallTimeKeys(kwargs) !! Keys(op.callArgs)
              && (forall i :: 0 <= i < |inputs| ==> inputs[i].Node? || inputs[i].Scalar?)
              && !ArgInputsAccepted(op, kwargs)
    ensures r.Err? && (r.error.ArgumentInputNotConvertible? || r.error.ArgumentInputNotSupported?) ==>
              exists k :: FirstRefusedArg(op, kwargs, k, r.error)
    ensures r.Ok? ==> InstanceFor(op, inputs, kwargs, c, r.value)
  {
    match PrepareInstance(op, inputs, kwargs, c)
    case Err(e) => Err(e)
    case Ok(p) =>
      var r := CompleteInstance(op, p.id, p.promoted, p.merged, p.specArgs, p.counter);
      InstanceOutcome(op, inputs, kwargs, c, p, r);
      if r.Ok? then
        InstanceFromParts(op, inputs, kwargs, c, p, r.value);
        r
      else r
  }

  /** A call-time argument of an instance that is an argument input: any
      supplied one but `name`, bound at construction or given by the call. */
  predicate ArgInputKey(op: Operator, kwargs: Kwargs, k: string) {
    k != "name" && (k in SuppliedKeys(op.callArgs) || k in CallTimeKeys(kwargs))
  }

  /** Every argument input of an instance is a handle or a convertible
      constant, for an argument that takes a tensor. */
  ghost predicate ArgInputsAccepted(op: Operator, kwargs: Kwargs) {
    forall k :: ArgInputKey(op, kwargs, k) ==> AcceptedArgInput(op.schema, k, CallArgValue(op.callArgs, kwargs, k))
  }

  /** `_OperatorInstance(inputs, op, **kwargs)` succeeds: no call-time
      argument repeats one bound at construction, every positional input is
      a handle or a scalar constant, and every argument input is accepted. */
  ghost predicate Buildable(op: Operator, inputs: seq<Value>, kwargs: Kwargs) {
    && CallTimeKeys(kwargs) !! Keys(op.callArgs)
    && (forall i :: 0 <= i < |inputs| ==> inputs[i].Node? || inputs[i].Scalar?)
    && ArgInputsAccepted(op, kwargs)
  }

  /** `k` is the argument input `e` is raised for: refused, with every
      argument input before it in sorted order accepted. */
  ghost predicate FirstRefusedArg(op: Operator, kwargs: Kwargs, k: string, e: Error) {
    && ArgInputKey(op, kwargs, k)
    && !AcceptedArgInput(op.schema, k, CallArgValue(op.callArgs, kwargs, k))
    && e == RefusalError(op, k, CallArgValue(op.callArgs, kwargs, k))
    && forall k' :: ArgInputKey(op, kwargs, k') && Below(k', k) ==>
                      AcceptedArgInput(op.schema, k', CallArgValue(op.callArgs, kwargs, k'))
  }

  /** The outcome of the second half of `__init__`, in terms of the call. */
  lemma InstanceOutcome(op: Operator, inputs: seq<Value>, kwargs: Kwargs, c: Counter, p: Prepared, r: Result<Built>)
    requires PreparedFor(op, inputs, kwargs, c, p) && CallTimeKeys(kwargs) !! Keys(op.callArgs)
    requires r.Ok? <==> (forall i :: 0 <= i < |p.promoted| ==> p.promoted[i].Node?) && MergedAccepted(op, p.merged)
    requires (r.Err? && r.error.InvalidInputType?) <==> exists i :: 0 <= i < |p.promoted| && !p.promoted[i].Node?
    requires r.Err? && !r.error.InvalidInputType? ==> exists k :: FirstRefusedKey(op, p.merged, k, r.error)
    ensures r.Ok? <==> Buildable(op, inputs, kwargs)
    ensures r.Err? && !r.error.InvalidInputType? ==> exists k :: FirstRefusedArg(op, kwargs, k, r.error)
  {
    var m := p.merged;
    assert MergedAccepted(op, m) <==> ArgInputsAccepted(op, kwargs) by {
      assert forall k :: k in Keys(m) && IsArgInputKey(m, k) <==> ArgInputKey(op, kwargs, k);
    }
    if r.Err? && !r.error.InvalidInputType? {
      var k :| FirstRefusedKey(op, m, k, r.error);
      assert forall k' :: k' in Keys(m) && IsArgInputKey(m, k') <==> ArgInputKey(op, kwargs, k');
      assert FirstRefusedArg(op, kwargs, k, r.error);
    }
  }

  /** What `__init__` has in hand before it names the instance: its id, the
      promoted inputs, the specification arguments and the merged call
      arguments, and the counter after the promotions. */
  datatype Prepared = Prepared(id: nat, promoted: seq<Value>, specArgs: Kwargs, merged: Kwargs, counter: Counter)

  /** `promoted` keeps the handle inputs and replaces each scalar constant
      input by a constant node on the default input device with an id in
      `(c.next, hi)`; it holds a non-handle exactly where `inputs` holds
      something that is neither a handle nor a scalar constant. */
  ghost predicate PromotedFor(op: Operator, inputs: seq<Value>, c: Counter, promoted: seq<Value>, hi: nat) {
    && hi > c.next
    && |promoted| == |inputs|
    && (forall i :: 0 <= i < |inputs| && inputs[i].Node? ==> promoted[i] == inputs[i])
    && (forall i :: 0 <= i < |inputs| && inputs[i].Scalar? ==>
          && promoted[i].Node?
          && promoted[i].h.device == OutputDevice(DefaultInputDevice(op.device))
          && c.next < promoted[i].h.producer < hi)
    && ((exists i :: 0 <= i < |inputs| && !promoted[i].Node?) <==>
        (exists i :: 0 <= i < |inputs| && !inputs[i].Node? && !inputs[i].Scalar?))
  }

  /** `merged` holds the operator's and the call's call-time arguments: the
      explicit name, the argument-input keys and their values; `specArgs`
      holds the other supplied keyword arguments. */
  ghost predicate MergedFor(op: Operator, kwargs: Kwargs, specArgs: Kwargs, merged: Kwargs) {
    && DistinctKeys(merged)
    && NameIn(merged) == ExplicitName(op, kwargs)
    && (forall k :: k in Keys(merged) && IsArgInputKey(merged, k) <==>
          k != "name" && (k in SuppliedKeys(op.callArgs) || k in CallTimeKeys(kwargs)))
    && (forall k :: k in Keys(merged) ==> Lookup(merged, k) == CallArgValue(op.callArgs, kwargs, k))
    && Keys(specArgs) == SuppliedKeys(kwargs) - CallTimeKeys(kwargs)
  }

  /** `p` holds the id `c.next`, the promoted inputs and the merged
      arguments. */
  ghost predicate PreparedFor(op: Operator, inputs: seq<Value>, kwargs: Kwargs, c: Counter, p: Prepared) {
    && p.id == c.next
    && PromotedFor(op, inputs, c, p.promoted, p.counter.next)
    && MergedFor(op, kwargs, p.specArgs, p.merged)
  }

  /** Taking the id and promoting the scalar inputs. */
  lemma PromotionFacts(op: Operator, inputs: seq<Value>, c: Counter)
    ensures var (promoted, c2) := PromoteScalarInputs(inputs, DefaultInputDevice(op.device), Allocate(c).1);
            PromotedFor(op, inputs, c, promoted, c2.next)
  {
    var (promoted, c2) := PromoteScalarInputs(inputs, DefaultInputDevice(op.device), Allocate(c).1);
    assert (exists i :: 0 <= i < |promoted| && !promoted[i].Node?) <==>
           (exists i :: 0 <= i < |inputs| && !inputs[i].Node? && !inputs[i].Scalar?);
  }

  /** Separating the keyword arguments and merging the call-time ones with
      the operator's. */
  function MergeForInstance(op: Operator, kwargs: Kwargs): (r: Result<(Kwargs, Kwargs)>)
    requires ValidOperator(op) && DistinctKeys(kwargs) && NameIsString(kwargs)
    ensures r.Err? <==> CallTimeKeys(kwargs) * Keys(op.callArgs) != {}
    ensures r.Err? ==> r.error.DuplicateArgument?
    ensures r.Ok? ==> MergedFor(op, kwargs, r.value.0, r.value.1)
  {
    var (specArgs, given) := SeparateKwargs(kwargs);
    SeparateKwargsKeys(kwargs);
    match MergeCallArgs(op.callArgs, given)
    case Err(e) => Err(e)
    case Ok(merged) =>
      MergeFacts(op, kwargs, specArgs, given, merged);
      Ok((specArgs, merged))
  }

  /** The separated and merged arguments satisfy `MergedFor`. */
  lemma MergeFacts(op: Operator, kwargs: Kwargs, specArgs: Kwargs, given: Kwargs, merged: Kwargs)
    requires ValidOperator(op) && DistinctKeys(kwargs) && NameIsString(kwargs)
    requires SplitsInto(kwargs, specArgs, given)
    requires Keys(given) == CallTimeKeys(kwargs) && SuppliedKeys(given) == Keys(given)
    requires Keys(specArgs) == SuppliedKeys(kwargs) - CallTimeKeys(kwargs)
    requires DistinctKeys(merged) && Keys(merged) == Keys(op.callArgs) + SuppliedKeys(given)
    requires SuppliedKeys(given) !! Keys(op.callArgs)
    requires forall k :: k in Keys(op.callArgs) ==> Lookup(merged, k) == Lookup(op.callArgs, k)
    requires forall k :: k in SuppliedKeys(given) && k in Keys(given) ==> Lookup(merged, k) == Lookup(given, k)
    ensures MergedFor(op, kwargs, specArgs, merged)
  {
    NameFacts(op.callArgs, kwargs, given, merged);
    ArgInputKeys(op.callArgs, given, merged);
    MergedValues(op.callArgs, kwargs, given, merged);
  }

  /** The first part of `__init__`: take the id, promote scalar inputs,
      separate the keyword arguments and merge the call arguments. */
  function PrepareInstance(op: Operator, inputs: seq<Value>, kwargs: Kwargs, c: Counter): (r: Result<Prepared>)
    requires ValidOperator(op) && DistinctKeys(kwargs) && NameIsString(kwargs)
    ensures r.Err? <==> CallTimeKeys(kwargs) * Keys(op.callArgs) != {}
    ensures r.Err? ==> r.error.DuplicateArgument?
    ensures r.Ok? ==> PreparedFor(op, inputs, kwargs, c, r.value)
  {
    var (id, c1) := Allocate(c);
    var (promoted, c2) := PromoteScalarInputs(inputs, DefaultInputDevice(op.device), c1);
    PromotionFacts(op, inputs, c);
    match MergeForInstance(op, kwargs)
    case Err(e) => Err(e)
    case Ok((specArgs, merged)) => Ok(Prepared(id, promoted, specArgs, merged, c2))
  }

  /** `b` is the instance `id` with the given specification arguments, no
      outputs and the operator's warnings; it is named by the merged `name`
      or by default; its positional inputs are the handles of `promoted`;
      its argument inputs are those of `merged`, in sorted order, each the
      given handle or a CPU constant node taken from the counter. */
  ghost predicate CompletedFrom(op: Operator, id: nat, promoted: seq<Value>, merged: Kwargs, specArgs: Kwargs, c: Counter, b: Built)
    requires DistinctKeys(merged)
  {
    && b.inst.id == id && b.inst.relationId == id && b.inst.outputs == []
    && b.counter.next >= c.next && b.warnings == InstanceWarnings(op)
    && b.inst.specArgs == specArgs
    && b.inst.name == (match NameIn(merged)
                       case Some(n) => n
                       case None => DefaultName(op.typeName, id))
    && |b.inst.positional| == |promoted|
    && (forall i :: 0 <= i < |promoted| ==> promoted[i] == Node(b.inst.positional[i]))
    && StrictlyIncreasing(ArgNames(b.inst.argumentInputs))
    && (forall k :: k in ArgNames(b.inst.argumentInputs) <==> k in Keys(merged) && IsArgInputKey(merged, k))
    && (forall i :: 0 <= i < |b.inst.argumentInputs| ==>
          var (k, h) := b.inst.argumentInputs[i];
          && k in Keys(merged)
          && (Lookup(merged, k).Node? ==> h == Lookup(merged, k).h)
          && (!Lookup(merged, k).Node? ==> h.device == CPU && c.next <= h.producer < b.counter.next))
  }

  /** The rest of `__init__` once the call arguments are merged: naming the
      instance, checking its positional inputs and attaching its argument
      inputs in sorted order. */
  function CompleteInstance(op: Operator, id: nat, promoted: seq<Value>, merged: Kwargs, specArgs: Kwargs, c: Counter)
    : (r: Result<Built>)
    requires DistinctKeys(merged)
    ensures r.Err? ==> r.error.InvalidInputType? || r.error.ArgumentInputNotConvertible?
                       || r.error.ArgumentInputNotSupported?
    ensures (r.Err? && r.error.InvalidInputType?) <==> exists i :: 0 <= i < |promoted| && !promoted[i].Node?
    ensures r.Ok? <==> (forall i :: 0 <= i < |promoted| ==> promoted[i].Node?) && MergedAccepted(op, merged)
    ensures r.Err? && !r.error.InvalidInputType? ==> exists k :: FirstRefusedKey(op, merged, k, r.error)
    ensures r.Ok? ==> CompletedFrom(op, id, promoted, merged, specArgs, c, r.value)
  {
    var name := match NameIn(merged) case Some(n) => n case None => DefaultName(op.typeName, id);
    match CheckPositional(promoted)
    case Err(e) => Err(e)
    case Ok(positional) =>
      var keys := SortStrings(KeyList(merged));
      SortedKeys(merged);
      match AttachArgumentInputs(op, merged, keys, c)
      case Err(e) =>
        RefusedByKey(op, merged, keys, e);
        Err(e)
      case Ok((argInputs, c')) =>
        Ok(Built(Instance(id, id, name, positional, argInputs, specArgs, []), c', InstanceWarnings(op)))
  }

  /** Every argument input of `merged` is accepted. */
  ghost predicate MergedAccepted(op: Operator, merged: Kwargs) {
    forall k :: k in Keys(merged) && IsArgInputKey(merged, k) ==> AcceptedArgInput(op.schema, k, Lookup(merged, k))
  }

  /** `k` is the argument input of `merged` that `e` is raised for: it is
      refused, and every argument input before it in sorted order is
      accepted. */
  ghost predicate FirstRefusedKey(op: Operator, merged: Kwargs, k: string, e: Error) {
    && k in Keys(merged) && IsArgInputKey(merged, k) && !AcceptedArgInput(op.schema, k, Lookup(merged, k))
    && e == RefusalError(op, k, Lookup(merged, k))
    && forall k' :: k' in Keys(merged) && IsArgInputKey(merged, k') && Below(k', k) ==>
                      AcceptedArgInput(op.schema, k', Lookup(merged, k'))
  }

  /** `sorted(call_args.keys())` holds exactly the keys, in increasing order. */
  lemma SortedKeys(d: Kwargs)
    requires DistinctKeys(d)
    ensures StrictlyIncreasing(SortStrings(KeyList(d)))
    ensures forall k :: k in SortStrings(KeyList(d)) <==> k in Keys(d)
  {
    KeyListKeys(d);
    KeyListDistinct(d);
    SortDistinctStrictlyIncreasing(KeyList(d));
    var sorted := SortStrings(KeyList(d));
    forall k
      ensures k in sorted <==> k in KeyList(d)
    {
      assert k in sorted <==> k in multiset(sorted);
      assert k in KeyList(d) <==> k in multiset(KeyList(d));
    }
  }

  /** The first refused key by position in the sorted keys is the first
      refused key in string order. */
  lemma RefusedByKey(op: Operator, m: Kwargs, keys: seq<string>, e: Error)
    requires StrictlyIncreasing(keys) && forall k :: k in keys <==> k in Keys(m)
    requires exists i :: 0 <= i < |keys| && FirstRefused(op, m, keys, i, e)
    ensures exists k :: FirstRefusedKey(op, m, k, e)
  {
    var i :| 0 <= i < |keys| && FirstRefused(op, m, keys, i, e);
    var k := keys[i];
    forall k' | k' in Keys(m) && IsArgInputKey(m, k') && Below(k', k)
      ensures AcceptedArgInput(op.schema, k', Lookup(m, k'))
    {
      var j :| 0 <= j < |keys| && keys[j] == k';
      BelowIndex(keys, j, i);
    }
    assert FirstRefusedKey(op, m, k, e);
  }

  lemma KeyListDistinct(d: Kwargs)
    requires DistinctKeys(d)
    ensures Distinct(KeyList(d))
  {
  }

  /** The merged dict's `name` entry is the explicit name. */
  lemma NameFacts(bound: Kwargs, kwargs: Kwargs, given: Kwargs, merged: Kwargs)
    requires DistinctKeys(bound) && NameIsString(bound) && DistinctKeys(kwargs) && NameIsString(kwargs)
    requires DistinctKeys(given) && Keys(given) == CallTimeKeys(kwargs) && SuppliedKeys(given) == Keys(given)
    requires forall k :: k in Keys(given) ==> k in Keys(kwargs) && Lookup(given, k) == Lookup(kwargs, k)
    requires Keys(merged) == Keys(bound) + Keys(given) && Keys(given) !! Keys(bound)
    requires forall k :: k in Keys(bound) ==> Lookup(merged, k) == Lookup(bound, k)
    requires forall k :: k in Keys(given) ==> Lookup(merged, k) == Lookup(given, k)
    ensures NameIn(merged) == (if NameIn(kwargs).Some? then NameIn(kwargs) else NameIn(bound))
  {
    SuppliedLookup(kwargs);
    if "name" in Keys(kwargs) {
      var i := KeyIndex(kwargs, "name");
      LookupAt(kwargs, i);
      if !kwargs[i].1.NoneVal? {
        assert kwargs[i] in kwargs;
        assert "name" in Keys(given);
      } else {
        assert "name" !in Keys(given) by {
          if "name" in Keys(given) {
            SuppliedLookup(given);
          }
        }
      }
    }
  }

  /** The value a call-time argument has for an instance: the call's own, else
      the one bound at construction. */
  function CallArgValue(bound: Kwargs, kwargs: Kwargs, k: string): Value {
    if k in Keys(kwargs) && k in CallTimeKeys(kwargs) then Lookup(kwargs, k)
    else if k in Keys(bound) then Lookup(bound, k)
    else NoneVal
  }

  lemma MergedValues(bound: Kwargs, kwargs: Kwargs, given: Kwargs, merged: Kwargs)
    requires DistinctKeys(given) && Keys(given) == CallTimeKeys(kwargs)
    requires forall k :: k in Keys(given) ==> k in Keys(kwargs) && Lookup(given, k) == Lookup(kwargs, k)
    requires Keys(merged) == Keys(bound) + Keys(given) && Keys(given) !! Keys(bound)
    requires forall k :: k in Keys(bound) ==> Lookup(merged, k) == Lookup(bound, k)
    requires forall k :: k in Keys(given) ==> Lookup(merged, k) == Lookup(given, k)
    ensures forall k :: k in Keys(merged) ==> Lookup(merged, k) == CallArgValue(bound, kwargs, k)
  {
  }

  /** The argument-input handles, in terms of the operator's bound arguments
      and the call's own. */
  lemma ArgInputHandles(bound: Kwargs, kwargs: Kwargs, merged: Kwargs, args: seq<(string, Handle)>, lo: nat, hi: nat)
    requires forall k :: k in Keys(merged) ==> Lookup(merged, k) == CallArgValue(bound, kwargs, k)
    requires forall i :: 0 <= i < |args| ==>
               && args[i].0 in Keys(merged)
               && (Lookup(merged, args[i].0).Node? ==> args[i].1 == Lookup(merged, args[i].0).h)
               && (!Lookup(merged, args[i].0).Node? ==> args[i].1.device == CPU && lo <= args[i].1.producer < hi)
    ensures forall i :: 0 <= i < |args| ==>
              var (k, h) := args[i];
              && (CallArgValue(bound, kwargs, k).Node? ==> h == CallArgValue(bound, kwargs, k).h)
              && (!CallArgValue(bound, kwargs, k).Node? ==> h.device == CPU && lo <= h.producer < hi)
  {
  }

  /** The argument-input keys of the merged dict, in terms of the operator's
      bound arguments and the call's own. */
  lemma ArgInputKeys(bound: Kwargs, given: Kwargs, merged: Kwargs)
    requires DistinctKeys(bound) && DistinctKeys(given) && SuppliedKeys(given) == Keys(given)
    requires Keys(merged) == Keys(bound) + Keys(given) && Keys(given) !! Keys(bound)
    requires forall k :: k in Keys(bound) ==> Lookup(merged, k) == Lookup(bound, k)
    requires forall k :: k in Keys(given) ==> Lookup(merged, k) == Lookup(given, k)
    ensures forall k :: k in Keys(merged) && IsArgInputKey(merged, k) <==>
              k != "name" && (k in SuppliedKeys(bound) || k in Keys(given))
  {
    SuppliedLookup(bound);
    SuppliedLookup(given);
  }



  // ---------------------------------------------------------------------------
  // Outputs

  /** The name of output `i` of `n` of an instance called `base`: the base
      name alone for a single output, else the base name indexed in brackets. */
  function OutputName(base: string, n: nat, i: nat): string {
    if n > 1 then base + "[" + NatToString(i) + "]" else base
  }

  /** Different outputs of one instance have different names. */
  lemma OutputNamesDistinct(base: string, n: nat, i: nat, j: nat)
    requires i < n && j < n && i != j
    ensures OutputName(base, n, i) != OutputName(base, n, j)
  {
    var a := OutputName(base, n, i);
    var b := OutputName(base, n, j);
    if a == b {
      var lo := |base| + 1;
      assert NatToString(i) == a[lo..|a| - 1];
      assert NatToString(j) == b[lo..|b| - 1];
      NatToStringInjective(i, j);
    }
  }

  /** The name of the sink a side-effect operator without outputs registers. */
  function SinkName(typeName: string, id: nat): string {
    typeName + "_id_" + NatToString(id) + "_sink"
  }

  /** The `n` output handles of an instance: all on `device`, produced by
      instance `id`. */
  function MintOutputs(base: string, n: nat, device: Device, id: nat): (r: seq<Handle>)
    ensures |r| == n
    ensures forall i :: 0 <= i < n ==> r[i] == Handle(OutputName(base, n, i), device, id)
  {
    seq(n, i requires 0 <= i < n => Handle(OutputName(base, n, i), device, id))
  }

  /** `generate_outputs`, with `pipeline` standing for `Pipeline.current()`. */
  function GenerateOutputs(op: Operator, inst: Instance, pipeline: Option<Pipeline>)
    : (r: Result<(Instance, Option<Pipeline>)>)
    ensures r.Err? <==> pipeline.None? && op.preserve
    ensures r.Err? ==> r.error == PipelineRequired
    ensures r.Ok? ==>
              var (inst', pipeline') := r.value;
              var n := NumOutputs(op.schema);
              && inst' == inst.(outputs := inst'.outputs)
              && |inst'.outputs| == |inst.outputs| + (if n == 0 && op.preserve then 0 else n)
              && inst'.outputs[..|inst.outputs|] == inst.outputs
              && (forall h :: h in inst'.outputs[|inst.outputs|..] ==>
                    h.producer == inst.id && h.device == OutputDevice(op.device))
              && (!(n == 0 && op.preserve) ==> forall i :: 0 <= i < n ==>
                    inst'.outputs[|inst.outputs| + i].name == OutputName(inst.name, n, i))
              && (n == 1 ==> inst'.outputs[|inst.outputs|].name == inst.name)
              && Distinct(seq(|inst'.outputs| - |inst.outputs|, i requires 0 <= i < |inst'.outputs| - |inst.outputs| =>
                            inst'.outputs[|inst.outputs| + i].name))
              && (!op.preserve ==> pipeline' == pipeline)
              && (op.preserve && n > 0 ==>
                    pipeline'.Some? && pipeline'.value.sinks == pipeline.value.sinks + inst'.outputs[|inst.outputs|..])
              && (op.preserve && n == 0 ==>
                    pipeline'.Some? && pipeline'.value.sinks ==
                      pipeline.value.sinks + [Handle(SinkName(op.typeName, inst.id), OutputDevice(op.device), inst.id)])
  {
    var device := OutputDevice(op.device);
    var n := NumOutputs(op.schema);
    if pipeline.None? && op.preserve then Err(PipelineRequired)
    else if n == 0 && op.preserve then
      Ok((inst, Some(AddSink(pipeline.value, Handle(SinkName(op.typeName, inst.id), device, inst.id)))))
    else
      var minted := MintOutputs(inst.name, n, device, inst.id);
      var pipeline' := if op.preserve then Some(Pipeline(pipeline.value.sinks + minted)) else pipeline;
      var inst' := inst.(outputs := inst.outputs + minted);
      assert inst'.outputs[|inst.outputs|..] == minted;
      forall i, j | 0 <= i < j < n
        ensures minted[i].name != minted[j].name
      {
        OutputNamesDistinct(inst.name, n, i, j);
      }
      Ok((inst', pipeline'))
  }

  /** `unwrapped_outputs`: a single output on its own, else the list. */
  function UnwrappedOutputs(inst: Instance): (r: Packed<Handle>)
    ensures |inst.outputs| == 1 <==> r.One?
    ensures r.One? ==> r.item == inst.outputs[0]
    ensures r.Flat? ==> r.items == inst.outputs
    ensures !r.Nested?
  {
    if |inst.outputs| == 1 then One(inst.outputs[0]) else Flat(inst.outputs)
  }
}

=== FILE: outcomes.dfy ===
/** The exceptions the graph-construction layer raises, the deprecation
    warnings it emits, and a result type carrying either a value or one of
    those exceptions. */
module Outcomes {

  datatype Error =
      /** `ValueError`: the call's positional input count is outside the
          schema's [min, max] bound. */
    | InputCountOutOfRange(op: string, minInputs: nat, maxInputs: nat, received: nat)
      /** `ValueError`: list inputs of one call have different lengths. */
    | InputSetLengthMismatch(op: string)
      /** `ValueError` from `max()` over no inputs. */
    | EmptyInputs
      /** `IndexError`: the call expanded to no input set at all. */
    | NoInputSets(op: string)
      /** `TypeError`: positional input `index` is neither a handle nor a list
          of handles, and cannot become a constant node. */
    | InputNotConvertible(op: string, index: nat)
      /** `ValueError`: a call-time argument was already given at construction. */
    | DuplicateArgument(arg: string)
      /** `TypeError`: positional input `index` of an instance is not a handle. */
    | InvalidInputType(index: nat)
      /** `TypeError`: an argument input is neither a handle nor convertible to
          a constant node. */
    | ArgumentInputNotConvertible(arg: string)
      /** `TypeError`: the schema does not accept a tensor for this argument. */
    | ArgumentInputNotSupported(op: string, arg: string)
      /** `TypeError`: a deprecated argument was given together with the
          argument that replaces it. */
    | DeprecatedArgumentConflict(op: string, arg: string, renamedTo: string)
      /** An operator with side effects is used while no pipeline is current. */
    | PipelineRequired
      /** `TypeError`: an arithmetic operand is neither a handle nor a
          bool/int/float constant. */
    | UnsupportedArithmeticArgument(index: nat)
      /** `TypeError`: a constant operand has no type description. */
    | UnsupportedConstantType

  /** The `DeprecationWarning`s, as structured events. */
  datatype Warning =
    | DeprecatedArgument(arg: string, msg: string)
    | DeprecatedOperator(op: string, inFavorOf: string, explanation: string)

  datatype Result<T> = Ok(value: T) | Err(error: Error) {
    predicate IsFailure() {
      Err?
    }

    function PropagateFailure<U>(): Result<U>
      requires Err?
    {
      Err(error)
    }

    function Extract(): T
      requires Ok?
    {
      value
    }
  }

  datatype Option<T> = None | Some(value: T)
}

=== FILE: strings.dfy ===
/** The few string facilities the graph-construction layer relies on:
    Python's `str(n)` for a non-negative integer, Python's ordering of `str`
    values (code-point lexicographic) together with `sorted`, and
    `sep.join` / `s.split(sep)` for a one-character separator. */
module Strings {

  predicate IsDigit(c: char) {
    '0' <= c <= '9'
  }

  predicate AllDigits(s: string) {
    forall i :: 0 <= i < |s| ==> IsDigit(s[i])
  }

  /** The decimal digit for `d`. */
  function DigitChar(d: nat): (c: char)
    requires d < 10
    ensures IsDigit(c) && c as int - '0' as int == d
  {
    ('0' as int + d) as char
  }

  /** Python's `str(n)` for `n >= 0`: decimal, without leading zeros. */
  function NatToString(n: nat): (s: string)
    ensures |s| > 0 && AllDigits(s)
    ensures s[0] == '0' ==> n == 0
    decreases n
  {
    if n < 10 then [DigitChar(n)] else NatToString(n / 10) + [DigitChar(n % 10)]
  }

  /** The number a string of decimal digits denotes (Python's `int(s)`). */
  function DigitsValue(s: string): nat
    requires AllDigits(s)
    decreases |s|
  {
    if |s| == 0 then 0
    else 10 * DigitsValue(s[..|s| - 1]) + (s[|s| - 1] as int - '0' as int)
  }

  /** Reading back the decimal rendering gives the number again. */
  lemma {:induction false} NatToStringRoundTrip(n: nat)
    ensures DigitsValue(NatToString(n)) == n
    decreases n
  {
    if n >= 10 {
      NatToStringRoundTrip(n / 10);
      var s := NatToString(n);
      assert s[..|s| - 1] == NatToString(n / 10);
    }
  }

  /** Distinct numbers render to distinct strings. */
  lemma NatToStringInjective(a: nat, b: nat)
    ensures NatToString(a) == NatToString(b) ==> a == b
  {
    NatToStringRoundTrip(a);
    NatToStringRoundTrip(b);
  }

  // ---------------------------------------------------------------------------
  // Python's `<` on `str`, and `sorted`

  /** `a < b` on Python strings: the first differing code point decides, and a
      proper prefix is smaller. */
  predicate Below(a: string, b: string)
    decreases |a|
  {
    if |a| == 0 then |b| > 0
    else if |b| == 0 then false
    else if a[0] != b[0] then a[0] < b[0]
    else Below(a[1..], b[1..])
  }

  /** `a <= b` on Python strings. */
  predicate AtMost(a: string, b: string) {
    !Below(b, a)
  }

  lemma {:induction false} BelowIrreflexive(a: string)
    ensures !Below(a, a)
    decreases |a|
  {
    if |a| > 0 {
      BelowIrreflexive(a[1..]);
    }
  }

  lemma {:induction false} BelowTransitive(a: string, b: string, c: string)
    requires Below(a, b) && Below(b, c)
    ensures Below(a, c)
    decreases |a|
  {
    if |a| > 0 && a[0] == b[0] && b[0] == c[0] {
      BelowTransitive(a[1..], b[1..], c[1..]);
    }
  }

  /** Any two different strings are ordered one way or the other. */
  lemma {:induction false} BelowTotal(a: string, b: string)
    ensures a == b || Below(a, b) || Below(b, a)
    decreases |a|
  {
    if |a| > 0 && |b| > 0 && a[0] == b[0] {
      BelowTotal(a[1..], b[1..]);
      if a[1..] == b[1..] {
        assert a == [a[0]] + a[1..] && b == [b[0]] + b[1..];
      }
    }
  }

  lemma AtMostTransitive(a: string, b: string, c: string)
    requires AtMost(a, b) && AtMost(b, c)
    ensures AtMost(a, c)
  {
    BelowTotal(a, b);
    BelowTotal(b, c);
    if a != b && b != c {
      BelowTransitive(a, b, c);
      BelowIrreflexive(a);
      if Below(c, a) {
        BelowTransitive(a, c, a);
      }
    }
  }

  predicate Sorted(s: seq<string>) {
    forall i, j :: 0 <= i < j < |s| ==> AtMost(s[i], s[j])
  }

  predicate StrictlyIncreasing(s: seq<string>) {
    forall i, j :: 0 <= i < j < |s| ==> Below(s[i], s[j])
  }

  /** Appending a string above every element keeps a sequence strictly
      increasing. */
  lemma AppendIncreasing(s: seq<string>, x: string)
    requires StrictlyIncreasing(s) && forall y :: y in s ==> Below(y, x)
    ensures StrictlyIncreasing(s + [x])
  {
    var t := s + [x];
    forall i, j | 0 <= i < j < |t|
      ensures Below(t[i], t[j])
    {
      if j == |s| {
        assert t[i] in s;
      } else {
        assert t[i] == s[i] && t[j] == s[j];
      }
    }
  }

  /** In a strictly increasing sequence, string order is index order. */
  lemma BelowIndex(s: seq<string>, a: nat, b: nat)
    requires StrictlyIncreasing(s) && a < |s| && b < |s| && Below(s[a], s[b])
    ensures a < b
  {
    BelowIrreflexive(s[a]);
    if b < a {
      BelowTransitive(s[b], s[a], s[b]);
      BelowIrreflexive(s[b]);
    }
  }

  /** A strictly increasing sequence is determined by its elements. */
  lemma {:induction false} StrictlyIncreasingUnique(a: seq<string>, b: seq<string>)
    requires StrictlyIncreasing(a) && StrictlyIncreasing(b)
    requires forall x :: x in a <==> x in b
    ensures a == b
    decreases |a|
  {
    assert (|a| > 0 ==> a[0] in a) && (|b| > 0 ==> b[0] in b);
    if |b| > 0 {
      var k :| 0 <= k < |b| && b[k] == a[0];
      var m :| 0 <= m < |a| && a[m] == b[0];
      if a[0] != b[0] {
        assert k > 0 && m > 0;
        BelowTransitive(a[0], b[0], a[0]);
        BelowIrreflexive(a[0]);
      }
      forall x
        ensures x in a[1..] <==> x in b[1..]
      {
        if x in a[1..] {
          assert x in a;
          BelowIrreflexive(x);
          var j :| 0 <= j < |b| && b[j] == x;
          assert j > 0 && b[1..][j - 1] == x;
        }
        if x in b[1..] {
          assert x in b;
          BelowIrreflexive(x);
          var j :| 0 <= j < |a| && a[j] == x;
          assert j > 0 && a[1..][j - 1] == x;
        }
      }
      StrictlyIncreasingUnique(a[1..], b[1..]);
      assert a == [a[0]] + a[1..] && b == [b[0]] + b[1..];
    }
  }

  predicate Distinct<T(==)>(s: seq<T>) {
    forall i, j :: 0 <= i < j < |s| ==> s[i] != s[j]
  }

  /** Inserts `x` into an ascending list, keeping it ascending. */
  function Insert(x: string, s: seq<string>): (r: seq<string>)
    requires Sorted(s)
    ensures Sorted(r)
    ensures multiset(r) == multiset(s) + multiset{x}
    ensures Distinct(s) && x !in s ==> Distinct(r)
    decreases |s|
  {
    if |s| == 0 then [x]
    else if AtMost(x, s[0]) then
      InsertFrontSorted(x, s);
      [x] + s
    else
      var tail := Insert(x, s[1..]);
      assert s == [s[0]] + s[1..];
      InsertBehindSorted(x, s, tail);
      [s[0]] + tail
  }

  lemma InsertFrontSorted(x: string, s: seq<string>)
    requires Sorted(s) && |s| > 0 && AtMost(x, s[0])
    ensures Sorted([x] + s)
    ensures Distinct(s) && x !in s ==> Distinct([x] + s)
  {
    var r := [x] + s;
    forall i, j | 0 <= i < j < |r|
      ensures AtMost(r[i], r[j])
    {
      if i == 0 && j > 1 {
        AtMostTransitive(x, s[0], s[j - 1]);
      }
    }
  }

  lemma InsertBehindSorted(x: string, s: seq<string>, tail: seq<string>)
    requires Sorted(s) && |s| > 0 && !AtMost(x, s[0])
    requires Sorted(tail) && multiset(tail) == multiset(s[1..]) + multiset{x}
    requires Distinct(s[1..]) && x !in s[1..] ==> Distinct(tail)
    ensures Sorted([s[0]] + tail)
    ensures Distinct(s) && x !in s ==> Distinct([s[0]] + tail)
  {
    BelowTotal(x, s[0]);
    forall y | y in tail
      ensures AtMost(s[0], y)
    {
      assert y in multiset(tail);
      if y != x {
        assert y in s[1..];
      } else {
        BelowIrreflexive(s[0]);
        if Below(y, s[0]) {
          BelowTransitive(s[0], y, s[0]);
        }
      }
    }
    var r := [s[0]] + tail;
    forall i, j | 0 <= i < j < |r|
      ensures AtMost(r[i], r[j])
    {
      if i == 0 {
        assert r[j] in tail;
      } else {
        assert r[i] == tail[i - 1] && r[j] == tail[j - 1];
      }
    }
    if Distinct(s) && x !in s {
      assert s[0] !in s[1..];
      assert s[0] != x;
      assert s[0] !in multiset(tail);
      forall i, j | 0 <= i < j < |r|
        ensures r[i] != r[j]
      {
        if i == 0 {
          assert r[j] in tail;
        } else {
          assert r[i] == tail[i - 1] && r[j] == tail[j - 1];
        }
      }
    }
  }

  /** Python's `sorted` on a list of strings. */
  function SortStrings(s: seq<string>): (r: seq<string>)
    ensures Sorted(r)
    ensures multiset(r) == multiset(s)
    ensures Distinct(s) ==> Distinct(r)
    decreases |s|
  {
    if |s| == 0 then []
    else
      assert s == [s[0]] + s[1..];
      var rest := SortStrings(s[1..]);
      assert Distinct(s) ==> s[0] !in multiset(s[1..]);
      Insert(s[0], rest)
  }

  /** Sorting a list without repetitions yields a strictly increasing list
      holding exactly the same strings. */
  lemma SortDistinctStrictlyIncreasing(s: seq<string>)
    requires Distinct(s)
    ensures StrictlyIncreasing(SortStrings(s))
    ensures forall x :: x in SortStrings(s) <==> x in s
  {
    var r := SortStrings(s);
    forall i, j | 0 <= i < j < |r|
      ensures Below(r[i], r[j])
    {
      BelowTotal(r[i], r[j]);
    }
    forall x
      ensures x in r <==> x in s
    {
      assert x in r <==> x in multiset(r);
      assert x in s <==> x in multiset(s);
    }
  }

  // ---------------------------------------------------------------------------
  // `sep.join(parts)` and `s.split(sep)` for a one-character separator

  function Join(parts: seq<string>, sep: char): string
    decreases |parts|
  {
    if |parts| == 0 then ""
    else if |parts| == 1 then parts[0]
    else parts[0] + [sep] + Join(parts[1..], sep)
  }

  /** The position of the first `c` in `s`. */
  function IndexOf(s: string, c: char): (i: nat)
    requires c in s
    ensures i < |s| && s[i] == c && c !in s[..i]
  {
    if s[0] == c then 0
    else
      assert s == [s[0]] + s[1..];
      var k := IndexOf(s[1..], c);
      assert s[..k + 1] == [s[0]] + s[1..][..k];
      k + 1
  }

  /** Python's `s.split(sep)`: the pieces between occurrences of `sep`,
      empty pieces included, so there is always at least one piece. */
  function Split(s: string, sep: char): (r: seq<string>)
    ensures |r| > 0
    decreases |s|
  {
    if sep !in s then [s]
    else
      var i := IndexOf(s, sep);
      [s[..i]] + Split(s[i + 1..], sep)
  }

  /** Splitting a joined list recovers the parts, provided none of them
      contains the separator. */
  lemma {:induction false} SplitJoin(parts: seq<string>, sep: char)
    requires |parts| > 0
    requires forall k :: 0 <= k < |parts| ==> sep !in parts[k]
    ensures Split(Join(parts, sep), sep) == parts
    decreases |parts|
  {
    if |parts| > 1 {
      SplitHead(parts[0], Join(parts[1..], sep), sep);
      SplitJoin(parts[1..], sep);
      assert parts == [parts[0]] + parts[1..];
    }
  }

  /** Splitting cuts at the first separator. */
  lemma SplitHead(p: string, rest: string, sep: char)
    requires sep !in p
    ensures Split(p + [sep] + rest, sep) == [p] + Split(rest, sep)
  {
    var s := p + [sep] + rest;
    assert s[..|p|] == p && s[|p|] == sep && s[|p| + 1..] == rest;
    FirstIndex(s, sep, |p|);
  }

  /** `IndexOf` finds the first occurrence. */
  lemma FirstIndex(s: string, c: char, j: nat)
    requires j < |s| && s[j] == c && c !in s[..j]
    ensures IndexOf(s, c) == j
  {
    var i := IndexOf(s, c);
    assert forall k :: 0 <= k < j ==> s[k] == s[..j][k];
    assert forall k :: 0 <= k < i ==> s[k] == s[..i][k];
  }
}

=== FILE: values.dfy ===
/** The Python values that flow through an operator call: symbolic data
    handles (`DataNode`), scalar constant wrappers (`types.ScalarConstant`),
    plain literals, strings, lists and tuples, and every other object. */
module Values {

  /** A device string as the graph-construction layer uses it. */
  datatype Device = CPU | GPU | Mixed

  /** The element types a scalar constant can carry. */
  datatype DType =
    | BOOL
    | INT8 | INT16 | INT32 | INT64
    | UINT8 | UINT16 | UINT32 | UINT64
    | FLOAT16 | FLOAT | FLOAT64

  /** The raw Python value inside a scalar constant. */
  datatype Literal = LBool(b: bool) | LInt(i: int) | LFloat(r: real)

  /** `types.ScalarConstant`: a literal with an element-type tag. */
  datatype ScalarConstant = ScalarConstant(value: Literal, dtype: DType)

  /** `DataNode`: a symbolic reference to one output of an operator instance.
      `producer` is the id of the instance that created it. */
  datatype Handle = Handle(name: string, device: Device, producer: nat)

  /** A Python value passed to an operator. `Opaque` stands for any other
      object and records the three facts the layer asks of it: whether
      `_is_scalar_value` accepts it, its truth value, and whether the
      constant-node factory accepts it. */
  datatype Value =
    | NoneVal
    | Node(h: Handle)
    | Scalar(c: ScalarConstant)
    | BoolLit(b: bool)
    | IntLit(i: int)
    | FloatLit(r: real)
    | Str(s: string)
    | ListOf(items: seq<Value>)
    | TupleOf(items: seq<Value>)
    | Opaque(isScalar: bool, truthy: bool, convertible: bool)

  /** The Python object a literal is. */
  function LiteralValue(l: Literal): Value {
    match l
    case LBool(b) => BoolLit(b)
    case LInt(i) => IntLit(i)
    case LFloat(r) => FloatLit(r)
  }

  /** `to_scalar` in `_separate_kwargs`: a scalar constant is replaced by its
      raw value, anything else is kept. */
  function ToScalar(v: Value): (r: Value)
    ensures !r.Scalar?
    ensures !v.Scalar? ==> r == v
  {
    if v.Scalar? then LiteralValue(v.c.value) else v
  }

  /** `types._is_scalar_value` for the values that reach it. */
  predicate IsScalarValue(v: Value) {
    match v
    case BoolLit(_) => true
    case IntLit(_) => true
    case FloatLit(_) => true
    case Opaque(isScalar, _, _) => isScalar
    case _ => false
  }

  /** Python truthiness. */
  predicate Truthy(v: Value) {
    match v
    case NoneVal => false
    case Node(_) => true
    case Scalar(c) =>
      (match c.value
       case LBool(b) => b
       case LInt(i) => i != 0
       case LFloat(r) => r != 0.0)
    case BoolLit(b) => b
    case IntLit(i) => i != 0
    case FloatLit(r) => r != 0.0
    case Str(s) => |s| > 0
    case ListOf(items) => |items| > 0
    case TupleOf(items) => |items| > 0
    case Opaque(_, truthy, _) => truthy
  }

  predicate IsNumberLiteral(v: Value) {
    v.BoolLit? || v.IntLit? || v.FloatLit?
  }

  /** Whether the constant-node factory accepts `v`: scalar constants, number
      literals, flat lists or tuples of number literals, and the opaque
      objects flagged convertible. */
  predicate ConstantConvertible(v: Value) {
    match v
    case Scalar(_) => true
    case BoolLit(_) => true
    case IntLit(_) => true
    case FloatLit(_) => true
    case ListOf(items) => forall i :: 0 <= i < |items| ==> IsNumberLiteral(items[i])
    case TupleOf(items) => forall i :: 0 <= i < |items| ==> IsNumberLiteral(items[i])
    case Opaque(_, _, convertible) => convertible
    case _ => false
  }
}
